=== FILE: README.md ===
# A Dafny model of the RISC-V expression synthesiser's core

The system synthesises short RISC-V programs for integer functions with counterexample-guided inductive synthesis (CEGIS). This project models the core it stands on:

- **Instruction model (riscv_dsl.py).** Registers, instructions, printing, equality and the opcode semantics `match_op`. Division truncates toward zero and the remainder takes the dividend's sign, as in section 7.2 of the RISC-V Unprivileged ISA, except that dividing by zero raises.
- **Older instruction model (riscv_ast.py).** It has floor division, no `rem`, no shifts and a narrower argument-register range. Both models are kept side by side and their difference is proved.
- **Forward interpreter `run_riscv` (run_riscv.py).** A fold over the instructions that updates a map from register keys to integers. It is parameterised by the opcode table, so it runs either instruction model.
- **Backward resolution `match_instr` (cegis_verify.py).** It turns the reversed program into a symbolic expression for `a0`, with divisor-non-zero side conditions. `_avoid_zero_div` collects such conditions on the goal. The CEGIS driver (`verify`, `cegis_counter`, `cegis_general`) is modelled with the solver and the program generator as parameters.
- **Assembly printer and parser (dsl_input_output.py).** `full_program`, the printed listing, `identify_reg` and `input_to_ast`.
- **Expression compiler (python_ast_to_riscv_ast.py).** Its register pools and output list are modelled as an explicit `Session`. Its registers are the riscv_dsl.py classes, because the file uses `Regvar`, which riscv_ast.py does not define.

The main results are these:

- `Resolve.ResolveByNameAgreesWithRun`: when registers are compared by `py_name`, the key the interpreter uses, the expression resolved for `a0` evaluates to the value the forward run leaves in `a0`. `Resolve.ResolveAgreesWithRun` states the same for the comparison by printed form that the code uses. That version holds on programs whose registers have consistent keys, which every register set of the generator's shape has (`Resolve.GeneratorRegsConsistent`).
- `AsmIO.ReadBackPrinted`: printing a program and parsing the listing back gives the bindings and the program again, instruction by instruction.
- `CompilerFresh.CompileFreshCorrect`: a corrected compiler's code computes the expression's value, with `/` and `%` read as truncating `div` and `rem`.
- Several defects of the code as written, each shown on a concrete input (see Findings).

Integers are unbounded. The 64-bit bit-vectors of the solver queries are not modelled (see Left out).

Modules, one per file:

- `Base`: `Option` and `Result`.
- `Strings`: `str`, `int`, `split`, `lower`, `join`.
- `Arith`: the operators.
- `Dsl`: riscv_dsl.py.
- `RiscvAst`: riscv_ast.py.
- `Machine`: run_riscv.py.
- `Symbolic`: solver terms.
- `Resolve`: `match_instr`.
- `Cegis`: the driver.
- `AsmIO`: dsl_input_output.py.
- `Compiler`: the compiler as written.
- `CompilerFresh`: the corrected compiler.

## Model

| member | source | states |
|---|---|---|
| Arith.QuotRemSpec | riscv_dsl.py:6-7 | For a non-zero divisor, `x == y * pydiv(x, y) + pymod(x, y)`. The remainder is smaller than the divisor in magnitude and is zero or has the dividend's sign. |
| Arith.QuotRemUnique | riscv_dsl.py:6-7 | Truncating division and remainder are the only quotient and remainder pair with those three properties. This makes `QuotRemSpec` a complete description of `pydiv` and `pymod`. |
| Arith.FloorQuotRemSpec | riscv_ast.py:13-14 | Floor division `//` with Python's `%`: `x == y * q + r`, `r` is smaller than `y` in magnitude and is zero or has the divisor's sign. |
| Arith.FloorUnique | riscv_ast.py:13-14 | Floor division is the only quotient whose remainder has those properties. |
| Arith.FloorTruncAgree | riscv_ast.py:13-14 | Floor and truncating quotients agree exactly when the division is exact or both operands have the same sign, in both directions. |
| Arith.Apply | riscv_dsl.py:9-24 | An operator raises division by zero exactly for `div` or `rem` with a zero divisor. It raises a negative shift count exactly for a shift by a negative amount. Otherwise it yields a value, and a remainder obeys the bound and sign rules. |
| Strings.IntToString | riscv_dsl.py:39-40 | `str(n)` has no blanks and reads back with `int` as `n`. |
| Strings.NatToStringInjective | riscv_dsl.py:39-44 | Different register indices print differently, so printed-form equality is equality of bank and index. |
| Strings.ParseInt | dsl_input_output.py:32-36 | `int(s)` succeeds exactly on an optionally signed run of decimal digits. |
| Strings.WordsAreWords | dsl_input_output.py:45 | `line.split()` yields non-empty words without blanks. |
| Strings.WordsCons | dsl_input_output.py:45 | A word followed by a blank or the end of the line is the first element of the split, and the rest of the line is split on. |
| Strings.Lower | riscv_dsl.py:89 | `lower()` keeps the length, turns each ASCII capital into its small letter and leaves every other character alone. |
| Strings.Join3 | riscv_dsl.py:93 | `", ".join` of three operands puts the separator between them and nowhere else. |
| Dsl.Repr | riscv_dsl.py:39-70 | A register prints as its bank letter (`x` or `a`) followed by at least one more character, with no blanks. |
| Dsl.FixedKeys | riscv_dsl.py:63-77 | `Zero` prints as `x0` and `ReturnReg` as `a0`. These are the interpreter's keys for them. |
| Dsl.RegEqIff | riscv_dsl.py:43-44 | Register equality holds exactly when bank and index agree. Two argument registers with different variable names are equal. |
| Dsl.NewReg | riscv_dsl.py:34-36 | `Reg(n)` succeeds exactly for n in 5, 6, 7, 28, 29, 30, 31, and then prints as `x<n>`. |
| Dsl.NewRegvar | riscv_dsl.py:51-57 | `Regvar(n, name)` succeeds exactly for n in 1..7, prints as `a<n>` and is filed under `name`. |
| Dsl.OperandEqIff | riscv_dsl.py:96-99 | Two operands are equal exactly when both are the same immediate or both are equal registers. |
| Dsl.MkInstr | riscv_dsl.py:88-90 | The constructor keeps the operands and the opcode's length, turns each ASCII capital of the opcode into its small letter and keeps every other character, and the result is not a `Regassign`. |
| Dsl.Regassign | riscv_dsl.py:104-107 | `Regassign(r, n)` is `addi r, x0, n`, marked as the subclass. |
| Dsl.PyNameKeys | riscv_dsl.py:76-77 | A `Regvar` is filed under its variable name. Every other register is filed under its printed form, which is register-shaped (`x` or `a` followed by digits), so it cannot share a key with a variable name of another shape. |
| Dsl.InstrRepr | riscv_dsl.py:92-93 | A three-operand instruction prints as `op d, s1, s2`. `AsmIO.ParsePrinted` reads this form back. |
| Dsl.PyEq | riscv_dsl.py:96-101 | `==` as written is component equality, except that it is false whenever both sides are `Regassign`s. |
| Dsl.RegassignNotSelfEqual | riscv_dsl.py:96-107 | A `Regassign` is not `==` to itself, although it is component-equal to itself and `==` to the plain `addi` it stands for. |
| Dsl.InstrEquivIsEquivalence | riscv_dsl.py:95-101 | Component equality, the equality the source comments announce, is reflexive, symmetric and transitive. |
| Dsl.MatchOp | riscv_dsl.py:9-26 | `match_op` knows exactly the nine arithmetic opcodes of `arith_ops` and raises on every other string. |
| Dsl.DivRemExamples | riscv_dsl.py:21-24 | `div(-7, 3) = -2`, `div(7, -3) = -2`, `rem(-7, 3) = -1` and `rem(7, -3) = 1`. |
| Dsl.OnlyArithInstrs | riscv_dsl.py:110-115 | An instruction is kept exactly when it occurs in the input with an arithmetic opcode. |
| Dsl.OnlyArithAppend | riscv_dsl.py:110-115 | The filter keeps the original order: filtering a concatenation concatenates the filtered parts. |
| Dsl.ToStep | run_riscv.py:10-17 | An instruction is an immediate step exactly when it has the shape (register, register, integer), and a register step exactly for (register, register, register). A step writes the `py_name` of its destination. |
| Machine.StepOnce | run_riscv.py:11-17 | A step that succeeds adds or overwrites only its destination key and leaves every other register unchanged. A directive changes nothing. |
| Machine.Exec | run_riscv.py:9-17 | A run that succeeds binds exactly the caller's keys plus the written destinations. Registers never written keep their values, so the caller's bindings reach the end untouched. |
| Machine.ExecKnownOps | run_riscv.py:9-17 | Every step a successful run went through had an opcode the table knows. |
| Machine.Run | run_riscv.py:5-19 | A run returns a value only if `a0` was bound by the caller or written. If it was never written, the caller's `a0` is returned. A successful run met no unknown opcode. |
| Dsl.Run | run_riscv.py:5-19 | The interpreter with riscv_dsl.py's opcode table. A successful run met only opcodes this `match_op` knows in its three-operand register instructions. It returns the caller's `a0` unless an instruction writes that key. `Resolve.ResolveByNameAgreesWithRun` ties it to backward resolution. |
| Machine.ExecAppend | run_riscv.py:9-17 | Running a concatenation runs the first part and then the second from its result. An error in the first part stops the run. |
| RiscvAst.NewReg | riscv_ast.py:24-29 | `Reg(n)` succeeds exactly for the seven scratch indices and prints as `x<n>`. |
| RiscvAst.NewVar | riscv_ast.py:36-45 | `Var(n, name)` succeeds exactly for n in 2..7, prints as `a<n>` and is filed under `name`. |
| RiscvAst.ArgRangesDiffer | riscv_ast.py:33-39 | Every index this model accepts, riscv_dsl.py accepts too, but `a1` is accepted only there. |
| RiscvAst.Repr | riscv_ast.py:28-55 | Scratch and zero registers print in the `x` bank and argument and return registers in the `a` bank, with no blanks. |
| RiscvAst.KeysOfFixedRegisters | riscv_ast.py:48-59 | `Zero` and `ReturnReg` are filed under `x0` and `a0`. |
| RiscvAst.MkInstr | riscv_ast.py:68-70 | The constructor keeps the operands and the opcode's length, turns each ASCII capital of the opcode into its small letter and keeps every other character. |
| RiscvAst.Regassign | riscv_ast.py:76-79 | `Regassign(r, n)` is `addi r, x0, n`. |
| RiscvAst.MatchOp | riscv_ast.py:5-16 | `match_op` knows exactly add/addi, sub/subi, mul/muli and div/divi. |
| RiscvAst.OpTablesDiffer | riscv_ast.py:5-16 | The two `div`s agree exactly when the division is exact or the operands have the same sign. `rem`, `slli` and `srai` run only in riscv_dsl.py; `muli` and `divi` run only here. |
| RiscvAst.RunRiscv | run_riscv.py:1-19 | `run_riscv` as written, with the riscv_ast.py opcodes it imports. A successful run met only opcodes this `match_op` knows (so no `rem`, `slli` or `srai`) in its three-operand register instructions. It returns the caller's `a0` unless an instruction writes that key. |
| RiscvAst.ToStep | run_riscv.py:10-17 | Same shape classification as `Dsl.ToStep`, over this model's instructions. |
| RiscvAst.FloorDivExample | run_riscv.py:13-17 | `div a0, x, y` with x = -7 and y = 3 returns -3 through `run_riscv`, and -2 with the riscv_dsl.py opcodes. |
| RiscvAst.ZeroWriteVisible | run_riscv.py:8-17 | A write to `x0` is not discarded: a later read of `x0` sees the written value. |
| RiscvAst.RemUnknown | riscv_ast.py:15-16 | `rem` is unknown to `run_riscv`: a program using it stops with the "could not match" error. |
| Symbolic.SmtApply | cegis_verify.py:34-46 | Applying an operator to solver terms agrees with the concrete operator wherever the latter is defined. A remainder by zero leaves the dividend, as in the solver's logic. |
| Symbolic.ConcreteEval | cegis_verify.py:146-161 | The goal called on integer arguments, with its `/` assumed to be truncating `pydiv`, raises or gives a value. Whenever it gives a value, the solver's reading of the same term gives that value too. |
| Symbolic.EvalReadsVars | cegis_verify.py:124-126 | The value a model gives a term depends only on the constants the term mentions: two models that agree on those agree on the term. |
| Symbolic.NonZeroDivisorsDoNotRaise | cegis_verify.py:44-45 | If every divisor in a term is non-zero, evaluating the term never raises division by zero. |
| Symbolic.AvoidZeroDiv | cegis_verify.py:103-110 | The conditions `_avoid_zero_div` adds mention only the goal's own variables. |
| Symbolic.DivisorGuardsExact | cegis_verify.py:103-110 | The corrected collection holds exactly when every divisor of the goal is non-zero, in both directions. |
| Symbolic.AvoidZeroDivWeaker | cegis_verify.py:103-110 | The conditions as written are implied by the corrected ones, so they are never stronger. |
| Symbolic.WeakerByDivisors | cegis_verify.py:103-110 | Non-zero divisors everywhere imply the conditions as written. |
| Symbolic.AvoidZeroDivMisses | cegis_verify.py:103-110 | Three goals whose conditions as written all hold but which still divide by zero: a division under a negation, a division inside a divisor's dividend, and a remainder. |
| Resolve.ReverseReverse | cegis_verify.py:117-131 | Reversing twice restores the list. This is what `cegis_counter`'s second `reverse` relies on. |
| Resolve.ToVar | cegis_verify.py:26 | `to_var` succeeds exactly for a register whose key is bound (`x0` or an argument name), and yields that variable. |
| Resolve.LookupOp | cegis_verify.py:34-46 | Resolution knows an opcode exactly when `match_op` does, and gives it the same operator. |
| Resolve.MatchInstr | cegis_verify.py:25-52 | Every resolved expression and side condition mentions only bound names. A failure names an opcode `match_op` rejects, or an unbound register key. |
| Resolve.Build | cegis_verify.py:30-46 | The defining instruction resolves its operands against the earlier instructions only. It yields an expression over bound names, or a sound error. |
| Resolve.MatchInstrNone | cegis_verify.py:28-49 | Resolution finds nothing exactly when no instruction of the list writes the register. |
| Resolve.MatchInstrSnoc | cegis_verify.py:28-49 | Appending an instruction makes it the definition exactly when it writes the register; otherwise the earlier resolution stands. |
| Resolve.UnwrittenScratchUnbound | cegis_verify.py:18-33 | Reading a scratch register that no earlier instruction writes makes resolution fail, because only `x0` and the arguments are bound. |
| Resolve.ImmediateStep | cegis_verify.py:30-34 | The expression for an immediate-form write evaluates to the value the interpreter writes. |
| Resolve.RegisterStep | cegis_verify.py:36-46 | The expression for a register-form write evaluates to the value written. A `div` or `rem` adds its divisor, which is non-zero on any successful run, to the side conditions. |
| Resolve.ResolvePrefix | cegis_verify.py:22-49 | After any successful forward run of a program whose registers have consistent keys, resolving a register over the reversed program gives the value the run left there, with all side conditions true. If nothing writes the register, its key was bound on entry with that value. |
| Resolve.ResolveAgreesWithRun | cegis_verify.py:22-52 | If a program runs to value v and its registers have consistent keys, the expression resolved for `a0` evaluates to v with x0 = 0 and the arguments bound, and every divisor condition holds. If nothing writes `a0`, v is the caller's `a0`. Keys are consistent when two registers print alike exactly when they share a `py_name`. |
| Resolve.ResolveByNameAgreesWithRun | cegis_verify.py:22-52 | When writes are recognised by `py_name`, as the interpreter files them, the expression resolved for `a0` agrees with every successful run in the same way, for every program. |
| Resolve.GeneratorRegsConsistent | generate_riscv.py:10-17 | The generator's registers have consistent keys: scratch registers, `x0`, `a0`, and one `Regvar` per argument, with one index per name and no register-shaped name. So the as-written resolution agrees with the run on every program built from them. |
| Resolve.MisnamedArgDiverges | cegis_verify.py:26-36 | For `addi x5, x0, 1; add a0, a2, x0` where `a2` carries the variable `x5`, with x5 = 7, the run returns 1. Resolution by printed form evaluates to 7, and resolution by `py_name` evaluates to 1. The register set is not consistent. |
| Cegis.DecidesFindsModel | cegis_verify.py:124-126 | A solver that always decides returns a model whenever the constraints have one, and the model satisfies them. |
| Cegis.NonZeroConstraintsHold | cegis_verify.py:44-45 | The `!= 0` constraints hold in a model exactly when every guard term is non-zero there. |
| Cegis.RangeConstraintsHold | cegis_verify.py:138-141 | The range constraints hold exactly when every argument is bound to a value in [-256, 256). |
| Cegis.BaseConstraintsHold | cegis_verify.py:134-141 | The constraints set up before the loop hold exactly when x0 is 0 and every argument is in range. |
| Cegis.Verify | cegis_verify.py:55-80 | `verify` leaves the guess reversed. It answers true only for a guess whose `a0` resolves. |
| Cegis.VerifyAcceptsWrongGuess | cegis_verify.py:69-77 | `verify` accepts `addi a0, x0, 1` for the goal `x + 1`, although at x = 5 the program returns 1 and the goal is 6. |
| Cegis.VerifyAll | cegis_verify.py:55-80 | The corrected `verify` asks for unsatisfiability and recognises writes by `py_name`. It also leaves the guess reversed, and accepts only a guess whose `a0` resolves. |
| Cegis.VerifyAllSound | cegis_verify.py:55-80 | If the corrected `verify` accepts and the solver is sound, every successful run of the guess returns the goal's value, whatever registers the guess uses. |
| Cegis.UnsatMeansEqual | cegis_verify.py:122-131 | If a sound solver finds `a0 != goal` unsatisfiable with x0 = 0 and the guards, the two are equal wherever the guards hold. |
| Cegis.ModelArgs | cegis_verify.py:125-127 | The counterexample has one value per argument, in argument order, taken from the model, and exists exactly when the model binds every argument. Otherwise the error names an argument the model leaves unbound. |
| Cegis.CegisCounter | cegis_verify.py:115-131 | A round adds constraints to the shared solver and succeeds exactly when the solver does not answer `sat`. On failure the guess stays reversed and the counterexample is the model's argument values. On success the guess is restored. A round stops with an error only when resolution fails or the model leaves an argument unbound. A guess with no write to `a0` does not stop it. |
| Cegis.UnwrittenA0Round | cegis_verify.py:119-131 | When nothing in the guess writes `a0`, `None != goal` adds `True`. The round then adds the goal's divisor conditions and `Truth`, succeeds with the guess restored exactly when the solver does not answer `sat`, and otherwise returns a counterexample. |
| Cegis.EmptyGuessRefuted | cegis_verify.py:119-128 | The empty guess is refuted, and the loop goes on, whenever the solver finds a model binding every argument. |
| Cegis.RoundConstraints | cegis_verify.py:115-131 | For a goal with no division conditions and a guess resolved without side conditions, a round adds exactly `a0 != goal` to the accumulated constraints. It succeeds when the solver does not answer `sat`; otherwise it returns the model's argument values and leaves the guess reversed. |
| Cegis.GoalAt | cegis_verify.py:146-161 | Calling the goal function on an example's arguments succeeds exactly when concrete evaluation does, and returns that value (with the goal's `/` assumed to be truncating). |
| Cegis.InitialExamples | cegis_verify.py:143-149 | The first example is at all-zero arguments, or all-one arguments if the goal raises at zero. Its value is the goal's. |
| Cegis.CegisLoop | cegis_verify.py:151-161 | The loop only appends examples, each with the goal's value. It returns a guess proposed by the generator, and only after a round that succeeded, with the solver not answering `sat` on the final constraints. |
| Cegis.LoopRefuted | cegis_verify.py:151-161 | A failed round appends exactly one example, the counterexample with the goal's value at it, and carries the solver's constraints into the next round. |
| Cegis.CegisGeneral | cegis_verify.py:133-161 | `cegis_general` starts from the initial example and the range constraints. Its answer carries valid examples and a final round the solver did not refute. |
| Cegis.FirstRound | cegis_verify.py:115-131 | Against the goal `x - x`, the guess `srai a0, a2, 8` is refuted by a negative x in range. |
| Cegis.SecondRound | cegis_verify.py:115-131 | The next guess, `addi x5, a2, -1; srai x5, x5, 9; addi a0, x5, 1`, is accepted. It differs from the goal only at x >= 1, and the accumulated constraint x < 0 rules out every such x. |
| Cegis.SharedSolverAcceptsWrongGuess | cegis_verify.py:133-161 | `cegis_general` returns the second guess for `x - x`. That guess meets every example the loop collected, and so does the first guess at x = 0. Yet at x = 1 the second guess returns 1 while the goal is 0. |
| Cegis.CounterFresh | cegis_verify.py:115-131 | The corrected round succeeds exactly when a fresh query, with writes recognised by `py_name`, refutes every difference from the goal. It hands the guess back in order, with a counterexample from the model on failure. A guess with no write to `a0` is refuted by any in-range arguments the solver finds. |
| Cegis.CegisLoopFresh | cegis_verify.py:151-161 | The corrected loop appends valid examples and returns only a guess that a fresh query accepts. |
| Cegis.CegisGeneralFresh | cegis_verify.py:133-161 | The corrected driver's answer is accepted by a fresh query and carries valid examples. |
| Cegis.FreshQueryHolds | cegis_verify.py:119-122 | The fresh query holds at in-range arguments exactly when the guess and the goal differ there. |
| Cegis.FreshAcceptsSound | cegis_verify.py:115-131 | If a fresh query accepts a guess, every successful run on in-range arguments at which the goal does not divide by zero returns the goal's value, whatever registers the guess uses. |
| Cegis.CegisFreshSound | cegis_verify.py:133-161 | The corrected driver's answer computes the goal on every in-range input at which the goal does not divide by zero. |
| Cegis.FreshRejectsSecondGuess | cegis_verify.py:119-128 | The fresh query refutes the guess the shared solver accepted, with x = 1. |
| AsmIO.Regassigns | dsl_input_output.py:9-10 | One `addi reg, x0, value` per binding, in the bindings' order. |
| AsmIO.FullProgram | dsl_input_output.py:7-12 | The program is the prologue, the bindings, the instructions and the epilogue, in that order. |
| AsmIO.Listing | dsl_input_output.py:24-25 | One line per instruction: its printed form and a newline. |
| AsmIO.IdentifyReg | dsl_input_output.py:28-37 | A recognised operand yields a valid register of the bank its first letter names. |
| AsmIO.IdentifyRegRoundTrip | dsl_input_output.py:28-37 | Every printed register reads back as a register equal to it. |
| AsmIO.ParseWords | dsl_input_output.py:46-57 | A line is skipped exactly when it is blank or its first word is not an arithmetic opcode. An error arises only on an arithmetic line. A parsed instruction keeps its opcode and has two registers and a third operand that is an immediate exactly for the `...i` opcodes. |
| AsmIO.ParseLine | dsl_input_output.py:45-57 | A line is skipped exactly when it has no words or its first word is not an arithmetic opcode. Anything parsed is well formed and has the first word as its opcode. `AsmIO.ParsePrinted` shows that it inverts printing. |
| AsmIO.ParseLines | dsl_input_output.py:44-57 | Every instruction read from a file has that well-formed shape. |
| AsmIO.ParseLinesAppend | dsl_input_output.py:44-57 | Reading two pieces of a file and joining the results is reading the whole. |
| AsmIO.DropLastInstr | dsl_input_output.py:58 | `r[:-1]` is a prefix one shorter, or empty for an empty list. |
| AsmIO.InputToAst | dsl_input_output.py:41-58 | `input_to_ast` returns only well-formed arithmetic instructions. |
| AsmIO.ParsePrinted | dsl_input_output.py:45-54 | A printed well-formed instruction parses back to an instruction equal to it component by component. |
| AsmIO.SkipsFraming | dsl_input_output.py:45-46 | The prologue's directive, blank and label lines and the epilogue's `ecall` are skipped. |
| AsmIO.ParsesEpilogue | dsl_input_output.py:46-58 | The epilogue contributes exactly one instruction, the one the final slice drops. |
| AsmIO.ParsesWellFormed | dsl_input_output.py:44-57 | The listing of well-formed instructions reads back as equally many instructions, each equal to its original. |
| AsmIO.ReadBackFramed | dsl_input_output.py:41-58 | Framing that reads as nothing before the body and one instruction after it disappears again. |
| AsmIO.ReadBackPrinted | dsl_input_output.py:61-66 | Printing a program with `full_program` and reading the listing back gives the bindings' assignments followed by the program, instruction by instruction equal. |
| Compiler.Pop | python_ast_to_riscv_ast.py:22-23 | A register is taken exactly when more than one is left, and it is the pool's last one. The pool loses exactly that register. |
| Compiler.TransformConst | python_ast_to_riscv_ast.py:21-27 | A constant takes the pool's last register and appends exactly `addi reg, x0, val`. It fails exactly when at most one register is left. |
| Compiler.TransformVar | python_ast_to_riscv_ast.py:29-37 | A known name gets its recorded register back with no change. A new name gets an argument register carrying it, numbered by the last free index, recorded in the table. It fails exactly when at most one index is left. |
| Compiler.CheckFree | python_ast_to_riscv_ast.py:39-42 | Everything but an argument register, including `a0`, goes back to the end of the pool. Nothing else changes. |
| Compiler.TransformExpr | python_ast_to_riscv_ast.py:44-97 | Success requires only supported nodes. Code only grows, by one instruction per constant, operator and negation. The variable table only grows. A binary operator ends with its opcode writing `a0` and answers `a0`. A negation ends with `sub r, x0, r`. |
| Compiler.Compile | python_ast_to_riscv_ast.py:16-19 | The output starts with the prologue and ends with `addi a0, last, 0`, after exactly the expression's instructions. |
| Compiler.PrologueSkipped | riscv_dsl.py:117 | The prologue's directive lines change nothing when run. |
| Compiler.FirstRegisters | python_ast_to_riscv_ast.py:8-9 | The first constant goes to `x31` and the first variable to `a2`. |
| Compiler.ReturnRegEntersPool | python_ast_to_riscv_ast.py:39-50 | After `1 + (2 + 3)`, `a0` is in the scratch pool and the next constant is loaded into it. |
| Compiler.CompileSumOfSums | python_ast_to_riscv_ast.py:46-51 | `(1 + 2) + (3 + 4)` compiles to two sums into `a0` followed by `add a0, a0, a0`. |
| Compiler.RunSumOfSums | python_ast_to_riscv_ast.py:46-51 | The compiled `(1 + 2) + (3 + 4)` returns 14. |
| Compiler.ValueSumOfSums | python_ast_to_riscv_ast.py:46-51 | The expression's value is 10. |
| Compiler.RunNegBody | python_ast_to_riscv_ast.py:88-91 | The code for `-x + x` overwrites `x`'s register with `-x` and returns `-2x`. |
| Compiler.RunNegThenAdd | python_ast_to_riscv_ast.py:88-91 | The compiled `-x + x` returns -10 at x = 5. |
| Compiler.ValueNegThenAdd | python_ast_to_riscv_ast.py:88-91 | The expression's value at x = 5 is 0. |
| Compiler.ShiftsDoNotRun | python_ast_to_riscv_ast.py:76-81 | The compiled `x << 1` stops at its `sll`, which `match_op` does not know. |
| CompilerFresh.TransformFresh | python_ast_to_riscv_ast.py:44-97 | The corrected transform also needs only supported nodes, and it emits exactly one instruction per constant, operator and negation. |
| CompilerFresh.CompileFresh | python_ast_to_riscv_ast.py:16-19 | The corrected output has the same frame: prologue, the expression's instructions, and `addi a0, last, 0`. |
| CompilerFresh.FreshShape | python_ast_to_riscv_ast.py:39-97 | The pool keeps distinct scratch registers. A result register is the variable's own or one taken from the pool. The code writes only pool registers. |
| CompilerFresh.FreshCorrect | python_ast_to_riscv_ast.py:44-97 | From any state where x0 is 0 and the variables hold their values, the emitted code leaves the expression's value (with `/` and `%` read as truncating `div` and `rem`) in the result register, or raises what evaluating it raises. |
| CompilerFresh.CompileFreshCorrect | python_ast_to_riscv_ast.py:16-97 | For every shift-free expression the corrected compiler accepts, running its program with the variables bound returns the expression's value (with `/` and `%` read as truncating `div` and `rem`), or raises what evaluating it raises. |
| CompilerFresh.FreshSumOfSums | python_ast_to_riscv_ast.py:46-51 | The corrected compiler's `(1 + 2) + (3 + 4)` returns 10. |
| CompilerFresh.FreshNegThenAdd | python_ast_to_riscv_ast.py:88-91 | The corrected compiler's `-x + x` returns 0 at x = 5. |

## Left out

- **Solver internals.** Satisfiability checking, model extraction and `as_signed_long` become an abstract solver: a function from constraints to `sat` with a model, `unsat` or `unknown`. It is assumed sound (and deciding) only where a lemma says so. `print` output of `verify` is not modelled.
- **64-bit bit-vectors.** Solver terms are 64-bit bit-vectors in the source and unbounded integers here. Wrap-around, `avoid_overflow` and the signed reading of models are not modelled. Shifts use Python's meaning and raise on a negative count.
- Symbolic.SmtApply: its contract fixes only the remainder by zero (the dividend). The body also gives SMT-LIB's answers for a quotient by zero (-1 or 1) and for negative shift counts. No lemma depends on them, since every lemma about values assumes non-zero divisors.
- **Other parts of cegis_verify.py.** `bottom_up`, `DirectCegis` and the `cegis_*` entry points that only pick a generator are not modelled. The program generator `RiscvGen` is not part of this model; it becomes an abstract function from examples and a minimum length to a guess. The `naive_gen` test at cegis_verify.py:152 never holds as written: `gen.naive_gen` is a bound method, and it is compared with the plain function `RiscvGen.naive_gen`. So every generator is called with the examples and the length, and the model has only that call. `naive_gen` itself takes no arguments (generate_riscv.py:19), so `cegis_0` raises `TypeError` on its first guess either way; it is not modelled.
- **pydiv and pymod.** They go through the float `int(x / y)`. The model uses exact truncating integer division, which is what the float detour computes only while the operands are exactly representable as floats.
- **File input and output.** The `open`/`write` of `ast_to_output` and the file read of `input_to_ast` are not modelled. A listing is its sequence of lines, each ending in a newline.
- Strings.ParseInt: accepts only an optional sign and ASCII digits. Python's `int` also accepts surrounding blanks, `_` separators and non-ASCII digits.
- Strings.Lower: covers ASCII letters only. Python's `lower()` also folds non-ASCII capitals.
- **`identify_reg`'s errors.** Its exceptions (index, conversion, register assertion, its own) become one error, because `input_to_ast` turns each of them into the same "invalid instruction in input file".
- **The compiler's class-level state.** Its pools, variable table and output list are class attributes, and the output list is `prog_start` itself. Sharing them between compilers is not modelled: each compilation starts from a fresh `Session` holding the initial values.
- **USub's opcode.** `Instr("Sub", ...)` is stored lower-cased, so the model writes `sub` directly.
- CompilerFresh.CompileFreshCorrect: the reference value it is proved against, `Compiler.Value`, gives `/` and `%` the truncating meanings of `div` and `rem` (`pydiv` and `pymod`), the instructions they are compiled to (python_ast_to_riscv_ast.py:64-75). Python's `/` is true division and its `%` floors. So for operands of different signs the compiled code does not compute Python's value: `-7 % 3` is 2 in Python and -1 from `rem`. On the goal side the model assumes `/` is truncating `pydiv` (see the `Symbolic.ConcreteEval` line below) and keeps Python's `%`, which `Symbolic` reads as `FloorMod`.
- CompilerFresh.FreshCorrect: proved against `Compiler.Value`, which reads `/` and `%` as truncating `div` and `rem`, as the line above explains. Python's true `/` and flooring `%` are not what it states.
- Symbolic.ConcreteEval: assumes the goal's `/` is truncating integer division (`pydiv`). The goal is typed `Callable[..., int]` (cegis_verify.py:15-16), but `expr_to_func` (python_ast_to_func.py:19-39) builds the lambda from the parsed text unchanged and never applies `TransformDiv`. `TransformDiv` is used only in that file's own demonstration (python_ast_to_func.py:42-44), and even there it leaves the operands of a division it replaces unvisited (python_ast_to_func.py:9-11). A goal that uses Python's true `/` therefore gives non-integer example values at cegis_verify.py:146,149,161: `x / 3` at x = 4 gives 1.333…, where the model gives 1. The model does not represent such values. The same gap applies to `Cegis.GoalAt` and to every example value the loops collect.
- Cegis.GoalAt: inherits `Symbolic.ConcreteEval`'s integer reading of the goal's `/`. A goal using Python's true `/` returns a float there, which the model does not represent.
- CompilerFresh.CompileFreshCorrect: excludes shifts, because `sll` and `sra` are unknown to `match_op` (`Compiler.ShiftsDoNotRun`). It also excludes variable names shaped like register keys (`x5`, `a0`), which would share a key with a register.
- Resolve.ResolveAgreesWithRun: as written, `match_instr` finds a register's definition by printed form (`repr(dest) == repr(goaldest)`), while the interpreter and `to_var` key registers by `py_name`. The agreement is therefore proved only for programs whose registers have consistent keys. Every register set of the generator's shape meets it (`Resolve.GeneratorRegsConsistent`, generate_riscv.py:10,17). `Resolve.MisnamedArgDiverges` shows a program that does not meet it. The corrected members `Cegis.VerifyAllSound`, `Cegis.FreshAcceptsSound` and `Cegis.CegisFreshSound` resolve by `py_name` (`Resolve.ResolveByNameAgreesWithRun`) and need no condition. The as-written `Cegis.Verify` and `Cegis.CegisCounter` keep the printed-form comparison.
- Resolve.ResolvePrefix: under the as-written printed-form keying it requires consistent keys, for the same reason as the line above. Under the `py_name` keying it needs no condition.
- AsmIO.FullProgram: the bindings are a sequence of register and value pairs. In the source they are a `dict[Regvar, int]`, but `Reg` defines `__eq__` without `__hash__` (riscv_dsl.py:43-44), so a `Regvar` cannot be a dictionary key. Any non-empty bindings raise `TypeError` before `full_program` runs, including the call at dsl_input_output.py:67. In the source only empty bindings reach `full_program`. `AsmIO.Regassigns` and `AsmIO.ReadBackPrinted` also state what happens for non-empty bindings, which the source cannot reach.
- Cegis.CegisLoop: takes a fuel bound, and running out of fuel is an error. A run of the source that never ends has no counterpart.
- Cegis.CegisLoopFresh: takes the same fuel bound.
- **Which opcode table runs the compiler's code.** The compiled code is run with riscv_dsl.py's opcode table, the model whose registers the compiler uses. `RiscvAst.OpTablesDiffer` states how the other table differs.

## Findings

| source | as written | input that shows it | evidently intended | confidence | as-written member | corrected member |
|---|---|---|---|---|---|---|
| riscv_dsl.py:96-101 | `__eq__` requires `type(other) is Instr`, and a `Regassign` is a subclass | `Regassign(x5, 1) == Regassign(x5, 1)` is false | equality on opcode and operands, as the comment says | high (not executed) | Dsl.RegassignNotSelfEqual | Dsl.InstrEquivIsEquivalence |
| cegis_verify.py:69-77 | `verify` asks whether `a0 == goal` is satisfiable, which is true as soon as they agree at one point | goal `x + 1`, guess `addi a0, x0, 1`: accepted, but they differ at x = 5 | accept only when `a0 != goal` is unsatisfiable | high (not executed) | Cegis.VerifyAcceptsWrongGuess | Cegis.VerifyAllSound |
| cegis_verify.py:103-110 | `_avoid_zero_div` stops below a division, ignores remainders, and skips nodes with fewer than two arguments, such as a negation | `-(x / y)`, `(x / y) / z` and `x % y` at y = 0 | a non-zero condition for every divisor in the goal | high (not executed) | Symbolic.AvoidZeroDivMisses | Symbolic.DivisorGuardsExact |
| cegis_verify.py:115-161 | `cegis_general` passes one solver to every round, so each refuted guess leaves its `a0 != goal` behind | goal `x - x`: `srai a0, a2, 8` is refuted at some x < 0. Then `addi x5, a2, -1; srai x5, x5, 9; addi a0, x5, 1`, which returns 0 on both examples, is accepted, although it returns 1 at x = 1 | each guess checked against the base constraints only | medium (not executed) | Cegis.SharedSolverAcceptsWrongGuess | Cegis.CegisFreshSound |
| cegis_verify.py:30,36 | `match_instr` finds a write by printed form, while `to_var` and `run_riscv` key registers by `py_name` | `a2` carrying the variable `x5` in `addi x5, x0, 1; add a0, a2, x0`, with x5 = 7: the run returns 1, and the resolved term evaluates to 7 | compare registers by `py_name` | medium (not executed) | Resolve.MisnamedArgDiverges | Resolve.ResolveByNameAgreesWithRun |
| python_ast_to_riscv_ast.py:46-51 | every operator writes `a0`, so a left operand held in `a0` is overwritten before it is read | `(1 + 2) + (3 + 4)` returns 14 | 10 | high (not executed) | Compiler.RunSumOfSums | CompilerFresh.FreshSumOfSums |
| python_ast_to_riscv_ast.py:88-91 | unary minus writes the negation back into its operand's register, which may be a variable's | `-x + x` returns -10 at x = 5 | 0 | high (not executed) | Compiler.RunNegThenAdd | CompilerFresh.FreshNegThenAdd |

The corrected definitions are:

- `Dsl.InstrEquiv`: component equality.
- `Cegis.VerifyAll`: `verify` with the unsatisfiability check, resolving by `py_name`.
- `Symbolic.DivisorGuards`: the complete divisor conditions.
- `Cegis.CegisGeneralFresh`: the loop with a fresh query per round.
- `Resolve.MatchInstr` with the `ByName` keying: resolution by `py_name`.
- `CompilerFresh.CompileFresh`: fresh destination registers.

The two compiler rows name concrete programs. The general statement behind them is `CompilerFresh.CompileFreshCorrect`.

**The two division semantics.** The difference between riscv_ast.py's floor division and riscv_dsl.py's truncating division is not listed as a finding. Both are modelled, and `RiscvAst.OpTablesDiffer` and `RiscvAst.FloorDivExample` state the difference.

=== FILE: arith.dfy ===
/** Integer semantics of the arithmetic opcodes.

    Two division conventions live side by side: `riscv_dsl.py` truncates toward
    zero (`pydiv`, `pymod`), the older `riscv_ast.py` floors (`//`).  Dafny's
    own `/` and `%` are Euclidean, so both are written out here.  Python ints
    are unbounded; no 64-bit wrap-around is modelled.
 */
module Arith {
  import opened Base

  /** The operations the opcodes of either instruction model denote. */
  datatype Op = Add | Sub | Mul | Shl | Sra | TruncDiv | TruncRem | FloorDiv | FloorMod

  /** What Python raises on bad operands: `ZeroDivisionError` for a zero
      divisor, `ValueError` for a negative shift count. */
  datatype ArithError = ZeroDivision | NegativeShift

  function Abs(x: int): nat
  {
    if x < 0 then -x else x
  }

  /** Same sign as `x` or zero: the remainder convention of `pymod`. */
  predicate SignOf(r: int, x: int)
  {
    r == 0 || (r < 0) == (x < 0)
  }

  // ---------------------------------------------------------------------------
  // Truncating division (`pydiv`, `pymod`)

  /** `int(x / y)`: the quotient rounded toward zero. */
  function Quot(x: int, y: int): int
    requires y != 0
  {
    var m := Abs(x) / Abs(y);
    if (x < 0) == (y < 0) then m else -m
  }

  /** `x - y * int(x / y)`: the remainder that takes the dividend's sign. */
  function Rem(x: int, y: int): int
    requires y != 0
  {
    x - y * Quot(x, y)
  }

  lemma EuclidNat(a: nat, b: nat)
    requires b > 0
    ensures a == b * (a / b) + a % b && 0 <= a % b < b
  {
  }

  /** `pymod` stays below the divisor in magnitude and follows the dividend's
      sign; together with `x == y * pydiv(x, y) + pymod(x, y)` this pins the
      pair down (see `QuotRemUnique`). */
  lemma QuotRemSpec(x: int, y: int)
    requires y != 0
    ensures x == y * Quot(x, y) + Rem(x, y)
    ensures Abs(Rem(x, y)) < Abs(y)
    ensures SignOf(Rem(x, y), x)
  {
    var m := Abs(x) / Abs(y);
    var k := Abs(x) % Abs(y);
    EuclidNat(Abs(x), Abs(y));
    if x >= 0 && y > 0 {
      assert Rem(x, y) == k;
    } else if x < 0 && y > 0 {
      assert Quot(x, y) == -m;
      assert y * Quot(x, y) == -(y * m);
      assert Rem(x, y) == -k;
    } else if x >= 0 && y < 0 {
      assert Quot(x, y) == -m;
      assert y * Quot(x, y) == (-y) * m;
      assert Rem(x, y) == k;
    } else {
      assert Quot(x, y) == m;
      assert y * m == -((-y) * m);
      assert Rem(x, y) == -k;
    }
  }

  lemma AbsMul(y: int, d: int)
    ensures Abs(y * d) == Abs(y) * Abs(d)
  {
    if y < 0 && d >= 0 {
      assert y * d == -((-y) * d);
    } else if y >= 0 && d < 0 {
      assert y * d == -(y * (-d));
    } else if y < 0 && d < 0 {
      assert y * d == (-y) * (-d);
    }
  }

  lemma MulAtLeast(a: nat, b: nat)
    requires b >= 1
    ensures a * b >= a
  {
    assert a * b == a * (b - 1) + a;
  }

  /** A multiple of a non-zero `y` smaller than `y` in magnitude is zero. */
  lemma SmallMultiple(y: int, d: int)
    requires y != 0
    requires Abs(y * d) < Abs(y)
    ensures d == 0
  {
    AbsMul(y, d);
    if d != 0 {
      MulAtLeast(Abs(y), Abs(d));
    }
  }

  /** Two remainders that each stay below `|y|` and share a sign differ by
      less than `|y|`. */
  lemma SameSignGap(r: int, r0: int, x: int, y: int)
    requires Abs(r) < Abs(y) && Abs(r0) < Abs(y)
    requires SignOf(r, x) && SignOf(r0, x)
    ensures Abs(r0 - r) < Abs(y)
  {
  }

  /** Any quotient/remainder pair obeying the round-toward-zero rule is the
      one `pydiv`/`pymod` compute (the rule of section 7.2 of the RISC-V
      Unprivileged ISA, division by zero aside). */
  lemma QuotRemUnique(x: int, y: int, q: int, r: int)
    requires y != 0
    requires x == y * q + r
    requires Abs(r) < Abs(y)
    requires SignOf(r, x)
    ensures q == Quot(x, y) && r == Rem(x, y)
  {
    QuotRemSpec(x, y);
    var q0, r0 := Quot(x, y), Rem(x, y);
    assert y * (q - q0) == y * q - y * q0;
    SameSignGap(r, r0, x, y);
    SmallMultiple(y, q - q0);
  }

  // ---------------------------------------------------------------------------
  // Floor division (`//` in riscv_ast.py) and Python's `%`

  /** `x // y`: the quotient rounded toward negative infinity. */
  function FloorQuot(x: int, y: int): int
    requires y != 0
  {
    if y > 0 then x / y else (-x) / (-y)
  }

  /** `x % y` on Python ints: the remainder that takes the divisor's sign. */
  function FloorRem(x: int, y: int): int
    requires y != 0
  {
    x - y * FloorQuot(x, y)
  }

  lemma FloorQuotRemSpec(x: int, y: int)
    requires y != 0
    ensures x == y * FloorQuot(x, y) + FloorRem(x, y)
    ensures Abs(FloorRem(x, y)) < Abs(y)
    ensures SignOf(FloorRem(x, y), y)
  {
    if y > 0 {
      assert FloorRem(x, y) == x % y;
    } else {
      var q := (-x) / (-y);
      assert -x == (-y) * q + (-x) % (-y);
      assert y * q == -((-y) * q);
      assert FloorRem(x, y) == -((-x) % (-y));
    }
  }

  /** Floor and truncating division disagree exactly when the division is
      inexact and the operands have opposite signs. */
  lemma FloorTruncAgree(x: int, y: int)
    requires y != 0
    ensures FloorQuot(x, y) == Quot(x, y) <==> Rem(x, y) == 0 || (x < 0) == (y < 0)
  {
    QuotRemSpec(x, y);
    FloorQuotRemSpec(x, y);
    var r := Rem(x, y);
    if r == 0 || (x < 0) == (y < 0) {
      // the truncating remainder already has the divisor's sign
      assert SignOf(FloorRem(x, y), y);
      FloorUnique(x, y, Quot(x, y), r);
    }
  }

  lemma FloorUnique(x: int, y: int, q: int, r: int)
    requires y != 0
    requires x == y * q + r
    requires Abs(r) < Abs(y)
    requires SignOf(r, y)
    ensures q == FloorQuot(x, y)
  {
    FloorQuotRemSpec(x, y);
    var q0, r0 := FloorQuot(x, y), FloorRem(x, y);
    assert y * (q - q0) == y * q - y * q0;
    SameSignGap(r, r0, y, y);
    SmallMultiple(y, q - q0);
  }

  // ---------------------------------------------------------------------------
  // Shifts on Python ints

  function Pow2(n: nat): (p: nat)
    ensures p >= 1
  {
    if n == 0 then 1 else 2 * Pow2(n - 1)
  }

  /** `x << n`: multiplication by 2^n. */
  function ShiftLeft(x: int, n: nat): int
  {
    x * Pow2(n)
  }

  /** `x >> n`: arithmetic shift, i.e. division by 2^n rounded down. */
  function ShiftRight(x: int, n: nat): int
  {
    x / Pow2(n)
  }

  // ---------------------------------------------------------------------------
  // One operation on Python ints

  /** Applying an operation to two Python ints; `Err` where Python raises. */
  function Apply(op: Op, x: int, y: int): (r: Result<int, ArithError>)
    ensures r == Err(ZeroDivision) <==> op in {TruncDiv, TruncRem, FloorDiv, FloorMod} && y == 0
    ensures r == Err(NegativeShift) <==> op in {Shl, Sra} && y < 0
    ensures op == TruncRem && y != 0 ==> r.Ok? && Abs(r.value) < Abs(y) && SignOf(r.value, x)
    ensures op == FloorMod && y != 0 ==> r.Ok? && Abs(r.value) < Abs(y) && SignOf(r.value, y)
  {
    match op
    case Add => Ok(x + y)
    case Sub => Ok(x - y)
    case Mul => Ok(x * y)
    case Shl => if y < 0 then Err(NegativeShift) else Ok(ShiftLeft(x, y))
    case Sra => if y < 0 then Err(NegativeShift) else Ok(ShiftRight(x, y))
    case TruncDiv =>
      if y == 0 then Err(ZeroDivision)
      else
        QuotRemSpec(x, y);
        Ok(Quot(x, y))
    case TruncRem =>
      if y == 0 then Err(ZeroDivision)
      else
        QuotRemSpec(x, y);
        Ok(Rem(x, y))
    case FloorDiv => if y == 0 then Err(ZeroDivision) else Ok(FloorQuot(x, y))
    case FloorMod =>
      if y == 0 then Err(ZeroDivision)
      else
        FloorQuotRemSpec(x, y);
        Ok(FloorRem(x, y))
  }
}

=== FILE: asm_io.dfy ===
/** The assembly printer and parser of dsl_input_output.py.

    `full_program` wraps a program in the fixed prologue and epilogue, with
    one `addi reg, x0, value` per argument binding; `ast_to_output` prints it
    one `repr` per line. `input_to_ast` reads such a listing back: it keeps
    the lines whose first word is an arithmetic opcode, parses their three
    operands and drops the last one it kept (the epilogue's `addi a7, x0,
    93`). The main result is that reading back a printed program yields the
    bindings and the program again, instruction by instruction equal under
    component equality.

    File handling is not modelled: a listing is the sequence of its lines,
    each with its newline.
 */
module AsmIO {
  import opened Base
  import opened Strings
  import Dsl

  /** `identify_reg` raises (an `IndexError`, a `ValueError` from `int`, a
      failed register assertion or its own exception) and `input_to_ast`
      turns every exception of a line into "invalid instruction in input
      file"; the model keeps only that one outcome. */
  datatype AsmError = InvalidInstruction

  // ---------------------------------------------------------------------------
  // Printing

  /** One `Regassign` per binding, in the dictionary's order. */
  function Regassigns(binds: seq<(Dsl.Reg, int)>): (r: seq<Dsl.Instr>)
    ensures |r| == |binds|
    ensures forall k :: 0 <= k < |binds| ==> r[k] == Dsl.Regassign(binds[k].0, binds[k].1)
  {
    if binds == [] then [] else [Dsl.Regassign(binds[0].0, binds[0].1)] + Regassigns(binds[1..])
  }

  /** `full_program(instrs, args)`. */
  function FullProgram(instrs: seq<Dsl.Instr>, binds: seq<(Dsl.Reg, int)>): (p: seq<Dsl.Instr>)
    ensures |p| == |Dsl.ProgStart| + |binds| + |instrs| + |Dsl.ProgEnd|
  {
    Dsl.ProgStart + (Regassigns(binds) + instrs) + Dsl.ProgEnd
  }

  /** The lines `ast_to_output` writes: `repr(line) + '\n'` each. */
  function Listing(p: seq<Dsl.Instr>): (lines: seq<string>)
    ensures |lines| == |p|
    ensures forall k :: 0 <= k < |p| ==> lines[k] == Dsl.InstrRepr(p[k]) + "\n"
  {
    if p == [] then [] else [Dsl.InstrRepr(p[0]) + "\n"] + Listing(p[1..])
  }

  lemma ListingAppend(a: seq<Dsl.Instr>, b: seq<Dsl.Instr>)
    ensures Listing(a + b) == Listing(a) + Listing(b)
  {
  }

  // ---------------------------------------------------------------------------
  // Parsing

  /** `identify_reg(s)`: `a0` and `x0` by their second character alone,
      otherwise the index after the bank letter, checked by the register
      constructors. An argument register gets the digits as its name. */
  function IdentifyReg(s: string): (r: Result<Dsl.Reg, AsmError>)
    ensures r.Ok? ==> |s| >= 2 && Dsl.Valid(r.value) && Dsl.Bank(r.value) == s[0]
  {
    if |s| < 2 then Err(InvalidInstruction)
    else if s[0] == 'a' then
      if s[1] == '0' then Ok(Dsl.ReturnReg)
      else
        match ParseInt(s[1..])
        case None => Err(InvalidInstruction)
        case Some(n) => if Dsl.NewRegvar(n, s[1..]).Ok? then Ok(Dsl.ArgReg(n, s[1..])) else Err(InvalidInstruction)
    else if s[0] == 'x' then
      if s[1] == '0' then Ok(Dsl.Zero)
      else
        match ParseInt(s[1..])
        case None => Err(InvalidInstruction)
        case Some(n) => if Dsl.NewReg(n).Ok? then Ok(Dsl.Scratch(n)) else Err(InvalidInstruction)
    else Err(InvalidInstruction)
  }

  /** A printed register reads back as a register that prints the same. */
  lemma IdentifyRegRoundTrip(r: Dsl.Reg)
    requires Dsl.Valid(r)
    ensures IdentifyReg(Dsl.Repr(r)).Ok?
    ensures Dsl.RegEq(IdentifyReg(Dsl.Repr(r)).value, r)
  {
    var s := Dsl.Repr(r);
    var digits := IntToString(Dsl.Num(r));
    assert s[1..] == digits;
    if r.Scratch? || r.ArgReg? || r.TempRes? {
      assert Dsl.Num(r) >= 1;
      assert digits == NatToString(Dsl.Num(r));
      assert s[1] == digits[0] != '0';
    } else {
      assert IntToString(0) == "0";
    }
  }

  /** The opcode's last letter is `i`: `words[0][-1] == 'i'`. */
  predicate IsImmediateOp(op: string)
  {
    |op| > 0 && op[|op| - 1] == 'i'
  }

  /** The shape `input_to_ast` produces and `ast_to_output` can print back
      faithfully: an arithmetic opcode, two valid registers, and a third
      operand that is an immediate exactly for the `...i` opcodes. */
  predicate WellFormed(i: Dsl.Instr)
  {
    && i.op in Dsl.ArithOps
    && |i.args| == 3
    && i.args[0].R? && Dsl.Valid(i.args[0].reg)
    && i.args[1].R? && Dsl.Valid(i.args[1].reg)
    && (i.args[2].Imm? <==> IsImmediateOp(i.op))
    && (i.args[2].R? ==> Dsl.Valid(i.args[2].reg))
  }

  /** The body of the `for line in f` loop on the line's words: `Ok(None)`
      for a line that is not an arithmetic instruction, the parsed
      instruction otherwise. Operands are the second and third words without
      their last character (the comma) and the fourth word; further words
      are ignored. */
  function ParseWords(words: seq<string>): (r: Result<Option<Dsl.Instr>, AsmError>)
    ensures r.Ok? && r.value.None? <==> (words == [] || words[0] !in Dsl.ArithOps)
    ensures r.Ok? && r.value.Some? ==> WellFormed(r.value.value) && r.value.value.op == words[0]
    ensures r.Err? ==> |words| >= 1 && words[0] in Dsl.ArithOps
  {
    if |words| == 0 || words[0] !in Dsl.ArithOps then Ok(None)
    else if |words| < 4 then Err(InvalidInstruction)
    else
      var op := words[0];
      var dest :- IdentifyReg(DropLast(words[1]));
      var arg1 :- IdentifyReg(DropLast(words[2]));
      if IsImmediateOp(op) then
        match ParseInt(words[3])
        case None => Err(InvalidInstruction)
        case Some(n) => Ok(Some(Dsl.Instr(op, [Dsl.R(dest), Dsl.R(arg1), Dsl.Imm(n)], false)))
      else
        var arg2 :- IdentifyReg(words[3]);
        Ok(Some(Dsl.Instr(op, [Dsl.R(dest), Dsl.R(arg1), Dsl.R(arg2)], false)))
  }

  /** One line: `line.split()`, then the cases above. A line without words
      or whose first word is no arithmetic opcode is skipped; anything parsed
      is well formed and carries the first word as its opcode. */
  function ParseLine(line: string): (r: Result<Option<Dsl.Instr>, AsmError>)
    ensures r.Ok? && r.value.None? <==> (Words(line) == [] || Words(line)[0] !in Dsl.ArithOps)
    ensures r.Ok? && r.value.Some? ==> WellFormed(r.value.value) && r.value.value.op == Words(line)[0]
  {
    ParseWords(Words(line))
  }

  /** The loop of `input_to_ast` before the final slice: the parsed
      instructions in order, or the first line's error. */
  function ParseLines(lines: seq<string>): (r: Result<seq<Dsl.Instr>, AsmError>)
    ensures r.Ok? ==> forall k :: 0 <= k < |r.value| ==> WellFormed(r.value[k])
  {
    if lines == [] then Ok([])
    else
      var first :- ParseLine(lines[0]);
      var rest :- ParseLines(lines[1..]);
      if first.Some? then Ok([first.value] + rest) else Ok(rest)
  }

  lemma {:induction false} ParseLinesAppend(a: seq<string>, b: seq<string>)
    requires ParseLines(a).Ok? && ParseLines(b).Ok?
    ensures ParseLines(a + b).Ok?
    ensures ParseLines(a + b).value == ParseLines(a).value + ParseLines(b).value
  {
    if a == [] {
      assert a + b == b;
      assert [] + ParseLines(b).value == ParseLines(b).value;
    } else {
      assert (a + b)[0] == a[0];
      assert (a + b)[1..] == a[1..] + b;
      ParseLinesAppend(a[1..], b);
      var first := ParseLine(a[0]).value;
      var ra, rb := ParseLines(a[1..]).value, ParseLines(b).value;
      if first.Some? {
        ConsAssoc(first.value, ra, rb);
      }
    }
  }

  lemma ConsAssoc<T>(x: T, a: seq<T>, b: seq<T>)
    ensures [x] + (a + b) == [x] + a + b
  {
  }

  /** `r[:-1]`: every element but the last (nothing for an empty list). */
  function DropLastInstr(r: seq<Dsl.Instr>): (d: seq<Dsl.Instr>)
    ensures |d| == if r == [] then 0 else |r| - 1
    ensures d <= r
  {
    if r == [] then [] else r[..|r| - 1]
  }

  /** `input_to_ast(f_name)` on the lines of the file. */
  function InputToAst(lines: seq<string>): (r: Result<seq<Dsl.Instr>, AsmError>)
    ensures r.Ok? ==> forall k :: 0 <= k < |r.value| ==> WellFormed(r.value[k])
  {
    var parsed :- ParseLines(lines);
    Ok(DropLastInstr(parsed))
  }

  // ---------------------------------------------------------------------------
  // Reading back what was printed

  /** A word, possibly followed by a comma, after a blank: one word. */
  lemma BlankThenWord(w: string, rest: string)
    requires w != [] && NoSpace(w)
    requires rest == [] || IsSpace(rest[0])
    ensures Words(" " + w + rest) == [w] + Words(rest)
  {
    assert " " + w + rest == [' '] + (w + rest);
    WordsSkipSpace(' ', w + rest);
    WordsCons(w, rest);
  }

  lemma LastOperandWords(c: string)
    requires c != [] && NoSpace(c)
    ensures Words(" " + c + "\n") == [c]
  {
    BlankThenWord(c, "\n");
    assert "\n" == ['\n'] + [];
    WordsSkipSpace('\n', []);
  }

  lemma CommaWord(w: string)
    requires w != [] && NoSpace(w)
    ensures w + "," != [] && NoSpace(w + ",")
  {
  }

  /** The words after the opcode of a printed three-operand instruction. */
  lemma OperandWords(a: string, b: string, c: string)
    requires a != [] && NoSpace(a) && b != [] && NoSpace(b) && c != [] && NoSpace(c)
    ensures Words(" " + (a + ",") + (" " + (b + ",") + (" " + c + "\n"))) == [a + ",", b + ",", c]
  {
    var tail3 := " " + c + "\n";
    var tail2 := " " + (b + ",") + tail3;
    CommaWord(a);
    CommaWord(b);
    LastOperandWords(c);
    BlankThenWord(b + ",", tail3);
    BlankThenWord(a + ",", tail2);
  }

  lemma CommaSpace(x: string, y: string)
    ensures x + ", " + y == (x + ",") + (" " + y)
  {
    assert ", " == "," + " ";
  }

  /** The printed form, grouped word by word. */
  lemma Regroup(op: string, a: string, b: string, c: string)
    ensures op + " " + (a + ", " + b + ", " + c) + "\n" == op + (" " + (a + ",") + (" " + (b + ",") + (" " + c + "\n")))
  {
    CommaSpace(a, b + ", " + c + "\n");
    CommaSpace(b, c + "\n");
    assert op + " " + (a + ", " + b + ", " + c) + "\n" == op + " " + (a + ", " + (b + ", " + c + "\n"));
  }

  /** A word in front of a blank-led tail adds itself in front. */
  lemma WordsAfter(op: string, tail: string, a: string, b: string, c: string)
    requires op != [] && NoSpace(op)
    requires tail != [] && tail[0] == ' ' && Words(tail) == [a, b, c]
    ensures Words(op + tail) == [op, a, b, c]
  {
    WordsCons(op, tail);
    assert [op] + [a, b, c] == [op, a, b, c];
  }

  /** The words of a printed three-operand instruction. */
  lemma ThreeOperandWords(op: string, a: string, b: string, c: string)
    requires op != [] && NoSpace(op)
    requires a != [] && NoSpace(a) && b != [] && NoSpace(b) && c != [] && NoSpace(c)
    ensures Words(op + " " + (a + ", " + b + ", " + c) + "\n") == [op, a + ",", b + ",", c]
  {
    var tail := " " + (a + ",") + (" " + (b + ",") + (" " + c + "\n"));
    OperandWords(a, b, c);
    WordsAfter(op, tail, a + ",", b + ",", c);
    Regroup(op, a, b, c);
  }

  lemma DropComma(s: string)
    ensures DropLast(s + ",") == s
  {
  }

  /** Every arithmetic opcode is a single word. */
  lemma ArithOpIsWord(op: string)
    requires op in Dsl.ArithOps
    ensures op != [] && NoSpace(op)
  {
  }

  /** A well-formed instruction, printed, reads back as an instruction that
      is equal to it component by component. */
  lemma ParsePrinted(i: Dsl.Instr)
    requires WellFormed(i)
    ensures ParseLine(Dsl.InstrRepr(i) + "\n").Ok?
    ensures ParseLine(Dsl.InstrRepr(i) + "\n").value.Some?
    ensures Dsl.InstrEquiv(ParseLine(Dsl.InstrRepr(i) + "\n").value.value, i)
  {
    var a := Dsl.OperandRepr(i.args[0]);
    var b := Dsl.OperandRepr(i.args[1]);
    var c := Dsl.OperandRepr(i.args[2]);
    ArithOpIsWord(i.op);
    ThreeOperandWords(i.op, a, b, c);
    ParsePrintedWords(i);
  }

  /** The third operand `ParseWords` reads from its fourth word. */
  function ThirdOperand(op: string, c: string): Result<Dsl.Operand, AsmError>
  {
    if IsImmediateOp(op) then
      match ParseInt(c)
      case None => Err(InvalidInstruction)
      case Some(n) => Ok(Dsl.Imm(n))
    else
      var r :- IdentifyReg(c);
      Ok(Dsl.R(r))
  }

  /** Four words whose operands all read: one instruction. */
  lemma ParseFourWords(op: string, a: string, b: string, c: string)
    requires op in Dsl.ArithOps
    requires IdentifyReg(a).Ok? && IdentifyReg(b).Ok? && ThirdOperand(op, c).Ok?
    ensures ParseWords([op, a + ",", b + ",", c])
      == Ok(Some(Dsl.Instr(op, [Dsl.R(IdentifyReg(a).value), Dsl.R(IdentifyReg(b).value), ThirdOperand(op, c).value], false)))
  {
    var words := [op, a + ",", b + ",", c];
    assert words[0] == op && words[3] == c;
    DropComma(a);
    DropComma(b);
    assert DropLast(words[1]) == a && DropLast(words[2]) == b;
  }

  /** A printed third operand reads back as an equal operand. */
  lemma ThirdRoundTrip(i: Dsl.Instr)
    requires WellFormed(i)
    ensures ThirdOperand(i.op, Dsl.OperandRepr(i.args[2])).Ok?
    ensures Dsl.OperandEq(ThirdOperand(i.op, Dsl.OperandRepr(i.args[2])).value, i.args[2])
  {
    if i.args[2].R? {
      IdentifyRegRoundTrip(i.args[2].reg);
    }
  }

  /** The same on the words of the line. */
  lemma ParsePrintedWords(i: Dsl.Instr)
    requires WellFormed(i)
    ensures var words := [i.op, Dsl.OperandRepr(i.args[0]) + ",", Dsl.OperandRepr(i.args[1]) + ",", Dsl.OperandRepr(i.args[2])];
      ParseWords(words).Ok? && ParseWords(words).value.Some? && Dsl.InstrEquiv(ParseWords(words).value.value, i)
  {
    var a := Dsl.OperandRepr(i.args[0]);
    var b := Dsl.OperandRepr(i.args[1]);
    var c := Dsl.OperandRepr(i.args[2]);
    IdentifyRegRoundTrip(i.args[0].reg);
    IdentifyRegRoundTrip(i.args[1].reg);
    ThirdRoundTrip(i);
    ParseFourWords(i.op, a, b, c);
    EquivByParts(i, Dsl.R(IdentifyReg(a).value), Dsl.R(IdentifyReg(b).value), ThirdOperand(i.op, c).value);
  }

  lemma EquivByParts(i: Dsl.Instr, x: Dsl.Operand, y: Dsl.Operand, z: Dsl.Operand)
    requires |i.args| == 3
    requires Dsl.OperandEq(x, i.args[0]) && Dsl.OperandEq(y, i.args[1]) && Dsl.OperandEq(z, i.args[2])
    ensures Dsl.InstrEquiv(Dsl.Instr(i.op, [x, y, z], false), i)
  {
    var a := [x, y, z];
    forall k | 0 <= k < 3 ensures Dsl.OperandEq(a[k], i.args[k]) {
      if k == 0 {
        assert a[k] == x;
      } else if k == 1 {
        assert a[k] == y;
      } else {
        assert a[k] == z;
      }
    }
  }

  /** A line whose first word is not an arithmetic opcode is skipped. */
  lemma SkipsLine(line: string, first: string, rest: string)
    requires line == first + rest
    requires first != [] && NoSpace(first) && first !in Dsl.ArithOps
    requires rest == [] || IsSpace(rest[0])
    ensures ParseLine(line).Ok? && ParseLine(line).value.None?
  {
    WordsCons(first, rest);
  }

  /** Lines that are all skipped contribute nothing. */
  lemma {:induction false} SkipsLines(lines: seq<string>)
    requires forall k :: 0 <= k < |lines| ==> ParseLine(lines[k]).Ok? && ParseLine(lines[k]).value.None?
    ensures ParseLines(lines).Ok? && ParseLines(lines).value == []
  {
    if lines != [] {
      SkipsLines(lines[1..]);
    }
  }

  lemma SkipsGlobal()
    ensures var line := Dsl.InstrRepr(Dsl.ProgStart[0]) + "\n";
      ParseLine(line).Ok? && ParseLine(line).value.None?
  {
    assert Dsl.InstrRepr(Dsl.ProgStart[0]) + "\n" == ".global" + " _start \n";
    SkipsLine(Dsl.InstrRepr(Dsl.ProgStart[0]) + "\n", ".global", " _start \n");
  }

  lemma SkipsBlank()
    ensures var line := Dsl.InstrRepr(Dsl.ProgStart[1]) + "\n";
      ParseLine(line).Ok? && ParseLine(line).value.None?
  {
    assert Dsl.InstrRepr(Dsl.ProgStart[1]) + "\n" == [' '] + ['\n'];
    WordsSkipSpace(' ', ['\n']);
    assert ['\n'] == ['\n'] + [];
    WordsSkipSpace('\n', []);
  }

  lemma SkipsStartLabel()
    ensures var line := Dsl.InstrRepr(Dsl.ProgStart[2]) + "\n";
      ParseLine(line).Ok? && ParseLine(line).value.None?
  {
    assert Dsl.InstrRepr(Dsl.ProgStart[2]) + "\n" == "_start:" + " \n";
    SkipsLine(Dsl.InstrRepr(Dsl.ProgStart[2]) + "\n", "_start:", " \n");
  }

  /** The prologue's three lines are all skipped. */
  lemma SkipsPrologue()
    ensures ParseLines(Listing(Dsl.ProgStart)).Ok? && ParseLines(Listing(Dsl.ProgStart)).value == []
  {
    SkipsGlobal();
    SkipsBlank();
    SkipsStartLabel();
    SkipsLines(Listing(Dsl.ProgStart));
  }

  lemma SkipsEcall()
    ensures var line := Dsl.InstrRepr(Dsl.ProgEnd[1]) + "\n";
      ParseLine(line).Ok? && ParseLine(line).value.None?
  {
    assert Dsl.InstrRepr(Dsl.ProgEnd[1]) + "\n" == "ecall" + " \n";
    SkipsLine(Dsl.InstrRepr(Dsl.ProgEnd[1]) + "\n", "ecall", " \n");
  }

  /** The prologue and `ecall` are not arithmetic lines. */
  lemma SkipsFraming()
    ensures ParseLines(Listing(Dsl.ProgStart)).Ok? && ParseLines(Listing(Dsl.ProgStart)).value == []
    ensures var line := Dsl.InstrRepr(Dsl.ProgEnd[1]) + "\n";
      ParseLine(line).Ok? && ParseLine(line).value.None?
  {
    SkipsPrologue();
    SkipsEcall();
  }

  /** Two lines, an arithmetic one and a skipped one, parse to one
      instruction. */
  lemma ParsesTwoLines(first: string, second: string)
    requires ParseLine(first).Ok? && ParseLine(first).value.Some?
    requires ParseLine(second).Ok? && ParseLine(second).value.None?
    ensures ParseLines([first, second]).Ok? && |ParseLines([first, second]).value| == 1
  {
    assert [first, second][1..] == [second];
    assert [second][1..] == [];
    var lines := [first, second];
    assert lines[0] == first && lines[1..] == [second];
    assert ParseLines([second]).Ok? && ParseLines([second]).value == [];
    assert ParseLines(lines).value == [ParseLine(first).value.value] + [];
  }

  /** The listing's last arithmetic line, `addi a7, x0, 93`, is what the
      final slice removes. */
  lemma ParsesEpilogue()
    ensures ParseLines(Listing(Dsl.ProgEnd)).Ok?
    ensures |ParseLines(Listing(Dsl.ProgEnd)).value| == 1
  {
    var e := Dsl.ProgEnd;
    ParsesExitCode();
    SkipsEcall();
    EpilogueListing();
    ParsesTwoLines(Dsl.InstrRepr(e[0]) + "\n", Dsl.InstrRepr(e[1]) + "\n");
  }

  lemma ParsesExitCode()
    ensures ParseLine(Dsl.InstrRepr(Dsl.ProgEnd[0]) + "\n").Ok? && ParseLine(Dsl.InstrRepr(Dsl.ProgEnd[0]) + "\n").value.Some?
  {
    assert WellFormed(Dsl.ProgEnd[0]);
    ParsePrinted(Dsl.ProgEnd[0]);
  }

  lemma EpilogueListing()
    ensures Listing(Dsl.ProgEnd) == [Dsl.InstrRepr(Dsl.ProgEnd[0]) + "\n", Dsl.InstrRepr(Dsl.ProgEnd[1]) + "\n"]
  {
    var l := Listing(Dsl.ProgEnd);
    assert |l| == 2;
  }

  /** An arithmetic line in front adds its instruction in front. */
  lemma ParseLinesCons(line: string, lines: seq<string>)
    requires ParseLine(line).Ok? && ParseLine(line).value.Some?
    requires ParseLines(lines).Ok?
    ensures ParseLines([line] + lines).Ok?
    ensures ParseLines([line] + lines).value == [ParseLine(line).value.value] + ParseLines(lines).value
  {
    assert ([line] + lines)[0] == line && ([line] + lines)[1..] == lines;
  }

  /** Equivalence element by element extends by an equivalent head. */
  lemma EquivCons(x: Dsl.Instr, rest: seq<Dsl.Instr>, p: seq<Dsl.Instr>)
    requires p != [] && Dsl.InstrEquiv(x, p[0])
    requires |rest| == |p| - 1 && forall k :: 0 <= k < |rest| ==> Dsl.InstrEquiv(rest[k], p[1..][k])
    ensures forall k :: 0 <= k < |p| ==> Dsl.InstrEquiv(([x] + rest)[k], p[k])
  {
    forall k | 0 <= k < |p| ensures Dsl.InstrEquiv(([x] + rest)[k], p[k]) {
      if k > 0 {
        assert ([x] + rest)[k] == rest[k - 1];
        assert p[k] == p[1..][k - 1];
      }
    }
  }

  lemma {:induction false} ParsesWellFormed(p: seq<Dsl.Instr>)
    requires forall k :: 0 <= k < |p| ==> WellFormed(p[k])
    ensures ParseLines(Listing(p)).Ok?
    ensures |ParseLines(Listing(p)).value| == |p|
    ensures forall k :: 0 <= k < |p| ==> Dsl.InstrEquiv(ParseLines(Listing(p)).value[k], p[k])
  {
    if p != [] {
      var line := Dsl.InstrRepr(p[0]) + "\n";
      ParsePrinted(p[0]);
      ParsesWellFormed(p[1..]);
      assert Listing(p) == [line] + Listing(p[1..]);
      ParseLinesCons(line, Listing(p[1..]));
      EquivCons(ParseLine(line).value.value, ParseLines(Listing(p[1..])).value, p);
    }
  }

  lemma RegassignsWellFormed(binds: seq<(Dsl.Reg, int)>)
    requires forall k :: 0 <= k < |binds| ==> Dsl.Valid(binds[k].0)
    ensures forall k :: 0 <= k < |binds| ==> WellFormed(Regassigns(binds)[k])
  {
  }

  /** Framing that parses to nothing before the body and to one instruction
      after it is removed again by the final slice. */
  lemma {:induction false} ReadBackFramed(pre: seq<Dsl.Instr>, body: seq<Dsl.Instr>, post: seq<Dsl.Instr>)
    requires ParseLines(Listing(pre)).Ok? && ParseLines(Listing(pre)).value == []
    requires ParseLines(Listing(post)).Ok? && |ParseLines(Listing(post)).value| == 1
    requires forall k :: 0 <= k < |body| ==> WellFormed(body[k])
    ensures InputToAst(Listing(pre + body + post)).Ok?
    ensures var q := InputToAst(Listing(pre + body + post)).value;
      |q| == |body| && forall k :: 0 <= k < |body| ==> Dsl.InstrEquiv(q[k], body[k])
  {
    ParsesWellFormed(body);
    ListingAppend(pre + body, post);
    ListingAppend(pre, body);
    ParseLinesAppend(Listing(pre), Listing(body));
    ParseLinesAppend(Listing(pre) + Listing(body), Listing(post));
    var mid := ParseLines(Listing(body)).value;
    var parsed := ParseLines(Listing(pre + body + post)).value;
    assert parsed == [] + mid + ParseLines(Listing(post)).value;
    assert DropLastInstr(parsed) == mid;
  }

  /** Printing a program with `ast_to_output` and reading it back with
      `input_to_ast` gives the argument assignments followed by the program,
      each instruction equal to the original component by component. */
  lemma ReadBackPrinted(p: seq<Dsl.Instr>, binds: seq<(Dsl.Reg, int)>)
    requires forall k :: 0 <= k < |p| ==> WellFormed(p[k])
    requires forall k :: 0 <= k < |binds| ==> Dsl.Valid(binds[k].0)
    ensures InputToAst(Listing(FullProgram(p, binds))).Ok?
    ensures var q := InputToAst(Listing(FullProgram(p, binds))).value;
      var body := Regassigns(binds) + p;
      |q| == |body| && forall k :: 0 <= k < |body| ==> Dsl.InstrEquiv(q[k], body[k])
  {
    var body := Regassigns(binds) + p;
    RegassignsWellFormed(binds);
    assert forall k :: 0 <= k < |body| ==> WellFormed(body[k]);
    SkipsFraming();
    ParsesEpilogue();
    assert FullProgram(p, binds) == Dsl.ProgStart + body + Dsl.ProgEnd;
    ReadBackFramed(Dsl.ProgStart, body, Dsl.ProgEnd);
  }
}

=== FILE: base.dfy ===
/** Failure-compatible wrappers shared by every module of the model.

    Python signals failure by raising; the model returns `Err` (or `None`)
    instead, so that every error path of the source is an ordinary value.
 */
module Base {

  datatype Option<+T> = None | Some(value: T) {
    predicate IsFailure() {
      None?
    }

    function PropagateFailure<U>(): Option<U>
      requires None?
    {
      None
    }

    function Extract(): T
      requires Some?
    {
      value
    }
  }

  datatype Result<+T, +E> = Ok(value: T) | Err(error: E) {
    predicate IsFailure() {
      Err?
    }

    function PropagateFailure<U>(): Result<U, E>
      requires Err?
    {
      Err(error)
    }

    function Extract(): T
      requires Ok?
    {
      value
    }
  }
}

=== FILE: cegis.dfy ===
/** The verifier and the counterexample-guided synthesis loop of
    cegis_verify.py: `Verifier.verify`, `Verifier.cegis_counter` and
    `Verifier.cegis_general`.

    z3 is not modelled; it is an abstract `Solver` that maps the constraints
    added so far to an answer, and the search generator is an abstract
    `Generator`. Properties that need the solver to be right say so with
    `SoundSolver` (a model it returns satisfies the constraints, and `unsat`
    means no model does) or `Decides` (sound, and never `unknown`).
 */
module Cegis {
  import opened Base
  import Arith
  import Machine
  import Dsl
  import opened Symbolic
  import opened Resolve

  // ---------------------------------------------------------------------------
  // Constraints and the solver

  /** A constraint handed to `s.add`. `Truth` is the plain `True` that
      `s.add(None != goal)` adds when nothing writes `a0`: z3's `__ne__`
      answers `True` for `None`, as Python does for a goal that is an int. */
  datatype Constraint =
    | Equal(a: Expr, b: Expr)
    | Differ(a: Expr, b: Expr)
    | Less(a: Expr, b: Expr)
    | AtLeast(a: Expr, b: Expr)
    | Truth

  function ConstraintVars(c: Constraint): set<string>
  {
    if c.Truth? then {} else Vars(c.a) + Vars(c.b)
  }

  /** The constraint is true in model `m` (which binds all its constants). */
  predicate Holds(c: Constraint, m: map<string, int>)
  {
    ConstraintVars(c) <= m.Keys &&
    match c
    case Equal(a, b) => Eval(a, m) == Eval(b, m)
    case Differ(a, b) => Eval(a, m) != Eval(b, m)
    case Less(a, b) => Eval(a, m) < Eval(b, m)
    case AtLeast(a, b) => Eval(a, m) >= Eval(b, m)
    case Truth => true
  }

  predicate AllHold(cs: seq<Constraint>, m: map<string, int>)
  {
    forall k :: 0 <= k < |cs| ==> Holds(cs[k], m)
  }

  lemma AllHoldAppend(a: seq<Constraint>, b: seq<Constraint>, m: map<string, int>)
    ensures AllHold(a + b, m) <==> AllHold(a, m) && AllHold(b, m)
  {
    assert forall k :: 0 <= k < |a| ==> (a + b)[k] == a[k];
    assert forall k :: 0 <= k < |b| ==> (a + b)[|a| + k] == b[k];
  }

  lemma AllHoldSingle(c: Constraint, m: map<string, int>)
    ensures AllHold([c], m) <==> Holds(c, m)
  {
    assert [c][0] == c;
  }

  /** `s.check()` followed by `s.model()`. */
  datatype Answer = Sat(model: map<string, int>) | Unsat | Unknown

  type Solver = seq<Constraint> -> Answer

  /** A model the solver returns satisfies the constraints, and `unsat`
      means that no model does. */
  ghost predicate SoundSolver(solver: Solver)
  {
    forall cs :: (solver(cs).Sat? ==> AllHold(cs, solver(cs).model))
              && (solver(cs).Unsat? ==> forall m :: !AllHold(cs, m))
  }

  /** A sound solver that always reaches a verdict. */
  ghost predicate Decides(solver: Solver)
  {
    SoundSolver(solver) && forall cs :: !solver(cs).Unknown?
  }

  /** A deciding solver finds a model whenever there is one. */
  lemma DecidesFindsModel(solver: Solver, cs: seq<Constraint>, m: map<string, int>)
    requires Decides(solver)
    requires AllHold(cs, m)
    ensures solver(cs).Sat? && AllHold(cs, solver(cs).model)
  {
  }

  // ---------------------------------------------------------------------------
  // The pieces of a query

  function NameSet(names: seq<string>): set<string>
  {
    set n | n in names
  }

  /** The keys of `z3args`: `x0` and the argument names. */
  function Bound(names: seq<string>): set<string>
  {
    {Machine.ZeroKey} + NameSet(names)
  }

  /** `s.add(self.z3args[repr(Zero())] == 0)`. */
  function ZeroIsZero(): Constraint
  {
    Equal(Sym(Machine.ZeroKey), Lit(0))
  }

  /** `s.add(g != 0)` for each guard term. */
  function NonZeroConstraints(gs: seq<Expr>): (cs: seq<Constraint>)
    ensures |cs| == |gs|
    ensures forall k :: 0 <= k < |gs| ==> cs[k] == Differ(gs[k], Lit(0))
  {
    if gs == [] then [] else [Differ(gs[0], Lit(0))] + NonZeroConstraints(gs[1..])
  }

  /** The `!= 0` constraints hold exactly when the guard terms are non-zero. */
  lemma NonZeroConstraintsHold(gs: seq<Expr>, m: map<string, int>)
    requires GuardVarsIn(gs, m.Keys)
    ensures AllHold(NonZeroConstraints(gs), m) <==> AllNonZero(gs, m)
  {
    var cs := NonZeroConstraints(gs);
    if AllNonZero(gs, m) {
      forall k | 0 <= k < |cs| ensures Holds(cs[k], m) {
        assert Vars(gs[k]) <= m.Keys;
      }
    }
  }

  /** `s.add(arg < 256)` and `s.add(arg >= -256)` for each argument, as
      `cegis_general` does. */
  function RangeConstraints(names: seq<string>): (cs: seq<Constraint>)
    ensures |cs| == 2 * |names|
    ensures forall k :: 0 <= k < |names| ==>
      cs[2 * k] == Less(Sym(names[k]), Lit(256)) && cs[2 * k + 1] == AtLeast(Sym(names[k]), Lit(-256))
  {
    if names == [] then []
    else [Less(Sym(names[0]), Lit(256)), AtLeast(Sym(names[0]), Lit(-256))] + RangeConstraints(names[1..])
  }

  /** The range constraints hold exactly when every argument is bound to a
      value in [-256, 256). */
  lemma {:induction false} RangeConstraintsHold(names: seq<string>, m: map<string, int>)
    ensures AllHold(RangeConstraints(names), m) <==>
      forall k :: 0 <= k < |names| ==> names[k] in m && -256 <= m[names[k]] < 256
  {
    if names != [] {
      var head := [Less(Sym(names[0]), Lit(256)), AtLeast(Sym(names[0]), Lit(-256))];
      RangeConstraintsHold(names[1..], m);
      AllHoldAppend(head, RangeConstraints(names[1..]), m);
      assert RangeConstraints(names) == head + RangeConstraints(names[1..]);
      assert AllHold(head, m) <==> names[0] in m && -256 <= m[names[0]] < 256 by {
        assert Holds(head[0], m) <==> names[0] in m && m[names[0]] < 256;
      }
      if forall k :: 0 <= k < |names| ==> names[k] in m && -256 <= m[names[k]] < 256 {
        assert forall k :: 0 <= k < |names| - 1 ==> names[1..][k] == names[k + 1];
      }
      if AllHold(RangeConstraints(names), m) {
        forall k | 0 <= k < |names| ensures names[k] in m && -256 <= m[names[k]] < 256 {
          if k > 0 {
            assert names[k] == names[1..][k - 1];
          }
        }
      }
    }
  }

  /** The solver state `cegis_general` sets up before its loop. */
  function BaseConstraints(names: seq<string>): seq<Constraint>
  {
    [ZeroIsZero()] + RangeConstraints(names)
  }

  lemma BaseConstraintsHold(names: seq<string>, m: map<string, int>)
    ensures AllHold(BaseConstraints(names), m) <==>
      Machine.ZeroKey in m && m[Machine.ZeroKey] == 0
      && forall k :: 0 <= k < |names| ==> names[k] in m && -256 <= m[names[k]] < 256
  {
    AllHoldAppend([ZeroIsZero()], RangeConstraints(names), m);
    RangeConstraintsHold(names, m);
    AllHoldSingle(ZeroIsZero(), m);
  }

  // ---------------------------------------------------------------------------
  // verify

  /** The outcome of `verify`, together with the guess list afterwards:
      `verify` reverses it in place and never restores it. */
  datatype Verdict = Verdict(matches: bool, guessAfter: seq<Dsl.Instr>)

  /** `verify(guess)` as written: resolve `a0` over the reversed guess (a
      resolution failure raises, which is reported as `False`), then ask
      whether `a0 == goal` is SATISFIABLE together with `x0 == 0` and the
      divisor conditions. With no write to `a0`, `None == goal` adds `False`,
      the query is unsatisfiable and the answer is `False` as well. */
  function Verify(goal: Expr, names: seq<string>, guess: seq<Dsl.Instr>, solver: Solver): (v: Verdict)
    ensures v.guessAfter == Reverse(guess)
    ensures v.matches ==> (MatchInstr(ByRepr, Reverse(guess), Dsl.ReturnReg, Bound(names)).Ok?
                           && MatchInstr(ByRepr, Reverse(guess), Dsl.ReturnReg, Bound(names)).value.Some?)
  {
    var rev := Reverse(guess);
    var found := MatchInstr(ByRepr, rev, Dsl.ReturnReg, Bound(names));
    if found.Err? || found.value.None? then Verdict(false, rev)
    else
      var res := found.value.value;
      var query := [ZeroIsZero()] + NonZeroConstraints(res.guards) + [Equal(res.expr, goal)];
      Verdict(solver(query).Sat?, rev)
  }

  /** `addi a0, x0, 1` for the goal `x + 1`: they agree at `x = 0` only. */
  function ConstantOne(): seq<Dsl.Instr>
  {
    [Dsl.Instr("addi", [Dsl.R(Dsl.ReturnReg), Dsl.R(Dsl.Zero), Dsl.Imm(1)], false)]
  }

  function XPlusOne(): Expr
  {
    Bin(Arith.Add, Sym("x"), Lit(1))
  }

  lemma ResolveConstantOne()
    ensures MatchInstr(ByRepr, Reverse(ConstantOne()), Dsl.ReturnReg, Bound(["x"]))
      == Ok(Some(Resolved(Bin(Arith.Add, Sym(Machine.ZeroKey), Lit(1)), [])))
  {
    var i := ConstantOne()[0];
    var bound := Bound(["x"]);
    assert Strings.IntToString(0) == "0";
    assert Dsl.Repr(Dsl.ReturnReg) == "a0" && Dsl.PyName(Dsl.Zero) == Machine.ZeroKey;
    assert Reverse(ConstantOne()) == [i];
    assert Defines(ByRepr, i, Dsl.ReturnReg);
    assert [i][1..] == [];
    assert MatchInstr(ByRepr, [], Dsl.Zero, bound) == Ok(None);
    assert Machine.ZeroKey in bound;
  }

  /** A deciding solver makes `verify` accept `addi a0, x0, 1` for `x + 1`,
      although the program returns 1 at `x = 5` where the goal is 6. */
  lemma VerifyAcceptsWrongGuess(solver: Solver)
    requires Decides(solver)
    ensures Verify(XPlusOne(), ["x"], ConstantOne(), solver).matches
    ensures Dsl.Run(ConstantOne(), map["x" := 5]) == Ok(1)
    ensures Eval(XPlusOne(), map["x" := 5]) == 6
  {
    ResolveConstantOne();
    var e := Bin(Arith.Add, Sym(Machine.ZeroKey), Lit(1));
    var query := [ZeroIsZero()] + NonZeroConstraints([]) + [Equal(e, XPlusOne())];
    var m := map[Machine.ZeroKey := 0, "x" := 0];
    assert query == [ZeroIsZero(), Equal(e, XPlusOne())];
    assert Holds(query[0], m) && Holds(query[1], m);
    assert AllHold(query, m);
    DecidesFindsModel(solver, query, m);
    assert Strings.IntToString(0) == "0";
    assert Dsl.PyName(Dsl.ReturnReg) == Machine.ReturnKey;
  }

  /** The check `verify` evidently intends: the guess equals the goal for
      EVERY argument value, i.e. `a0 != goal` is unsatisfiable together with
      `x0 == 0` and the divisor conditions. Writes are recognised by
      `py_name`, the key the interpreter uses (see `Resolve.Keying`). */
  function VerifyAll(goal: Expr, names: seq<string>, guess: seq<Dsl.Instr>, solver: Solver): (v: Verdict)
    ensures v.guessAfter == Reverse(guess)
    ensures v.matches ==> (MatchInstr(ByName, Reverse(guess), Dsl.ReturnReg, Bound(names)).Ok?
                           && MatchInstr(ByName, Reverse(guess), Dsl.ReturnReg, Bound(names)).value.Some?)
  {
    var rev := Reverse(guess);
    var found := MatchInstr(ByName, rev, Dsl.ReturnReg, Bound(names));
    if found.Err? || found.value.None? then Verdict(false, rev)
    else
      var res := found.value.value;
      var query := [ZeroIsZero()] + NonZeroConstraints(res.guards) + [Differ(res.expr, goal)];
      Verdict(solver(query).Unsat?, rev)
  }

  /** When the corrected check accepts a guess, every successful run of the
      guess returns the goal's value for the same arguments. */
  lemma VerifyAllSound(goal: Expr, names: seq<string>, guess: seq<Dsl.Instr>, solver: Solver, args: map<string, int>, v: int)
    requires SoundSolver(solver)
    requires Vars(goal) <= NameSet(names)
    requires VerifyAll(goal, names, guess, solver).matches
    requires args.Keys == NameSet(names)
    requires Dsl.Run(guess, args) == Ok(v)
    ensures v == Eval(goal, args[Machine.ZeroKey := 0])
  {
    var env := args[Machine.ZeroKey := 0];
    ResolveByNameAgreesWithRun(guess, args, v);
    assert args.Keys + {Machine.ZeroKey} == Bound(names);
    var res := MatchInstr(ByName, Reverse(guess), Dsl.ReturnReg, Bound(names)).value.value;
    UnsatMeansEqual(solver, res.expr, res.guards, goal, env);
  }

  /** If no model with `x0 == 0` and non-zero guards separates two terms, they
      agree in every such model. */
  lemma UnsatMeansEqual(solver: Solver, e: Expr, gs: seq<Expr>, goal: Expr, env: map<string, int>)
    requires SoundSolver(solver)
    requires solver([ZeroIsZero()] + NonZeroConstraints(gs) + [Differ(e, goal)]).Unsat?
    requires Vars(e) <= env.Keys && Vars(goal) <= env.Keys && GuardVarsIn(gs, env.Keys)
    requires Machine.ZeroKey in env && env[Machine.ZeroKey] == 0
    requires AllNonZero(gs, env)
    ensures Eval(e, env) == Eval(goal, env)
  {
    if Eval(e, env) != Eval(goal, env) {
      SeparatingModel(e, gs, goal, env);
    }
  }

  /** A model where the terms differ satisfies the whole query. */
  lemma SeparatingModel(e: Expr, gs: seq<Expr>, goal: Expr, env: map<string, int>)
    requires Vars(e) <= env.Keys && Vars(goal) <= env.Keys && GuardVarsIn(gs, env.Keys)
    requires Machine.ZeroKey in env && env[Machine.ZeroKey] == 0
    requires AllNonZero(gs, env)
    requires Eval(e, env) != Eval(goal, env)
    ensures AllHold([ZeroIsZero()] + NonZeroConstraints(gs) + [Differ(e, goal)], env)
  {
    NonZeroConstraintsHold(gs, env);
    AllHoldAppend([ZeroIsZero()], NonZeroConstraints(gs), env);
    AllHoldAppend([ZeroIsZero()] + NonZeroConstraints(gs), [Differ(e, goal)], env);
    AllHoldSingle(ZeroIsZero(), env);
    AllHoldSingle(Differ(e, goal), env);
  }

  // ---------------------------------------------------------------------------
  // cegis_counter

  /** What makes `cegis_counter` or `cegis_general` raise, or the model give
      up: a resolution error, an argument the model leaves unassigned
      (`as_signed_long` on a non-value), the goal raising on a
      counterexample, the corrected round finding no input that refutes a
      guess without a write to `a0` (`NoResult`), or the loop running longer
      than the fuel allowed. */
  datatype CegisError =
    | Resolution(err: ResolveError)
    | NoResult
    | Unassigned(name: string)
    | GoalRaised(cause: Arith.ArithError)
    | SolverUnknown
    | OutOfFuel

  /** The arguments read back from a model, in argument order. */
  function ModelArgs(m: map<string, int>, names: seq<string>): (r: Result<seq<int>, CegisError>)
    ensures r.Ok? <==> forall k :: 0 <= k < |names| ==> names[k] in m
    ensures r.Ok? ==> |r.value| == |names| && forall k :: 0 <= k < |names| ==> r.value[k] == m[names[k]]
    ensures r.Err? ==> r.error.Unassigned? && r.error.name in names && r.error.name !in m
  {
    if names == [] then Ok([])
    else if names[0] !in m then Err(Unassigned(names[0]))
    else
      var rest :- ModelArgs(m, names[1..]);
      Ok([m[names[0]]] + rest)
  }

  /** One round: `success` with the guess restored to its order, or a
      counterexample with the guess left reversed. `constraints` is the
      solver's whole constraint list afterwards. */
  datatype Round = Round(success: bool, counter: seq<int>, constraints: seq<Constraint>, guessAfter: seq<Dsl.Instr>)

  /** `cegis_counter(guess, s)` as written: the constraints for this guess
      (its divisor conditions, the goal's `_avoid_zero_div` conditions and
      `a0 != goal`) are ADDED to those already in the solver `s`, and any
      answer but `sat` counts as success. When nothing writes `a0`,
      `match_instr` gives `None` and `None != goal` adds `Truth`; the round
      then goes on like any other. */
  function CegisCounter(goal: Expr, names: seq<string>, guess: seq<Dsl.Instr>, acc: seq<Constraint>, solver: Solver): (r: Result<Round, CegisError>)
    ensures r.Ok? ==> acc < r.value.constraints
    ensures r.Ok? ==> (r.value.success <==> !solver(r.value.constraints).Sat?)
    ensures r.Ok? && r.value.success ==> r.value.guessAfter == guess
    ensures r.Ok? && !r.value.success ==>
      (&& r.value.guessAfter == Reverse(guess)
       && solver(r.value.constraints).Sat?
       && |r.value.counter| == |names|
       && forall k :: 0 <= k < |names| ==>
            names[k] in solver(r.value.constraints).model && r.value.counter[k] == solver(r.value.constraints).model[names[k]])
    ensures r.Err? ==> (r.error.Resolution? && MatchInstr(ByRepr, Reverse(guess), Dsl.ReturnReg, Bound(names)).Err?) || r.error.Unassigned?
  {
    var rev := Reverse(guess);
    var found := MatchInstr(ByRepr, rev, Dsl.ReturnReg, Bound(names));
    if found.Err? then Err(Resolution(found.error))
    else
      var added := match found.value
        case Some(res) => NonZeroConstraints(res.guards) + NonZeroConstraints(AvoidZeroDiv(goal)) + [Differ(res.expr, goal)]
        case None => NonZeroConstraints(AvoidZeroDiv(goal)) + [Truth];
      var cs := acc + added;
      match solver(cs)
      case Sat(m) =>
        var counter :- ModelArgs(m, names);
        Ok(Round(false, counter, cs, rev))
      case _ =>
        ReverseReverse(guess);
        Ok(Round(true, [], cs, Reverse(rev)))
  }

  /** A guess that never writes `a0` is refuted or accepted like any other:
      the round adds the goal's divisor conditions and `Truth`, succeeds
      exactly when the solver does not answer `sat`, and otherwise hands
      back the model's arguments as a counterexample. */
  lemma UnwrittenA0Round(goal: Expr, names: seq<string>, guess: seq<Dsl.Instr>, acc: seq<Constraint>, solver: Solver)
    requires MatchInstr(ByRepr, Reverse(guess), Dsl.ReturnReg, Bound(names)) == Ok(None)
    ensures var cs := acc + NonZeroConstraints(AvoidZeroDiv(goal)) + [Truth];
      && (!solver(cs).Sat? ==> CegisCounter(goal, names, guess, acc, solver) == Ok(Round(true, [], cs, guess)))
      && (solver(cs).Sat? && (forall k :: 0 <= k < |names| ==> names[k] in solver(cs).model) ==>
            CegisCounter(goal, names, guess, acc, solver).Ok? && CegisCounter(goal, names, guess, acc, solver).value.constraints == cs)
  {
    var cs := acc + NonZeroConstraints(AvoidZeroDiv(goal)) + [Truth];
    assert acc + (NonZeroConstraints(AvoidZeroDiv(goal)) + [Truth]) == cs;
    ReverseReverse(guess);
    if solver(cs).Sat? && (forall k :: 0 <= k < |names| ==> names[k] in solver(cs).model) {
      assert ModelArgs(solver(cs).model, names).Ok?;
    }
  }

  /** The empty guess, which a generator starting at length 0 proposes,
      does not stop the loop: a solver that finds in-range arguments refutes
      it with them. */
  lemma EmptyGuessRefuted(goal: Expr, names: seq<string>, acc: seq<Constraint>, solver: Solver)
    requires var cs := acc + NonZeroConstraints(AvoidZeroDiv(goal)) + [Truth];
      solver(cs).Sat? && forall k :: 0 <= k < |names| ==> names[k] in solver(cs).model
    ensures CegisCounter(goal, names, [], acc, solver).Ok?
    ensures !CegisCounter(goal, names, [], acc, solver).value.success
  {
    assert Reverse<Dsl.Instr>([]) == [];
    assert MatchInstr(ByRepr, [], Dsl.ReturnReg, Bound(names)) == Ok(None);
    UnwrittenA0Round(goal, names, [], acc, solver);
  }

  // ---------------------------------------------------------------------------
  // cegis_general

  /** An input/output pair handed to the generator. */
  datatype Example = Example(args: seq<int>, value: int)

  /** A search strategy: from the examples and the current minimum length to
      a guess and the next minimum length. */
  type Generator = (seq<Example>, nat) -> (seq<Dsl.Instr>, nat)

  /** Positional binding of a call `goal_func(*vals)`. */
  function Bind(names: seq<string>, vals: seq<int>): (b: map<string, int>)
    requires |names| == |vals|
    ensures b.Keys == NameSet(names)
  {
    if names == [] then map[]
    else
      var rest := Bind(names[1..], vals[1..]);
      assert NameSet(names) == {names[0]} + NameSet(names[1..]);
      rest[names[0] := vals[0]]
  }

  /** `self.goal_func(*vals)` on Python ints. */
  function GoalAt(goal: Expr, names: seq<string>, vals: seq<int>): (r: Result<int, CegisError>)
    requires Vars(goal) <= NameSet(names)
    requires |vals| == |names|
    ensures r.Ok? <==> ConcreteEval(goal, Bind(names, vals)).Ok?
    ensures r.Ok? ==> r.value == ConcreteEval(goal, Bind(names, vals)).value
  {
    match ConcreteEval(goal, Bind(names, vals))
    case Ok(v) => Ok(v)
    case Err(e) => Err(GoalRaised(e))
  }

  /** Each example is an argument vector with the goal's value there. */
  predicate ExamplesValid(goal: Expr, names: seq<string>, exs: seq<Example>)
    requires Vars(goal) <= NameSet(names)
  {
    forall k :: 0 <= k < |exs| ==>
      |exs[k].args| == |names| && ConcreteEval(goal, Bind(names, exs[k].args)) == Ok(exs[k].value)
  }

  /** The first example: all arguments 0, or all 1 when the goal raises at
      0 (a second failure propagates). */
  function InitialExamples(goal: Expr, names: seq<string>): (r: Result<seq<Example>, CegisError>)
    requires Vars(goal) <= NameSet(names)
    ensures r.Ok? ==> |r.value| == 1 && ExamplesValid(goal, names, r.value)
    ensures r.Ok? ==> var zeros := seq(|names|, _ => 0);
      r.value[0].args == (if ConcreteEval(goal, Bind(names, zeros)).Ok? then zeros else seq(|names|, _ => 1))
    ensures r.Err? ==> ConcreteEval(goal, Bind(names, seq(|names|, _ => 0))).Err?
  {
    var zeros := seq(|names|, _ => 0);
    var ones := seq(|names|, _ => 1);
    match GoalAt(goal, names, zeros)
    case Ok(v) => Ok([Example(zeros, v)])
    case Err(_) =>
      var v :- GoalAt(goal, names, ones);
      Ok([Example(ones, v)])
  }

  /** What the loop ends with: the accepted guess, the examples gathered,
      the solver's constraints at the end, and the minimum length the
      generator was last called with. */
  datatype Outcome = Outcome(guess: seq<Dsl.Instr>, examples: seq<Example>, constraints: seq<Constraint>, minLen: nat)

  /** The `while True` loop of `cegis_general` as written, with one solver
      shared by all rounds; `fuel` bounds the number of rounds. */
  function CegisLoop(goal: Expr, names: seq<string>, gen: Generator, solver: Solver,
                     examples: seq<Example>, minLen: nat, acc: seq<Constraint>, fuel: nat): (r: Result<Outcome, CegisError>)
    requires Vars(goal) <= NameSet(names)
    requires ExamplesValid(goal, names, examples)
    ensures r.Ok? ==> examples <= r.value.examples && ExamplesValid(goal, names, r.value.examples)
    ensures r.Ok? ==> acc < r.value.constraints && !solver(r.value.constraints).Sat?
    ensures r.Ok? ==> r.value.guess == gen(r.value.examples, r.value.minLen).0
    decreases fuel
  {
    if fuel == 0 then Err(OutOfFuel)
    else
      var guess := gen(examples, minLen).0;
      var nextLen := gen(examples, minLen).1;
      var round :- CegisCounter(goal, names, guess, acc, solver);
      if round.success then Ok(Outcome(round.guessAfter, examples, round.constraints, minLen))
      else
        var v :- GoalAt(goal, names, round.counter);
        var more := examples + [Example(round.counter, v)];
        assert ExamplesValid(goal, names, more) by {
          assert forall k :: 0 <= k < |examples| ==> more[k] == examples[k];
        }
        CegisLoop(goal, names, gen, solver, more, nextLen, round.constraints, fuel - 1)
  }

  /** `cegis_general(generator)`: set up the solver with `x0 == 0` and the
      argument ranges, take the first example, and loop. */
  function CegisGeneral(goal: Expr, names: seq<string>, gen: Generator, solver: Solver, fuel: nat): (r: Result<Outcome, CegisError>)
    requires Vars(goal) <= NameSet(names)
    ensures r.Ok? ==> |r.value.examples| >= 1 && ExamplesValid(goal, names, r.value.examples)
    ensures r.Ok? ==> InitialExamples(goal, names).Ok? && r.value.examples[0] == InitialExamples(goal, names).value[0]
    ensures r.Ok? ==> BaseConstraints(names) < r.value.constraints && !solver(r.value.constraints).Sat?
  {
    var examples :- InitialExamples(goal, names);
    CegisLoop(goal, names, gen, solver, examples, 0, BaseConstraints(names), fuel)
  }

  // ---------------------------------------------------------------------------
  // The shared solver accepts a wrong program

  /** The goal `x - x`, which is 0 everywhere. */
  function SelfDifference(): Expr
  {
    Bin(Arith.Sub, Sym("x"), Sym("x"))
  }

  const ArgX: Dsl.Reg := Dsl.ArgReg(2, "x")

  /** `srai a0, a2, 8`: -1 for negative `x` in range, 0 otherwise. */
  function FirstGuess(): seq<Dsl.Instr>
  {
    [Dsl.Instr("srai", [Dsl.R(Dsl.ReturnReg), Dsl.R(ArgX), Dsl.Imm(8)], false)]
  }

  /** `addi x5, a2, -1; srai x5, x5, 9; addi a0, x5, 1`: 0 for `x` in
      [-256, 0], 1 for `x` in [1, 255]. */
  function SecondGuess(): seq<Dsl.Instr>
  {
    [Dsl.Instr("addi", [Dsl.R(Dsl.Scratch(5)), Dsl.R(ArgX), Dsl.Imm(-1)], false),
     Dsl.Instr("srai", [Dsl.R(Dsl.Scratch(5)), Dsl.R(Dsl.Scratch(5)), Dsl.Imm(9)], false),
     Dsl.Instr("addi", [Dsl.R(Dsl.ReturnReg), Dsl.R(Dsl.Scratch(5)), Dsl.Imm(1)], false)]
  }

  /** A generator proposing the first guess while it has one example and the
      second afterwards. Each guess returns the goal's value on every example
      the generator holds when it proposes it (`SharedSolverAcceptsWrongGuess`),
      as a generator that searches for programs matching the examples does. */
  function StagedGenerator(): Generator
  {
    (exs: seq<Example>, n: nat) => (if |exs| <= 1 then FirstGuess() else SecondGuess(), n)
  }

  function FirstTerm(): Expr
  {
    Bin(Arith.Sra, Sym("x"), Lit(8))
  }

  function SecondTerm(): Expr
  {
    Bin(Arith.Add, Bin(Arith.Sra, Bin(Arith.Add, Sym("x"), Lit(-1)), Lit(9)), Lit(1))
  }

  lemma ResolveFirstGuess(keying: Keying)
    ensures MatchInstr(keying, Reverse(FirstGuess()), Dsl.ReturnReg, Bound(["x"])) == Ok(Some(Resolved(FirstTerm(), [])))
  {
    var i := FirstGuess()[0];
    var bound := Bound(["x"]);
    assert Reverse(FirstGuess()) == [i];
    Dsl.FixedKeys();
    assert Defines(keying, i, Dsl.ReturnReg);
    assert [i][1..] == [];
    assert "x" in bound by {
      assert ["x"][0] == "x";
    }
    assert MatchInstr(keying, [], ArgX, bound) == Ok(None);
    assert OrVar(MatchInstr(keying, [], ArgX, bound), ArgX, bound) == Ok(Resolved(Sym("x"), []));
    assert LookupOp("srai") == Ok(Arith.Sra);
    assert Build(keying, i, [], bound) == Ok(Some(Resolved(FirstTerm(), [])));
  }

  /** The second guess's first instruction, resolved on its own. */
  lemma ResolveSecondWrite(keying: Keying)
    ensures MatchInstr(keying, [SecondGuess()[0]], Dsl.Scratch(5), Bound(["x"])) == Ok(Some(Resolved(Bin(Arith.Add, Sym("x"), Lit(-1)), [])))
  {
    var w := SecondGuess()[0];
    assert Strings.IntToString(5) == "5";
    assert Dsl.Repr(Dsl.Scratch(5)) == "x5";
    assert Defines(keying, w, Dsl.Scratch(5));
    assert [w][1..] == [];
  }

  /** The shift reads the earlier write to `x5`. */
  lemma ResolveSecondShift(keying: Keying)
    ensures MatchInstr(keying, [SecondGuess()[1], SecondGuess()[0]], Dsl.Scratch(5), Bound(["x"]))
      == Ok(Some(Resolved(Bin(Arith.Sra, Bin(Arith.Add, Sym("x"), Lit(-1)), Lit(9)), [])))
  {
    var w, s := SecondGuess()[0], SecondGuess()[1];
    assert Strings.IntToString(5) == "5";
    assert Dsl.Repr(Dsl.Scratch(5)) == "x5";
    assert Defines(keying, s, Dsl.Scratch(5));
    assert [s, w][1..] == [w];
    ResolveSecondWrite(keying);
  }

  lemma ResolveSecondGuess(keying: Keying)
    ensures MatchInstr(keying, Reverse(SecondGuess()), Dsl.ReturnReg, Bound(["x"])) == Ok(Some(Resolved(SecondTerm(), [])))
  {
    var w, s, i := SecondGuess()[0], SecondGuess()[1], SecondGuess()[2];
    assert Reverse(SecondGuess()) == [i, s, w];
    Dsl.FixedKeys();
    assert Defines(keying, i, Dsl.ReturnReg);
    assert [i, s, w][1..] == [s, w];
    ResolveSecondShift(keying);
  }

  /** z3's reading of `srai` by a constant: floor division by a power of 2. */
  lemma ShiftByConstant(e: Expr, n: nat, env: map<string, int>)
    requires Vars(e) <= env.Keys
    ensures Eval(Bin(Arith.Sra, e, Lit(n)), env) == Eval(e, env) / Arith.Pow2(n)
  {
  }

  /** The second guess's term: 0 on [-256, 0], 1 on [1, 511]. */
  lemma SecondTermValue(env: map<string, int>)
    requires "x" in env
    ensures Eval(SecondTerm(), env) == (env["x"] - 1) / 512 + 1
    ensures -256 <= env["x"] <= 0 ==> Eval(SecondTerm(), env) == 0
    ensures 1 <= env["x"] <= 511 ==> Eval(SecondTerm(), env) == 1
  {
    ShiftByConstant(Bin(Arith.Add, Sym("x"), Lit(-1)), 9, env);
    assert Arith.Pow2(9) == 512;
  }

  /** The constraint list after the first round. */
  function FirstRoundConstraints(): seq<Constraint>
  {
    BaseConstraints(["x"]) + [Differ(FirstTerm(), SelfDifference())]
  }

  /** A model of the first round's constraints binds `x` to a negative
      value in range. */
  lemma FirstRoundModels(m: map<string, int>)
    requires AllHold(FirstRoundConstraints(), m)
    ensures "x" in m && -256 <= m["x"] < 0
  {
    AllHoldAppend(BaseConstraints(["x"]), [Differ(FirstTerm(), SelfDifference())], m);
    BaseConstraintsHold(["x"], m);
    AllHoldSingle(Differ(FirstTerm(), SelfDifference()), m);
    assert ["x"][0] == "x";
    ShiftByConstant(Sym("x"), 8, m);
    assert Arith.Pow2(8) == 256;
  }

  /** Round one's constraints are satisfiable, and every model binds `x` to
      a negative value. */
  lemma FirstRoundSat(solver: Solver)
    requires Decides(solver)
    ensures solver(FirstRoundConstraints()).Sat?
    ensures var m := solver(FirstRoundConstraints()).model;
      "x" in m && -256 <= m["x"] < 0
  {
    var cs := FirstRoundConstraints();
    var m := map[Machine.ZeroKey := 0, "x" := -1];
    assert AllHold(cs, m) by {
      AllHoldAppend(BaseConstraints(["x"]), [Differ(FirstTerm(), SelfDifference())], m);
      BaseConstraintsHold(["x"], m);
      AllHoldSingle(Differ(FirstTerm(), SelfDifference()), m);
      ShiftByConstant(Sym("x"), 8, m);
      assert Arith.Pow2(8) == 256;
    }
    DecidesFindsModel(solver, cs, m);
    FirstRoundModels(solver(cs).model);
  }

  /** The constraints a round adds when the guess resolves without side
      conditions and the goal has no `bvsdiv`. */
  lemma RoundConstraints(goal: Expr, names: seq<string>, guess: seq<Dsl.Instr>, acc: seq<Constraint>, solver: Solver, e: Expr)
    requires MatchInstr(ByRepr, Reverse(guess), Dsl.ReturnReg, Bound(names)) == Ok(Some(Resolved(e, [])))
    requires AvoidZeroDiv(goal) == []
    ensures var r := CegisCounter(goal, names, guess, acc, solver);
      r.Ok? ==> r.value.constraints == acc + [Differ(e, goal)]
    ensures var cs := acc + [Differ(e, goal)];
      !solver(cs).Sat? ==> CegisCounter(goal, names, guess, acc, solver) == Ok(Round(true, [], cs, guess))
    ensures var cs := acc + [Differ(e, goal)];
      solver(cs).Sat? && ModelArgs(solver(cs).model, names).Ok? ==>
        CegisCounter(goal, names, guess, acc, solver) == Ok(Round(false, ModelArgs(solver(cs).model, names).value, cs, Reverse(guess)))
  {
    ReverseReverse(guess);
    var cs := acc + [Differ(e, goal)];
    var res := MatchInstr(ByRepr, Reverse(guess), Dsl.ReturnReg, Bound(names)).value.value;
    assert res.guards == [] && res.expr == e;
    assert NonZeroConstraints(res.guards) == [];
    assert NonZeroConstraints(AvoidZeroDiv(goal)) == [];
    var added := NonZeroConstraints(res.guards) + NonZeroConstraints(AvoidZeroDiv(goal)) + [Differ(res.expr, goal)];
    assert added == [Differ(e, goal)];
    assert acc + added == cs;
  }

  /** Round one: the constraints are satisfiable, so the first guess is
      refuted by a negative counterexample. */
  lemma FirstRound(solver: Solver)
    requires Decides(solver)
    ensures var r := CegisCounter(SelfDifference(), ["x"], FirstGuess(), BaseConstraints(["x"]), solver);
      && r.Ok? && !r.value.success && r.value.constraints == FirstRoundConstraints()
      && |r.value.counter| == 1 && -256 <= r.value.counter[0] < 0
  {
    ResolveFirstGuess(ByRepr);
    assert AvoidZeroDiv(SelfDifference()) == [];
    RoundConstraints(SelfDifference(), ["x"], FirstGuess(), BaseConstraints(["x"]), solver, FirstTerm());
    FirstRoundSat(solver);
    var cs := FirstRoundConstraints();
    var m := solver(cs).model;
    var names := ["x"];
    assert names[0] == "x";
    var r := ModelArgs(m, names);
    assert r.Ok?;
    assert r.value[0] == m["x"];
    assert r.value == [m["x"]];
    assert CegisCounter(SelfDifference(), ["x"], FirstGuess(), BaseConstraints(["x"]), solver)
      == Ok(Round(false, [m["x"]], cs, Reverse(FirstGuess())));
  }

  function SecondRoundConstraints(): seq<Constraint>
  {
    FirstRoundConstraints() + [Differ(SecondTerm(), SelfDifference())]
  }

  /** The accumulated constraints of round two have no model: round one
      demands a negative `x`, the second guess's term demands `x >= 1`. */
  lemma SecondRoundUnsat(m: map<string, int>)
    ensures !AllHold(SecondRoundConstraints(), m)
  {
    AllHoldAppend(FirstRoundConstraints(), [Differ(SecondTerm(), SelfDifference())], m);
    if AllHold(SecondRoundConstraints(), m) {
      FirstRoundModels(m);
      AllHoldSingle(Differ(SecondTerm(), SelfDifference()), m);
      SecondTermValue(m);
    }
  }

  lemma SecondRound(solver: Solver)
    requires Decides(solver)
    ensures CegisCounter(SelfDifference(), ["x"], SecondGuess(), FirstRoundConstraints(), solver)
      == Ok(Round(true, [], SecondRoundConstraints(), SecondGuess()))
  {
    ResolveSecondGuess(ByRepr);
    assert AvoidZeroDiv(SelfDifference()) == [];
    RoundConstraints(SelfDifference(), ["x"], SecondGuess(), FirstRoundConstraints(), solver, SecondTerm());
    var cs := SecondRoundConstraints();
    if solver(cs).Sat? {
      SecondRoundUnsat(solver(cs).model);
    }
  }

  /** The loop from its second round on: the second guess is accepted. */
  lemma SecondLoop(solver: Solver, more: seq<Example>)
    requires Decides(solver)
    requires |more| == 2
    requires ExamplesValid(SelfDifference(), ["x"], more)
    ensures CegisLoop(SelfDifference(), ["x"], StagedGenerator(), solver, more, 0, FirstRoundConstraints(), 2)
      == Ok(Outcome(SecondGuess(), more, SecondRoundConstraints(), 0))
  {
    assert StagedGenerator()(more, 0) == (SecondGuess(), 0);
    SecondRound(solver);
  }

  lemma SelfDifferenceIsZero(vals: seq<int>)
    requires |vals| == 1
    ensures Vars(SelfDifference()) <= NameSet(["x"])
    ensures GoalAt(SelfDifference(), ["x"], vals) == Ok(0)
  {
    var env := Bind(["x"], vals);
    assert env == map["x" := vals[0]];
    assert Arith.Apply(Arith.Sub, env["x"], env["x"]) == Ok(0);
    assert ConcreteEval(SelfDifference(), env) == Ok(0);
  }

  /** The loop from its first round on. */
  lemma FirstLoop(solver: Solver)
    requires Decides(solver)
    ensures Vars(SelfDifference()) <= NameSet(["x"])
    ensures var first := [Example([0], 0)];
      ExamplesValid(SelfDifference(), ["x"], first) &&
      var r := CegisLoop(SelfDifference(), ["x"], StagedGenerator(), solver, first, 0, BaseConstraints(["x"]), 3);
      && r.Ok? && r.value.guess == SecondGuess()
      && |r.value.examples| == 2 && r.value.examples[0] == Example([0], 0)
      && |r.value.examples[1].args| == 1 && -256 <= r.value.examples[1].args[0] < 0 && r.value.examples[1].value == 0
  {
    var goal := SelfDifference();
    var first := [Example([0], 0)];
    ZeroExamplesValid([0]);
    assert StagedGenerator()(first, 0) == (FirstGuess(), 0);
    FirstRound(solver);
    var r1 := CegisCounter(goal, ["x"], FirstGuess(), BaseConstraints(["x"]), solver).value;
    SelfDifferenceIsZero(r1.counter);
    LoopRefuted(goal, ["x"], StagedGenerator(), solver, first, 0, BaseConstraints(["x"]), 3, r1, 0);
    ZeroExamplesValid(r1.counter);
    SecondLoop(solver, first + [Example(r1.counter, 0)]);
  }

  /** A refuted round adds the counterexample, with the goal's value there,
      to the examples and goes on with the round's constraints. */
  lemma LoopRefuted(goal: Expr, names: seq<string>, gen: Generator, solver: Solver,
                    examples: seq<Example>, minLen: nat, acc: seq<Constraint>, fuel: nat, round: Round, v: int)
    requires Vars(goal) <= NameSet(names)
    requires ExamplesValid(goal, names, examples)
    requires fuel > 0
    requires CegisCounter(goal, names, gen(examples, minLen).0, acc, solver) == Ok(round) && !round.success
    requires GoalAt(goal, names, round.counter) == Ok(v)
    ensures var more := examples + [Example(round.counter, v)];
      && ExamplesValid(goal, names, more)
      && CegisLoop(goal, names, gen, solver, examples, minLen, acc, fuel)
         == CegisLoop(goal, names, gen, solver, more, gen(examples, minLen).1, round.constraints, fuel - 1)
  {
    var more := examples + [Example(round.counter, v)];
    assert forall k :: 0 <= k < |examples| ==> more[k] == examples[k];
  }

  /** Any one-argument examples of `x - x` with the value 0 are valid. */
  lemma ZeroExamplesValid(c: seq<int>)
    requires |c| == 1
    ensures Vars(SelfDifference()) <= NameSet(["x"])
    ensures ExamplesValid(SelfDifference(), ["x"], [Example([0], 0)])
    ensures ExamplesValid(SelfDifference(), ["x"], [Example([0], 0), Example(c, 0)])
  {
    SelfDifferenceIsZero([0]);
    SelfDifferenceIsZero(c);
    var exs := [Example([0], 0), Example(c, 0)];
    assert exs[0] == Example([0], 0) && exs[1] == Example(c, 0);
  }

  /** As written, `cegis_general` returns `addi x5, a2, -1; srai x5, x5, 9;
      addi a0, x5, 1` for the goal `x - x`. Each guess the generator proposes
      returns 0 on the examples it holds, but the constraint left over from
      refuting the first guess (`x < 0`) hides every counterexample to the
      second, such as `x = 1`, where the program returns 1. */
  lemma SharedSolverAcceptsWrongGuess(solver: Solver)
    requires Decides(solver)
    ensures Vars(SelfDifference()) <= NameSet(["x"])
    ensures Dsl.Run(FirstGuess(), map["x" := 0]) == Ok(0)
    ensures var r := CegisGeneral(SelfDifference(), ["x"], StagedGenerator(), solver, 3);
      && r.Ok? && r.value.guess == SecondGuess()
      && forall k :: 0 <= k < |r.value.examples| ==>
           |r.value.examples[k].args| == 1
           && Dsl.Run(SecondGuess(), map["x" := r.value.examples[k].args[0]]) == Ok(r.value.examples[k].value)
    ensures Dsl.Run(SecondGuess(), map["x" := 1]) == Ok(1)
    ensures ConcreteEval(SelfDifference(), map["x" := 1]) == Ok(0)
  {
    GeneralReturnsSecondGuess(solver);
    SecondGuessMeetsExamples(CegisGeneral(SelfDifference(), ["x"], StagedGenerator(), solver, 3).value.examples);
    FirstGuessAtZero();
    SecondGuessAtOne();
    SelfDifferenceAtOne();
  }

  lemma FirstGuessAtZero()
    ensures Dsl.Run(FirstGuess(), map["x" := 0]) == Ok(0)
  {
    RunFirstGuess(0);
  }

  /** At `x = 1` the second guess returns 1 where `x - x` is 0. */
  lemma SecondGuessAtOne()
    ensures Dsl.Run(SecondGuess(), map["x" := 1]) == Ok(1)
  {
    RunSecondGuess(1);
    assert (1 - 1) / 512 + 1 == 1;
  }

  lemma SelfDifferenceAtOne()
    ensures ConcreteEval(SelfDifference(), map["x" := 1]) == Ok(0)
  {
    var env := map["x" := 1];
    assert Arith.Apply(Arith.Sub, 1, 1) == Ok(0);
    assert ConcreteEval(Sym("x"), env) == Ok(1);
  }

  /** The whole run of `cegis_general`: two rounds, two examples. */
  lemma GeneralReturnsSecondGuess(solver: Solver)
    requires Decides(solver)
    ensures Vars(SelfDifference()) <= NameSet(["x"])
    ensures var r := CegisGeneral(SelfDifference(), ["x"], StagedGenerator(), solver, 3);
      && r.Ok? && r.value.guess == SecondGuess()
      && |r.value.examples| == 2 && r.value.examples[0] == Example([0], 0)
      && |r.value.examples[1].args| == 1 && -256 <= r.value.examples[1].args[0] < 0 && r.value.examples[1].value == 0
  {
    SelfDifferenceIsZero([0]);
    assert seq(1, _ => 0) == [0];
    assert InitialExamples(SelfDifference(), ["x"]) == Ok([Example([0], 0)]);
    FirstLoop(solver);
  }

  /** The second guess returns 0 on `x = 0` and on any negative `x` in range. */
  lemma SecondGuessMeetsExamples(exs: seq<Example>)
    requires |exs| == 2 && exs[0] == Example([0], 0)
    requires |exs[1].args| == 1 && -256 <= exs[1].args[0] < 0 && exs[1].value == 0
    ensures forall k :: 0 <= k < |exs| ==>
      |exs[k].args| == 1 && Dsl.Run(SecondGuess(), map["x" := exs[k].args[0]]) == Ok(exs[k].value)
  {
    forall k | 0 <= k < |exs|
      ensures |exs[k].args| == 1 && Dsl.Run(SecondGuess(), map["x" := exs[k].args[0]]) == Ok(exs[k].value)
    {
      assert exs[k].value == 0 && -256 <= exs[k].args[0] <= 0;
      SecondGuessZero(exs[k].args[0]);
    }
  }

  lemma SecondGuessZero(c: int)
    requires -256 <= c <= 0
    ensures Dsl.Run(SecondGuess(), map["x" := c]) == Ok(0)
  {
    RunSecondGuess(c);
    assert (c - 1) / 512 == -1;
  }

  /** `srai a0, a2, 8` computes `x >> 8`. */
  lemma RunFirstGuess(c: int)
    ensures Dsl.Run(FirstGuess(), map["x" := c]) == Ok(c / 256)
  {
    var regs := map["x" := c, Machine.ZeroKey := 0];
    var shift := Machine.ImmStep("srai", Machine.ReturnKey, "x", 8);
    Dsl.FixedKeys();
    assert Dsl.PyName(ArgX) == "x";
    assert Dsl.ToStep(FirstGuess()[0]) == shift;
    assert Dsl.Steps(FirstGuess()) == [shift];
    assert Arith.Pow2(8) == 256;
    assert Machine.StepOnce(Dsl.MatchOp, shift, regs) == Ok(regs[Machine.ReturnKey := c / 256]);
    assert Machine.Exec(Dsl.MatchOp, [shift], regs) == Ok(regs[Machine.ReturnKey := c / 256]);
  }

  /** The second guess computes `((x - 1) >> 9) + 1`. */
  lemma RunSecondGuess(c: int)
    ensures Dsl.Run(SecondGuess(), map["x" := c]) == Ok((c - 1) / 512 + 1)
  {
    var regs := map["x" := c, Machine.ZeroKey := 0];
    SecondGuessSteps();
    var dec := Machine.ImmStep("addi", "x5", "x", -1);
    var shift := Machine.ImmStep("srai", "x5", "x5", 9);
    var inc := Machine.ImmStep("addi", Machine.ReturnKey, "x5", 1);
    ExecSecondGuess(regs, c);
    var r3 := regs["x5" := c - 1]["x5" := (c - 1) / 512][Machine.ReturnKey := (c - 1) / 512 + 1];
    assert Machine.Exec(Dsl.MatchOp, [dec, shift, inc], regs) == Ok(r3);
  }

  lemma SecondGuessSteps()
    ensures Dsl.Steps(SecondGuess()) == [Machine.ImmStep("addi", "x5", "x", -1),
      Machine.ImmStep("srai", "x5", "x5", 9), Machine.ImmStep("addi", Machine.ReturnKey, "x5", 1)]
  {
    assert Strings.IntToString(5) == "5";
    assert Dsl.PyName(Dsl.Scratch(5)) == "x5" && Dsl.PyName(ArgX) == "x";
    Dsl.FixedKeys();
  }

  lemma ExecSecondGuess(regs: Machine.Regs, c: int)
    requires "x" in regs && regs["x"] == c
    ensures var r3 := regs["x5" := c - 1]["x5" := (c - 1) / 512][Machine.ReturnKey := (c - 1) / 512 + 1];
      Machine.Exec(Dsl.MatchOp, [Machine.ImmStep("addi", "x5", "x", -1), Machine.ImmStep("srai", "x5", "x5", 9),
        Machine.ImmStep("addi", Machine.ReturnKey, "x5", 1)], regs) == Ok(r3)
  {
    var dec := Machine.ImmStep("addi", "x5", "x", -1);
    var shift := Machine.ImmStep("srai", "x5", "x5", 9);
    var inc := Machine.ImmStep("addi", Machine.ReturnKey, "x5", 1);
    var t := Dsl.MatchOp;
    var r1 := regs["x5" := c - 1];
    var r2 := r1["x5" := (c - 1) / 512];
    var r3 := r2[Machine.ReturnKey := (c - 1) / 512 + 1];
    AddiStep("x5", "x", -1, regs);
    ShiftStep(r1);
    AddiStep(Machine.ReturnKey, "x5", 1, r2);
    Machine.ExecStep(t, inc, [], r2, r3, r3);
    assert [inc] + [] == [inc];
    Machine.ExecStep(t, shift, [inc], r1, r2, r3);
    Machine.ExecStep(t, dec, [shift] + [inc], regs, r1, r3);
    assert [dec] + ([shift] + [inc]) == [dec, shift, inc];
  }

  lemma AddiStep(dest: string, src: string, imm: int, regs: Machine.Regs)
    requires src in regs
    ensures Machine.StepOnce(Dsl.MatchOp, Machine.ImmStep("addi", dest, src, imm), regs) == Ok(regs[dest := regs[src] + imm])
  {
    assert Dsl.MatchOp("addi") == Some(Arith.Add);
  }

  lemma ShiftStep(regs: Machine.Regs)
    requires "x5" in regs
    ensures Machine.StepOnce(Dsl.MatchOp, Machine.ImmStep("srai", "x5", "x5", 9), regs) == Ok(regs["x5" := regs["x5"] / 512])
  {
    assert Dsl.MatchOp("srai") == Some(Arith.Sra);
    assert Arith.Pow2(9) == 512;
  }

  // ---------------------------------------------------------------------------
  // The corrected loop: a fresh query every round

  /** The query the loop evidently intends for one guess: `x0 == 0`, the
      argument ranges, the guess's divisor conditions, every divisor of the
      goal non-zero, and `a0 != goal`; nothing left over from earlier rounds. */
  function FreshQuery(goal: Expr, names: seq<string>, res: Resolved): seq<Constraint>
  {
    BaseConstraints(names) + NonZeroConstraints(res.guards) + NonZeroConstraints(DivisorGuards(goal)) + [Differ(res.expr, goal)]
  }

  /** The guess resolves (recognising writes by `py_name`), and the solver
      proves that no in-range argument values separate it from the goal. */
  predicate FreshAccepts(goal: Expr, names: seq<string>, guess: seq<Dsl.Instr>, solver: Solver)
  {
    var found := MatchInstr(ByName, Reverse(guess), Dsl.ReturnReg, Bound(names));
    found.Ok? && found.value.Some? && solver(FreshQuery(goal, names, found.value.value)).Unsat?
  }

  /** `cegis_counter` with its own solver: success only on `unsat`, `unknown`
      an error, and the guess always handed back in its order. A guess that
      never writes `a0` is refuted by any in-range arguments the solver
      finds; when it finds none the round gives up with `NoResult`. */
  function CounterFresh(goal: Expr, names: seq<string>, guess: seq<Dsl.Instr>, solver: Solver): (r: Result<Round, CegisError>)
    ensures r.Ok? ==> r.value.guessAfter == guess
    ensures r.Ok? ==> (r.value.success <==> FreshAccepts(goal, names, guess, solver))
    ensures r.Ok? && !r.value.success ==>
      (&& solver(r.value.constraints).Sat?
       && |r.value.counter| == |names|
       && forall k :: 0 <= k < |names| ==>
            names[k] in solver(r.value.constraints).model && r.value.counter[k] == solver(r.value.constraints).model[names[k]])
  {
    var found := MatchInstr(ByName, Reverse(guess), Dsl.ReturnReg, Bound(names));
    if found.Err? then Err(Resolution(found.error))
    else if found.value.None? then
      var query := BaseConstraints(names) + NonZeroConstraints(DivisorGuards(goal)) + [Truth];
      match solver(query)
      case Sat(m) =>
        var counter :- ModelArgs(m, names);
        Ok(Round(false, counter, query, guess))
      case _ => Err(NoResult)
    else
      var query := FreshQuery(goal, names, found.value.value);
      match solver(query)
      case Sat(m) =>
        var counter :- ModelArgs(m, names);
        Ok(Round(false, counter, query, guess))
      case Unsat => Ok(Round(true, [], query, guess))
      case Unknown => Err(SolverUnknown)
  }

  /** The loop of `cegis_general` with a fresh query per round. */
  function CegisLoopFresh(goal: Expr, names: seq<string>, gen: Generator, solver: Solver,
                          examples: seq<Example>, minLen: nat, fuel: nat): (r: Result<Outcome, CegisError>)
    requires Vars(goal) <= NameSet(names)
    requires ExamplesValid(goal, names, examples)
    ensures r.Ok? ==> examples <= r.value.examples && ExamplesValid(goal, names, r.value.examples)
    ensures r.Ok? ==> FreshAccepts(goal, names, r.value.guess, solver)
    ensures r.Ok? ==> r.value.guess == gen(r.value.examples, r.value.minLen).0
    decreases fuel
  {
    if fuel == 0 then Err(OutOfFuel)
    else
      var guess := gen(examples, minLen).0;
      var nextLen := gen(examples, minLen).1;
      var round :- CounterFresh(goal, names, guess, solver);
      if round.success then Ok(Outcome(guess, examples, round.constraints, minLen))
      else
        var v :- GoalAt(goal, names, round.counter);
        var more := examples + [Example(round.counter, v)];
        assert ExamplesValid(goal, names, more) by {
          assert forall k :: 0 <= k < |examples| ==> more[k] == examples[k];
        }
        CegisLoopFresh(goal, names, gen, solver, more, nextLen, fuel - 1)
  }

  /** `cegis_general` with a fresh query per round. */
  function CegisGeneralFresh(goal: Expr, names: seq<string>, gen: Generator, solver: Solver, fuel: nat): (r: Result<Outcome, CegisError>)
    requires Vars(goal) <= NameSet(names)
    ensures r.Ok? ==> |r.value.examples| >= 1 && ExamplesValid(goal, names, r.value.examples)
    ensures r.Ok? ==> FreshAccepts(goal, names, r.value.guess, solver)
  {
    var examples :- InitialExamples(goal, names);
    CegisLoopFresh(goal, names, gen, solver, examples, 0, fuel)
  }

  /** An accepted guess computes the goal: for in-range arguments at which
      no divisor of the goal is zero, a successful run returns z3's value of
      the goal, which is Python's value wherever Python does not raise. */
  lemma FreshAcceptsSound(goal: Expr, names: seq<string>, guess: seq<Dsl.Instr>, solver: Solver, args: map<string, int>, v: int)
    requires SoundSolver(solver)
    requires Vars(goal) <= NameSet(names)
    requires FreshAccepts(goal, names, guess, solver)
    requires args.Keys == NameSet(names)
    requires forall k :: 0 <= k < |names| ==> -256 <= args[names[k]] < 256
    requires DivisorsNonZero(goal, args[Machine.ZeroKey := 0])
    requires Dsl.Run(guess, args) == Ok(v)
    ensures v == Eval(goal, args[Machine.ZeroKey := 0])
    ensures ConcreteEval(goal, args[Machine.ZeroKey := 0]).Ok? ==> v == ConcreteEval(goal, args[Machine.ZeroKey := 0]).value
  {
    var env := args[Machine.ZeroKey := 0];
    ResolveByNameAgreesWithRun(guess, args, v);
    assert args.Keys + {Machine.ZeroKey} == Bound(names);
    var res := MatchInstr(ByName, Reverse(guess), Dsl.ReturnReg, Bound(names)).value.value;
    FreshQueryHolds(goal, names, res, env);
  }

  /** The fresh query holds in every model that binds `x0` to 0 and the
      arguments in range, keeps the guess's and the goal's divisors non-zero,
      and separates the guess's term from the goal. */
  lemma FreshQueryHolds(goal: Expr, names: seq<string>, res: Resolved, env: map<string, int>)
    requires Vars(goal) <= env.Keys && Vars(res.expr) <= env.Keys && GuardVarsIn(res.guards, env.Keys)
    requires Machine.ZeroKey in env && env[Machine.ZeroKey] == 0
    requires forall k :: 0 <= k < |names| ==> names[k] in env && -256 <= env[names[k]] < 256
    requires AllNonZero(res.guards, env)
    requires DivisorsNonZero(goal, env)
    ensures AllHold(FreshQuery(goal, names, res), env) <==> Eval(res.expr, env) != Eval(goal, env)
  {
    BaseConstraintsHold(names, env);
    NonZeroConstraintsHold(res.guards, env);
    DivisorGuardsExact(goal, env);
    NonZeroConstraintsHold(DivisorGuards(goal), env);
    var base := BaseConstraints(names);
    var own := NonZeroConstraints(res.guards);
    var goals := NonZeroConstraints(DivisorGuards(goal));
    AllHoldAppend(base, own, env);
    AllHoldAppend(base + own, goals, env);
    AllHoldAppend(base + own + goals, [Differ(res.expr, goal)], env);
    AllHoldSingle(Differ(res.expr, goal), env);
  }

  /** Every guess the corrected loop returns computes the goal on the
      argument range the loop constrains. */
  lemma CegisFreshSound(goal: Expr, names: seq<string>, gen: Generator, solver: Solver, fuel: nat, args: map<string, int>, v: int)
    requires SoundSolver(solver)
    requires Vars(goal) <= NameSet(names)
    requires CegisGeneralFresh(goal, names, gen, solver, fuel).Ok?
    requires args.Keys == NameSet(names)
    requires forall k :: 0 <= k < |names| ==> -256 <= args[names[k]] < 256
    requires DivisorsNonZero(goal, args[Machine.ZeroKey := 0])
    requires Dsl.Run(CegisGeneralFresh(goal, names, gen, solver, fuel).value.guess, args) == Ok(v)
    ensures v == Eval(goal, args[Machine.ZeroKey := 0])
  {
    var guess := CegisGeneralFresh(goal, names, gen, solver, fuel).value.guess;
    FreshAcceptsSound(goal, names, guess, solver, args, v);
  }

  /** The corrected check refutes the program the shared solver accepted:
      `x = 1` separates it from `x - x`. */
  lemma FreshRejectsSecondGuess(solver: Solver)
    requires Decides(solver)
    ensures !FreshAccepts(SelfDifference(), ["x"], SecondGuess(), solver)
  {
    ResolveSecondGuess(ByName);
    var res := Resolved(SecondTerm(), []);
    var m := map[Machine.ZeroKey := 0, "x" := 1];
    SecondTermValue(m);
    assert ["x"][0] == "x";
    FreshQueryHolds(SelfDifference(), ["x"], res, m);
    DecidesFindsModel(solver, FreshQuery(SelfDifference(), ["x"], res), m);
  }
}

=== FILE: compiler.dfy ===
/** The expression compiler of python_ast_to_riscv_ast.py: `Compiler`
    walks a Python expression tree and emits one instruction per constant,
    operator and negation, drawing registers from two pools.

    The Python class keeps its pools, its variable table and its output list
    in class attributes (the output list is `prog_start` itself); the model
    threads them through an explicit `Session` that starts from the initial
    values. Registers are the riscv_dsl.py classes: the file names `Regvar`,
    which riscv_ast.py does not define.
 */
module Compiler {
  import opened Base
  import Arith
  import Machine
  import Dsl
  import Strings

  // ---------------------------------------------------------------------------
  // Expressions

  /** The operator classes `_transform_expr` matches, and every other one. */
  datatype BinKind = AddK | SubK | MultK | DivK | ModK | LShiftK | RShiftK | OtherK

  /** The Python AST nodes the compiler looks at: an integer `Constant`, a
      `Name`, a `BinOp`, a `UnaryOp(USub(), ...)`, and any other node. */
  datatype PyExpr =
    | Const(val: int)
    | Name(id: string)
    | BinOp(left: PyExpr, op: BinKind, right: PyExpr)
    | USub(arg: PyExpr)
    | Unsupported

  /** Every node is one `_transform_expr` handles. */
  predicate Supported(e: PyExpr)
  {
    match e
    case Const(_) => true
    case Name(_) => true
    case BinOp(l, k, r) => k != OtherK && Supported(l) && Supported(r)
    case USub(a) => Supported(a)
    case Unsupported => false
  }

  /** The variable names the expression mentions. */
  function Names(e: PyExpr): set<string>
  {
    match e
    case Const(_) => {}
    case Name(n) => {n}
    case BinOp(l, _, r) => Names(l) + Names(r)
    case USub(a) => Names(a)
    case Unsupported => {}
  }

  /** How many instructions the tree asks for: one per constant, operator
      and negation, none for a name. */
  function Emits(e: PyExpr): nat
  {
    match e
    case Const(_) => 1
    case Name(_) => 0
    case BinOp(l, _, r) => Emits(l) + Emits(r) + 1
    case USub(a) => Emits(a) + 1
    case Unsupported => 0
  }

  /** The opcode each operator is compiled to. */
  function Opcode(k: BinKind): string
    requires k != OtherK
  {
    match k
    case AddK => "add"
    case SubK => "sub"
    case MultK => "mul"
    case DivK => "div"
    case ModK => "rem"
    case LShiftK => "sll"
    case RShiftK => "sra"
  }

  /** The operation the emitted opcode stands for: `div` and `rem` truncate,
      as riscv_dsl.py's `pydiv` and `pymod` do. */
  function OpOf(k: BinKind): Arith.Op
    requires k != OtherK
  {
    match k
    case AddK => Arith.Add
    case SubK => Arith.Sub
    case MultK => Arith.Mul
    case DivK => Arith.TruncDiv
    case ModK => Arith.TruncRem
    case LShiftK => Arith.Shl
    case RShiftK => Arith.Sra
  }

  /** The value the compiled code is meant to leave in `a0`: each operator
      with the meaning of its opcode, left operand first. */
  function Value(e: PyExpr, env: map<string, int>): Result<int, Arith.ArithError>
    requires Supported(e) && Names(e) <= env.Keys
  {
    match e
    case Const(v) => Ok(v)
    case Name(n) => Ok(env[n])
    case BinOp(l, k, r) =>
      var x :- Value(l, env);
      var y :- Value(r, env);
      Arith.Apply(OpOf(k), x, y)
    case USub(a) =>
      var x :- Value(a, env);
      Ok(-x)
  }

  // ---------------------------------------------------------------------------
  // Compiler state

  datatype CompileError =
    | OutOfTemporaries   // "ran out of temporary registers!"
    | OutOfArguments     // "ran out of argument registers!"
    | CouldNotParse      // "could not parse ..."

  /** `avail_const`, `avail_var`, `used_var` and `result`. */
  datatype Session = Session(pool: seq<Dsl.Reg>, argIdx: seq<int>, used: map<string, Dsl.Reg>, code: seq<Dsl.Instr>)

  /** `[Reg(x) for x in [5, 6, 7, 28, 29, 30, 31]]`. */
  const InitialPool: seq<Dsl.Reg> :=
    [Dsl.Scratch(5), Dsl.Scratch(6), Dsl.Scratch(7), Dsl.Scratch(28), Dsl.Scratch(29), Dsl.Scratch(30), Dsl.Scratch(31)]

  /** `list(range(7, 1, -1))`. */
  const InitialArgs: seq<int> := [7, 6, 5, 4, 3, 2]

  /** The state a new `Compiler` starts from, output beginning with the
      prologue. */
  function Initial(): Session
  {
    Session(InitialPool, InitialArgs, map[], Dsl.ProgStart)
  }

  /** Every recorded variable maps to an argument register carrying its own
      name. */
  predicate UsedOk(used: map<string, Dsl.Reg>)
  {
    forall n :: n in used ==> used[n].ArgReg? && used[n].name == n
  }

  /** The second table keeps every entry of the first. */
  predicate Extends(a: map<string, Dsl.Reg>, b: map<string, Dsl.Reg>)
  {
    forall n :: n in a ==> n in b && b[n] == a[n]
  }

  function Last(code: seq<Dsl.Instr>): Dsl.Instr
    requires code != []
  {
    code[|code| - 1]
  }

  // ---------------------------------------------------------------------------
  // The compiler as written

  /** `avail_const.pop()` behind the `len(avail_const) > 1` check: the last
      register of the pool, while more than one is left. */
  function Pop(s: Session): (r: Result<(Dsl.Reg, Session), CompileError>)
    ensures r.Err? <==> |s.pool| <= 1
    ensures r.Ok? ==> r.value.1 == s.(pool := r.value.1.pool) && r.value.1.pool + [r.value.0] == s.pool
  {
    if |s.pool| > 1 then Ok((s.pool[|s.pool| - 1], s.(pool := s.pool[..|s.pool| - 1])))
    else Err(OutOfTemporaries)
  }

  /** `_transform_const`: take a scratch register and load the value. */
  function TransformConst(s: Session, val: int): (r: Result<(Dsl.Reg, Session), CompileError>)
    ensures r.Err? <==> |s.pool| <= 1
    ensures r.Ok? ==> var (reg, t) := r.value;
      && t.pool + [reg] == s.pool
      && t.code == s.code + [Dsl.Regassign(reg, val)]
      && t.argIdx == s.argIdx && t.used == s.used
  {
    var (reg, t) :- Pop(s);
    Ok((reg, t.(code := t.code + [Dsl.Regassign(reg, val)])))
  }

  /** `_transform_var`: a known name gets its register back; a new one gets
      the last free argument index, while more than one is left. */
  function TransformVar(s: Session, name: string): (r: Result<(Dsl.Reg, Session), CompileError>)
    ensures name in s.used ==> r == Ok((s.used[name], s))
    ensures name !in s.used ==> (r.Err? <==> |s.argIdx| <= 1)
    ensures name !in s.used && r.Ok? ==> var (reg, t) := r.value;
      && reg.ArgReg? && reg.name == name
      && t.argIdx + [reg.num] == s.argIdx
      && t.used == s.used[name := reg]
      && t.pool == s.pool && t.code == s.code
  {
    if name in s.used then Ok((s.used[name], s))
    else if |s.argIdx| > 1 then
      var num := s.argIdx[|s.argIdx| - 1];
      var reg := Dsl.ArgReg(num, name);
      Ok((reg, s.(argIdx := s.argIdx[..|s.argIdx| - 1], used := s.used[name := reg])))
    else Err(OutOfArguments)
  }

  /** `_check_free`: everything but an exact `Regvar` goes back to the
      scratch pool, `a0` included. */
  function CheckFree(s: Session, reg: Dsl.Reg): (t: Session)
    ensures t.argIdx == s.argIdx && t.used == s.used && t.code == s.code
    ensures t.pool == if reg.ArgReg? then s.pool else s.pool + [reg]
  {
    if reg.ArgReg? then s else s.(pool := s.pool + [reg])
  }

  /** `_transform_expr`. A binary operator compiles both sides, writes
      `op a0, left, right`, frees the right register and answers `a0`;
      a negation writes `sub r, x0, r` over its operand's register. The
      operator is inspected before either side is compiled. */
  function TransformExpr(s: Session, e: PyExpr): (r: Result<(Dsl.Reg, Session), CompileError>)
    ensures r.Ok? ==> Supported(e)
    ensures r.Ok? ==> s.code <= r.value.1.code && |r.value.1.code| == |s.code| + Emits(e)
    ensures r.Ok? ==> Extends(s.used, r.value.1.used)
    ensures r.Ok? && e.Name? ==> e.id in r.value.1.used && r.value.1.used[e.id] == r.value.0
    ensures r.Ok? && e.BinOp? ==>
      && r.value.0 == Dsl.ReturnReg
      && Last(r.value.1.code).op == Opcode(e.op)
      && |Last(r.value.1.code).args| == 3 && Last(r.value.1.code).args[0] == Dsl.R(Dsl.ReturnReg)
    ensures r.Ok? && e.USub? ==>
      && Last(r.value.1.code).op == "sub"
      && Last(r.value.1.code).args == [Dsl.R(r.value.0), Dsl.R(Dsl.Zero), Dsl.R(r.value.0)]
    decreases e
  {
    match e
    case BinOp(left, k, right) =>
      if k == OtherK then Err(CouldNotParse)
      else
        var (reg1, s1) :- TransformExpr(s, left);
        var (reg2, s2) :- TransformExpr(s1, right);
        var s3 := s2.(code := s2.code + [Dsl.Instr(Opcode(k), [Dsl.R(Dsl.ReturnReg), Dsl.R(reg1), Dsl.R(reg2)], false)]);
        Ok((Dsl.ReturnReg, CheckFree(s3, reg2)))
    case USub(rest) =>
      var (reg, s1) :- TransformExpr(s, rest);
      Ok((reg, s1.(code := s1.code + [Dsl.Instr("sub", [Dsl.R(reg), Dsl.R(Dsl.Zero), Dsl.R(reg)], false)])))
    case Name(n) => TransformVar(s, n)
    case Const(v) => TransformConst(s, v)
    case Unsupported => Err(CouldNotParse)
  }

  /** `Compiler().compile(e)`: the prologue, the expression's code, and
      `addi a0, last, 0`. */
  function Compile(e: PyExpr): (r: Result<seq<Dsl.Instr>, CompileError>)
    ensures r.Ok? ==> Supported(e)
    ensures r.Ok? ==> Dsl.ProgStart <= r.value && |r.value| == |Dsl.ProgStart| + Emits(e) + 1
    ensures r.Ok? ==> Last(r.value).op == "addi" && |Last(r.value).args| == 3 && Last(r.value).args[0] == Dsl.R(Dsl.ReturnReg)
  {
    var (last, s) :- TransformExpr(Initial(), e);
    Ok(s.code + [Dsl.Instr("addi", [Dsl.R(Dsl.ReturnReg), Dsl.R(last), Dsl.Imm(0)], false)])
  }

  /** The prologue's directive and label lines do nothing when run. */
  lemma PrologueSkipped(code: seq<Dsl.Instr>, env: map<string, int>)
    ensures Dsl.Run(Dsl.ProgStart + code, env) == Dsl.Run(code, env)
  {
    Dsl.StepsAppend(Dsl.ProgStart, code);
    var n := Machine.NoStep;
    assert Dsl.Steps(Dsl.ProgStart) == [n, n, n];
    var regs := env[Machine.ZeroKey := 0];
    Machine.ExecAppend(Dsl.MatchOp, [n, n, n], Dsl.Steps(code), regs);
    assert [n, n, n][1..] == [n, n] && [n, n][1..] == [n] && [n][1..] == [];
    assert Machine.Exec(Dsl.MatchOp, [n], regs) == Ok(regs);
    assert Machine.Exec(Dsl.MatchOp, [n, n], regs) == Ok(regs);
    assert Machine.Exec(Dsl.MatchOp, [n, n, n], regs) == Ok(regs);
  }

  // ---------------------------------------------------------------------------
  // What the compiler as written does on small inputs

  /** The first constant goes to `x31`, the first variable to `a2`. */
  lemma FirstRegisters(v: int, n: string)
    ensures TransformExpr(Initial(), Const(v)).Ok? && TransformExpr(Initial(), Const(v)).value.0 == Dsl.Scratch(31)
    ensures TransformExpr(Initial(), Name(n)).Ok? && TransformExpr(Initial(), Name(n)).value.0 == Dsl.ArgReg(2, n)
  {
  }

  function Sum(a: int, b: int): PyExpr
  {
    BinOp(Const(a), AddK, Const(b))
  }

  /** After `1 + (2 + 3)` the inner sum's `a0` has been freed into the
      scratch pool, so the next constant is loaded into `a0`, over the value
      just computed there. */
  lemma ReturnRegEntersPool()
    ensures var r := TransformExpr(Initial(), BinOp(Const(1), AddK, Sum(2, 3)));
      && r.Ok? && r.value.1.pool == InitialPool[..5] + [Dsl.ReturnReg]
      && TransformConst(r.value.1, 4).Ok? && TransformConst(r.value.1, 4).value.0 == Dsl.ReturnReg
  {
    var s0 := Initial();
    var r1 := TransformExpr(s0, Const(1));
    assert r1.value.0 == Dsl.Scratch(31);
    var s1 := r1.value.1;
    var r2 := TransformExpr(s1, Const(2));
    var s2 := r2.value.1;
    assert s2.pool == InitialPool[..5];
    var r3 := TransformExpr(s2, Const(3));
    assert r3.value.1.pool == InitialPool[..4];
    var r23 := TransformExpr(s1, Sum(2, 3));
    assert r23.value.1.pool == InitialPool[..5];
  }

  /** `(1 + 2) + (3 + 4)`. */
  function SumOfSums(): PyExpr
  {
    BinOp(Sum(1, 2), AddK, Sum(3, 4))
  }

  function AddA0(a: Dsl.Reg, b: Dsl.Reg): Dsl.Instr
  {
    Dsl.Instr("add", [Dsl.R(Dsl.ReturnReg), Dsl.R(a), Dsl.R(b)], false)
  }

  function SumOfSumsBody(): seq<Dsl.Instr>
  {
    [Dsl.Regassign(Dsl.Scratch(31), 1), Dsl.Regassign(Dsl.Scratch(30), 2), AddA0(Dsl.Scratch(31), Dsl.Scratch(30)),
     Dsl.Regassign(Dsl.Scratch(30), 3), Dsl.Regassign(Dsl.Scratch(29), 4), AddA0(Dsl.Scratch(30), Dsl.Scratch(29)),
     AddA0(Dsl.ReturnReg, Dsl.ReturnReg),
     Dsl.Instr("addi", [Dsl.R(Dsl.ReturnReg), Dsl.R(Dsl.ReturnReg), Dsl.Imm(0)], false)]
  }

  /** A constant is loaded into the last pool register. */
  lemma ConstLoads(s: Session, v: int)
    requires |s.pool| >= 2
    ensures var n := |s.pool|;
      TransformExpr(s, Const(v)) == Ok((s.pool[n - 1], s.(pool := s.pool[..n - 1], code := s.code + [Dsl.Regassign(s.pool[n - 1], v)])))
  {
  }

  /** The session after both loads and the `add`, before the right
      register is freed. */
  function SumLoaded(s: Session, a: int, b: int): Session
    requires |s.pool| >= 2
  {
    var n := |s.pool|;
    var x, y := s.pool[n - 1], s.pool[n - 2];
    s.(pool := s.pool[..n - 2], code := s.code + [Dsl.Regassign(x, a)] + [Dsl.Regassign(y, b)] + [AddA0(x, y)])
  }

  /** One step of `_transform_expr` on a binary operator whose sides
      compile. */
  lemma BinOpUnfold(s: Session, l: PyExpr, k: BinKind, r: PyExpr)
    requires k != OtherK && TransformExpr(s, l).Ok?
    requires TransformExpr(TransformExpr(s, l).value.1, r).Ok?
    ensures var (reg1, s1) := TransformExpr(s, l).value;
      var (reg2, s2) := TransformExpr(s1, r).value;
      TransformExpr(s, BinOp(l, k, r))
      == Ok((Dsl.ReturnReg, CheckFree(s2.(code := s2.code + [Dsl.Instr(Opcode(k), [Dsl.R(Dsl.ReturnReg), Dsl.R(reg1), Dsl.R(reg2)], false)]), reg2)))
  {
  }

  lemma SumUnfold(s: Session, a: int, b: int)
    requires |s.pool| >= 3
    ensures TransformExpr(s, Sum(a, b)) == Ok((Dsl.ReturnReg, CheckFree(SumLoaded(s, a, b), s.pool[|s.pool| - 2])))
  {
    var n := |s.pool|;
    var x, y := s.pool[n - 1], s.pool[n - 2];
    var s1 := s.(pool := s.pool[..n - 1], code := s.code + [Dsl.Regassign(x, a)]);
    ConstLoads(s, a);
    assert s1.pool[|s1.pool| - 1] == y && s1.pool[..|s1.pool| - 1] == s.pool[..n - 2];
    ConstLoads(s1, b);
    BinOpUnfold(s, Const(a), AddK, Const(b));
  }

  lemma SumFreed(s: Session, a: int, b: int)
    requires |s.pool| >= 3 && !s.pool[|s.pool| - 2].ArgReg?
    ensures var n := |s.pool|; var x, y := s.pool[n - 1], s.pool[n - 2];
      CheckFree(SumLoaded(s, a, b), y)
      == s.(pool := s.pool[..n - 2] + [y], code := s.code + [Dsl.Regassign(x, a), Dsl.Regassign(y, b), AddA0(x, y)])
  {
    var n := |s.pool|;
    var x, y := s.pool[n - 1], s.pool[n - 2];
    assert s.code + [Dsl.Regassign(x, a)] + [Dsl.Regassign(y, b)] + [AddA0(x, y)]
      == s.code + [Dsl.Regassign(x, a), Dsl.Regassign(y, b), AddA0(x, y)];
  }

  /** A sum of two constants loads the last two pool registers, adds them
      into `a0` and gives back the second. */
  lemma CompileSum(s: Session, a: int, b: int)
    requires |s.pool| >= 3 && !s.pool[|s.pool| - 2].ArgReg?
    ensures var n := |s.pool|; var x, y := s.pool[n - 1], s.pool[n - 2];
      TransformExpr(s, Sum(a, b))
      == Ok((Dsl.ReturnReg, s.(pool := s.pool[..n - 2] + [y], code := s.code + [Dsl.Regassign(x, a), Dsl.Regassign(y, b), AddA0(x, y)])))
  {
    SumUnfold(s, a, b);
    SumFreed(s, a, b);
  }

  /** Both sums land in `a0`, and the outer sum adds `a0` to itself. */
  lemma CompileSumOfSums()
    ensures Compile(SumOfSums()) == Ok(Dsl.ProgStart + SumOfSumsBody())
  {
    var s0 := Initial();
    CompileSum(s0, 1, 2);
    var s1 := TransformExpr(s0, Sum(1, 2)).value.1;
    assert s1.pool == InitialPool[..5] + [Dsl.Scratch(30)];
    CompileSum(s1, 3, 4);
    var s2 := TransformExpr(s1, Sum(3, 4)).value.1;
    var a, b, c := Dsl.Regassign(Dsl.Scratch(31), 1), Dsl.Regassign(Dsl.Scratch(30), 2), AddA0(Dsl.Scratch(31), Dsl.Scratch(30));
    var d, e, f := Dsl.Regassign(Dsl.Scratch(30), 3), Dsl.Regassign(Dsl.Scratch(29), 4), AddA0(Dsl.Scratch(30), Dsl.Scratch(29));
    var g := AddA0(Dsl.ReturnReg, Dsl.ReturnReg);
    var fin := Dsl.Instr("addi", [Dsl.R(Dsl.ReturnReg), Dsl.R(Dsl.ReturnReg), Dsl.Imm(0)], false);
    var P := Dsl.ProgStart;
    assert s2.code == P + [a, b, c] + [d, e, f];
    var whole := TransformExpr(s0, SumOfSums());
    assert whole == Ok((Dsl.ReturnReg, CheckFree(s2.(code := s2.code + [g]), Dsl.ReturnReg)));
    assert Compile(SumOfSums()) == Ok(s2.code + [g] + [fin]);
    assert P + [a, b, c] + [d, e, f] + [g] + [fin] == P + [a, b, c, d, e, f, g, fin];
  }

  lemma Key31()
    ensures Dsl.PyName(Dsl.Scratch(31)) == "x31"
  {
    assert Strings.IntToString(31) == "31";
  }

  lemma Key30()
    ensures Dsl.PyName(Dsl.Scratch(30)) == "x30"
  {
    assert Strings.IntToString(30) == "30";
  }

  lemma Key29()
    ensures Dsl.PyName(Dsl.Scratch(29)) == "x29"
  {
    assert Strings.IntToString(29) == "29";
  }

  lemma ScratchKeys()
    ensures Dsl.PyName(Dsl.Scratch(31)) == "x31" && Dsl.PyName(Dsl.Scratch(30)) == "x30"
    ensures Dsl.PyName(Dsl.Scratch(29)) == "x29" && Dsl.PyName(Dsl.ReturnReg) == "a0" && Dsl.PyName(Dsl.Zero) == "x0"
  {
    Key31();
    Key30();
    Key29();
    Dsl.FixedKeys();
  }

  /** The steps of `addi x, x0, a; addi y, x0, b; add a0, x, y`. */
  function SumBlock(x: string, y: string, a: int, b: int): seq<Machine.Step>
  {
    [Machine.ImmStep("addi", x, "x0", a), Machine.ImmStep("addi", y, "x0", b), Machine.RegStep("add", "a0", x, y)]
  }

  /** The steps of `add a0, a0, a0; addi a0, a0, 0`. */
  function Doubling(): seq<Machine.Step>
  {
    [Machine.RegStep("add", "a0", "a0", "a0"), Machine.ImmStep("addi", "a0", "a0", 0)]
  }

  lemma AssignStep(r: Dsl.Reg, n: int)
    ensures Dsl.ToStep(Dsl.Regassign(r, n)) == Machine.ImmStep("addi", Dsl.PyName(r), "x0", n)
  {
    Dsl.FixedKeys();
  }

  lemma AddStep(x: Dsl.Reg, y: Dsl.Reg)
    ensures Dsl.ToStep(AddA0(x, y)) == Machine.RegStep("add", "a0", Dsl.PyName(x), Dsl.PyName(y))
  {
    Dsl.FixedKeys();
  }

  /** The steps of one constant sum, on any two registers. */
  lemma StepsSum(x: Dsl.Reg, y: Dsl.Reg, a: int, b: int)
    ensures Dsl.Steps([Dsl.Regassign(x, a), Dsl.Regassign(y, b), AddA0(x, y)]) == SumBlock(Dsl.PyName(x), Dsl.PyName(y), a, b)
  {
    AssignStep(x, a);
    AssignStep(y, b);
    AddStep(x, y);
    var ss := Dsl.Steps([Dsl.Regassign(x, a), Dsl.Regassign(y, b), AddA0(x, y)]);
    assert ss == [ss[0], ss[1], ss[2]];
  }

  lemma StepsDoubling()
    ensures Dsl.Steps([AddA0(Dsl.ReturnReg, Dsl.ReturnReg), Dsl.Instr("addi", [Dsl.R(Dsl.ReturnReg), Dsl.R(Dsl.ReturnReg), Dsl.Imm(0)], false)]) == Doubling()
  {
    AddStep(Dsl.ReturnReg, Dsl.ReturnReg);
    Dsl.FixedKeys();
  }

  lemma StepsSumOfSums()
    ensures Dsl.Steps(SumOfSumsBody()) == SumBlock("x31", "x30", 1, 2) + SumBlock("x30", "x29", 3, 4) + Doubling()
  {
    var x31, x30, x29 := Dsl.Scratch(31), Dsl.Scratch(30), Dsl.Scratch(29);
    var first := [Dsl.Regassign(x31, 1), Dsl.Regassign(x30, 2), AddA0(x31, x30)];
    var second := [Dsl.Regassign(x30, 3), Dsl.Regassign(x29, 4), AddA0(x30, x29)];
    var last := [AddA0(Dsl.ReturnReg, Dsl.ReturnReg), Dsl.Instr("addi", [Dsl.R(Dsl.ReturnReg), Dsl.R(Dsl.ReturnReg), Dsl.Imm(0)], false)];
    assert SumOfSumsBody() == first + second + last;
    Dsl.StepsAppend(first + second, last);
    Dsl.StepsAppend(first, second);
    Key31();
    Key30();
    Key29();
    StepsSum(x31, x30, 1, 2);
    StepsSum(x30, x29, 3, 4);
    StepsDoubling();
  }

  lemma ExecSumBlock(x: string, y: string, a: int, b: int, regs: Machine.Regs)
    requires x != y && x != "x0" && y != "x0" && "x0" in regs && regs["x0"] == 0
    ensures Machine.Exec(Dsl.MatchOp, SumBlock(x, y, a, b), regs) == Ok(regs[x := a][y := b]["a0" := a + b])
  {
    var t := Dsl.MatchOp;
    var s1, s2, s3 := Machine.ImmStep("addi", x, "x0", a), Machine.ImmStep("addi", y, "x0", b), Machine.RegStep("add", "a0", x, y);
    var r1 := regs[x := a];
    var r2 := r1[y := b];
    var r3 := r2["a0" := a + b];
    Machine.ExecStep(t, s3, [], r2, r3, r3);
    assert [s3] + [] == [s3];
    Machine.ExecStep(t, s2, [s3], r1, r2, r3);
    Machine.ExecStep(t, s1, [s2] + [s3], regs, r1, r3);
    assert [s1] + ([s2] + [s3]) == SumBlock(x, y, a, b);
  }

  lemma ExecDoubling(regs: Machine.Regs)
    requires "a0" in regs
    ensures Machine.Exec(Dsl.MatchOp, Doubling(), regs) == Ok(regs["a0" := 2 * regs["a0"]])
  {
    var t := Dsl.MatchOp;
    var s1, s2 := Machine.RegStep("add", "a0", "a0", "a0"), Machine.ImmStep("addi", "a0", "a0", 0);
    var r1 := regs["a0" := 2 * regs["a0"]];
    assert r1["a0" := r1["a0"] + 0] == r1;
    Machine.ExecStep(t, s2, [], r1, r1, r1);
    assert [s2] + [] == [s2];
    Machine.ExecStep(t, s1, [s2], regs, r1, r1);
    assert [s1] + [s2] == Doubling();
  }

  lemma ExecSumOfSums()
    ensures var r := Machine.Exec(Dsl.MatchOp, SumBlock("x31", "x30", 1, 2) + SumBlock("x30", "x29", 3, 4) + Doubling(), map["x0" := 0]);
      r.Ok? && "a0" in r.value && r.value["a0"] == 14
  {
    var t := Dsl.MatchOp;
    var b1, b2, b3 := SumBlock("x31", "x30", 1, 2), SumBlock("x30", "x29", 3, 4), Doubling();
    var r0 := map["x0" := 0];
    ExecSumBlock("x31", "x30", 1, 2, r0);
    var r1 := r0["x31" := 1]["x30" := 2]["a0" := 3];
    ExecSumBlock("x30", "x29", 3, 4, r1);
    var r2 := r1["x30" := 3]["x29" := 4]["a0" := 7];
    ExecDoubling(r2);
    Machine.ExecAppend(t, b1 + b2, b3, r0);
    Machine.ExecAppend(t, b1, b2, r0);
  }

  /** Every operator writes `a0`, so the left sum is overwritten by the
      right one before the outer addition reads it: `(1 + 2) + (3 + 4)`
      runs to 14 (`ValueSumOfSums`: the intended value is 10). */
  lemma RunSumOfSums()
    ensures Compile(SumOfSums()).Ok?
    ensures Dsl.Run(Compile(SumOfSums()).value, map[]) == Ok(14)
  {
    CompileSumOfSums();
    PrologueSkipped(SumOfSumsBody(), map[]);
    StepsSumOfSums();
    ExecSumOfSums();
    assert map[][Machine.ZeroKey := 0] == map["x0" := 0];
  }

  lemma ValueSumOfSums()
    ensures Value(SumOfSums(), map[]) == Ok(10)
  {
    assert Value(Sum(1, 2), map[]) == Ok(3);
    assert Value(Sum(3, 4), map[]) == Ok(7);
  }

  /** `-x + x`. */
  function NegThenAdd(): PyExpr
  {
    BinOp(USub(Name("x")), AddK, Name("x"))
  }

  function NegThenAddBody(): seq<Dsl.Instr>
  {
    var a2 := Dsl.R(Dsl.ArgReg(2, "x"));
    [Dsl.Instr("sub", [a2, Dsl.R(Dsl.Zero), a2], false), Dsl.Instr("add", [Dsl.R(Dsl.ReturnReg), a2, a2], false),
     Dsl.Instr("addi", [Dsl.R(Dsl.ReturnReg), Dsl.R(Dsl.ReturnReg), Dsl.Imm(0)], false)]
  }

  lemma CompileNegThenAdd()
    ensures Compile(NegThenAdd()) == Ok(Dsl.ProgStart + NegThenAddBody())
  {
    var s0 := Initial();
    var a2 := Dsl.ArgReg(2, "x");
    var sub := Dsl.Instr("sub", [Dsl.R(a2), Dsl.R(Dsl.Zero), Dsl.R(a2)], false);
    var add := Dsl.Instr("add", [Dsl.R(Dsl.ReturnReg), Dsl.R(a2), Dsl.R(a2)], false);
    var fin := Dsl.Instr("addi", [Dsl.R(Dsl.ReturnReg), Dsl.R(Dsl.ReturnReg), Dsl.Imm(0)], false);
    var v := TransformVar(s0, "x");
    assert v.value.0 == a2 && v.value.1.code == Dsl.ProgStart;
    var neg := TransformExpr(s0, USub(Name("x")));
    assert neg.value.0 == a2;
    assert neg.value.1.code == Dsl.ProgStart + [sub];
    assert neg.value.1.used["x"] == a2;
    var again := TransformExpr(neg.value.1, Name("x"));
    assert again == Ok((a2, neg.value.1));
    var whole := TransformExpr(s0, NegThenAdd());
    assert whole.value.1.code == Dsl.ProgStart + [sub] + [add];
    assert Compile(NegThenAdd()) == Ok(Dsl.ProgStart + [sub] + [add] + [fin]);
    assert Dsl.ProgStart + [sub] + [add] + [fin] == Dsl.ProgStart + [sub, add, fin];
  }

  /** The steps of `sub x, x0, x; add a0, x, x; addi a0, a0, 0`. */
  function NegBlock(): seq<Machine.Step>
  {
    [Machine.RegStep("sub", "x", "x0", "x"), Machine.RegStep("add", "a0", "x", "x"), Machine.ImmStep("addi", "a0", "a0", 0)]
  }

  lemma StepsNegThenAdd()
    ensures Dsl.Steps(NegThenAddBody()) == NegBlock()
  {
    ScratchKeys();
  }

  lemma ExecNegBlock(regs: Machine.Regs)
    requires "x0" in regs && regs["x0"] == 0 && "x" in regs
    ensures Machine.Exec(Dsl.MatchOp, NegBlock(), regs) == Ok(regs["x" := -regs["x"]]["a0" := -2 * regs["x"]])
  {
    var t := Dsl.MatchOp;
    var s1 := Machine.RegStep("sub", "x", "x0", "x");
    var s2 := Machine.RegStep("add", "a0", "x", "x");
    var s3 := Machine.ImmStep("addi", "a0", "a0", 0);
    var r1 := regs["x" := -regs["x"]];
    var r2 := r1["a0" := -2 * regs["x"]];
    assert r2["a0" := r2["a0"] + 0] == r2;
    Machine.ExecStep(t, s3, [], r2, r2, r2);
    assert [s3] + [] == [s3];
    Machine.ExecStep(t, s2, [s3], r1, r2, r2);
    Machine.ExecStep(t, s1, [s2] + [s3], regs, r1, r2);
    assert [s1] + ([s2] + [s3]) == NegBlock();
  }

  /** The negation is written back into the variable's own register, so
      the second use of `x` reads `-x`: `-x + x` with `x = 5` runs to -10
      (`ValueNegThenAdd`: the intended value is 0). */
  lemma RunNegThenAdd()
    ensures Compile(NegThenAdd()).Ok?
    ensures Dsl.Run(Compile(NegThenAdd()).value, map["x" := 5]) == Ok(-10)
  {
    CompileNegThenAdd();
    PrologueSkipped(NegThenAddBody(), map["x" := 5]);
    RunNegBody(map["x" := 5]);
  }

  /** Without the prologue, the body doubles the negation of `x`. */
  lemma RunNegBody(env: map<string, int>)
    requires "x" in env
    ensures Dsl.Run(NegThenAddBody(), env) == Ok(-2 * env["x"])
  {
    StepsNegThenAdd();
    var r0 := env[Machine.ZeroKey := 0];
    assert r0["x"] == env["x"] by { Dsl.FixedKeys(); }
    ExecNegBlock(r0);
  }

  lemma ValueNegThenAdd()
    ensures Value(NegThenAdd(), map["x" := 5]) == Ok(0)
  {
  }

  /** `x << 1`. */
  function ShiftLeftOne(): PyExpr
  {
    BinOp(Name("x"), LShiftK, Const(1))
  }

  function ShiftBody(): seq<Dsl.Instr>
  {
    [Dsl.Regassign(Dsl.Scratch(31), 1), Dsl.Instr("sll", [Dsl.R(Dsl.ReturnReg), Dsl.R(Dsl.ArgReg(2, "x")), Dsl.R(Dsl.Scratch(31))], false),
     Dsl.Instr("addi", [Dsl.R(Dsl.ReturnReg), Dsl.R(Dsl.ReturnReg), Dsl.Imm(0)], false)]
  }

  lemma CompileShiftLeftOne()
    ensures Compile(ShiftLeftOne()) == Ok(Dsl.ProgStart + ShiftBody())
  {
    var s0 := Initial();
    var b := ShiftBody();
    var v := TransformExpr(s0, Name("x"));
    assert v.value.0 == Dsl.ArgReg(2, "x") && v.value.1.code == Dsl.ProgStart && v.value.1.pool == InitialPool;
    var c := TransformExpr(v.value.1, Const(1));
    assert c.value.0 == Dsl.Scratch(31) && c.value.1.code == Dsl.ProgStart + [b[0]];
    var whole := TransformExpr(s0, ShiftLeftOne());
    assert whole.value.1.code == Dsl.ProgStart + [b[0]] + [b[1]];
    assert Compile(ShiftLeftOne()) == Ok(Dsl.ProgStart + [b[0]] + [b[1]] + [b[2]]);
    assert Dsl.ProgStart + [b[0]] + [b[1]] + [b[2]] == Dsl.ProgStart + b;
  }

  /** The register-shift opcodes the compiler emits are not in the table. */
  lemma ShiftOpsUnknown()
    ensures Dsl.MatchOp(Opcode(LShiftK)).None? && Dsl.MatchOp(Opcode(RShiftK)).None?
    ensures Dsl.MatchOp("sll").None?
  {
    assert "sll" !in Dsl.ArithOps && "sra" !in Dsl.ArithOps;
  }

  /** The steps of `addi x31, x0, 1; sll a0, x, x31; addi a0, a0, 0`. */
  function ShiftBlock(): seq<Machine.Step>
  {
    [Machine.ImmStep("addi", "x31", "x0", 1), Machine.RegStep("sll", "a0", "x", "x31"), Machine.ImmStep("addi", "a0", "a0", 0)]
  }

  lemma StepsShiftLeftOne()
    ensures Dsl.Steps(ShiftBody()) == ShiftBlock()
  {
    ScratchKeys();
  }

  lemma ExecShiftBlock(regs: Machine.Regs)
    requires "x0" in regs && "x" in regs
    ensures Machine.Exec(Dsl.MatchOp, ShiftBlock(), regs) == Err(Machine.UnknownOp("sll"))
  {
    var t := Dsl.MatchOp;
    var b := ShiftBlock();
    var r1 := regs["x31" := regs["x0"] + 1];
    assert Machine.StepOnce(t, b[0], regs) == Ok(r1);
    ShiftOpsUnknown();
    assert Machine.StepOnce(t, b[1], r1) == Err(Machine.UnknownOp("sll"));
    assert b[1..][1..] == [b[2]];
  }

  /** Shifts compile to `sll` and `sra`, which riscv_dsl.py's `match_op`
      does not know (it has `slli` and `srai`): running the code raises. */
  lemma ShiftsDoNotRun()
    ensures Compile(ShiftLeftOne()).Ok?
    ensures Dsl.Run(Compile(ShiftLeftOne()).value, map["x" := 1]) == Err(Machine.UnknownOp("sll"))
  {
    CompileShiftLeftOne();
    PrologueSkipped(ShiftBody(), map["x" := 1]);
    StepsShiftLeftOne();
    ExecShiftBlock(map["x" := 1][Machine.ZeroKey := 0]);
  }
}

=== FILE: compiler_fresh.dfy ===
/** The compiler of python_ast_to_riscv_ast.py with the destination of each
    operator and negation taken fresh from the scratch pool, instead of `a0`
    and the operand's own register. Everything else — the pools, the order
    in which they are popped, the variable table, the opcodes, `compile`'s
    final `addi a0, last, 0` — is the compiler as written (module
    `Compiler`).

    The headline is `CompileFreshCorrect`: for every expression the
    corrected compiler accepts, running its code with the variables bound
    yields the expression's value, or raises the error evaluating it raises.
 */
module CompilerFresh {
  import opened Base
  import opened Strings
  import Arith
  import Machine
  import Dsl
  import opened Compiler

  // ---------------------------------------------------------------------------
  // The corrected compiler

  /** `_transform_expr` with fresh destinations: a binary operator compiles
      both sides, takes a register from the pool, writes
      `op dest, left, right` and frees both operand registers; a negation
      writes `sub dest, x0, operand` and frees the operand's register. */
  function TransformFresh(s: Session, e: PyExpr): (r: Result<(Dsl.Reg, Session), CompileError>)
    ensures r.Ok? ==> Supported(e)
    ensures r.Ok? ==> s.code <= r.value.1.code && |r.value.1.code| == |s.code| + Emits(e)
    decreases e
  {
    match e
    case BinOp(left, k, right) =>
      if k == OtherK then Err(CouldNotParse)
      else
        var (reg1, s1) :- TransformFresh(s, left);
        var (reg2, s2) :- TransformFresh(s1, right);
        var (dest, s3) :- Pop(s2);
        var s4 := s3.(code := s3.code + [BinInstr(Opcode(k), dest, reg1, reg2)]);
        Ok((dest, CheckFree(CheckFree(s4, reg1), reg2)))
    case USub(rest) =>
      var (reg, s1) :- TransformFresh(s, rest);
      var (dest, s2) :- Pop(s1);
      var s3 := s2.(code := s2.code + [NegInstr(dest, reg)]);
      Ok((dest, CheckFree(s3, reg)))
    case Name(n) => TransformVar(s, n)
    case Const(v) => TransformConst(s, v)
    case Unsupported => Err(CouldNotParse)
  }

  /** `sub dest, x0, reg`. */
  function NegInstr(dest: Dsl.Reg, reg: Dsl.Reg): Dsl.Instr
  {
    Dsl.Instr("sub", [Dsl.R(dest), Dsl.R(Dsl.Zero), Dsl.R(reg)], false)
  }

  /** `op dest, left, right`. */
  function BinInstr(op: string, dest: Dsl.Reg, left: Dsl.Reg, right: Dsl.Reg): Dsl.Instr
  {
    Dsl.Instr(op, [Dsl.R(dest), Dsl.R(left), Dsl.R(right)], false)
  }

  /** `compile`'s last instruction, `addi a0, last, 0`. */
  function Finish(last: Dsl.Reg): Dsl.Instr
  {
    Dsl.Instr("addi", [Dsl.R(Dsl.ReturnReg), Dsl.R(last), Dsl.Imm(0)], false)
  }

  /** `compile` over the corrected expression compiler. */
  function CompileFresh(e: PyExpr): (r: Result<seq<Dsl.Instr>, CompileError>)
    ensures r.Ok? ==> Supported(e)
    ensures r.Ok? ==> Dsl.ProgStart <= r.value && |r.value| == |Dsl.ProgStart| + Emits(e) + 1
    ensures r.Ok? ==> Last(r.value).op == "addi" && |Last(r.value).args| == 3 && Last(r.value).args[0] == Dsl.R(Dsl.ReturnReg)
  {
    var (last, s) :- TransformFresh(Initial(), e);
    Ok(s.code + [Finish(last)])
  }

  // ---------------------------------------------------------------------------
  // Register keys

  /** No shift operator anywhere in the tree. */
  predicate NoShift(e: PyExpr)
  {
    match e
    case BinOp(l, k, r) => k != LShiftK && k != RShiftK && NoShift(l) && NoShift(r)
    case USub(a) => NoShift(a)
    case _ => true
  }

  /** No variable of the expression has a register-shaped name. */
  predicate PlainNames(e: PyExpr)
  {
    forall n :: n in Names(e) ==> !Dsl.Reserved(n)
  }

  /** The scratch pool holds valid scratch registers, each once. */
  predicate PoolOk(pool: seq<Dsl.Reg>)
  {
    && (forall k :: 0 <= k < |pool| ==> pool[k].Scratch? && Dsl.Valid(pool[k]))
    && (forall j, k :: 0 <= j < k < |pool| ==> pool[j] != pool[k])
  }

  /** The keys the interpreter files the pool's registers under. */
  function PoolKeys(pool: seq<Dsl.Reg>): set<string>
  {
    set r | r in pool :: Dsl.PyName(r)
  }

  lemma ScratchKey(r: Dsl.Reg)
    requires r.Scratch? && Dsl.Valid(r)
    ensures Dsl.Reserved(Dsl.PyName(r)) && Dsl.PyName(r) != Machine.ZeroKey
  {
    var n: nat := r.num;
    var d := NatToString(n);
    assert IntToString(n) == d;
    assert Dsl.PyName(r) == "x" + d;
    assert ("x" + d)[1..] == d;
    assert n != 0;
  }

  /** Scratch registers with the same key are the same register. */
  lemma ScratchKeyInjective(a: Dsl.Reg, b: Dsl.Reg)
    requires a.Scratch? && b.Scratch?
    ensures Dsl.PyName(a) == Dsl.PyName(b) ==> a == b
  {
    Dsl.RegEqIff(a, b);
  }

  /** Every pool key is register-shaped, and none is `x0`. */
  lemma PoolKeysReserved(pool: seq<Dsl.Reg>, key: string)
    requires PoolOk(pool) && key in PoolKeys(pool)
    ensures Dsl.Reserved(key) && key != Machine.ZeroKey
  {
    var r :| r in pool && Dsl.PyName(r) == key;
    ScratchKey(r);
  }

  /** A register outside the pool is filed under a key outside the pool's
      keys: a scratch register by injectivity, a variable's register because
      its name is not register-shaped. */
  lemma KeyOutsidePool(pool: seq<Dsl.Reg>, reg: Dsl.Reg)
    requires PoolOk(pool)
    requires (reg.Scratch? && reg !in pool) || (reg.ArgReg? && !Dsl.Reserved(reg.name))
    ensures Dsl.PyName(reg) !in PoolKeys(pool)
  {
    if Dsl.PyName(reg) in PoolKeys(pool) {
      var r :| r in pool && Dsl.PyName(r) == Dsl.PyName(reg);
      if reg.Scratch? {
        ScratchKeyInjective(r, reg);
      } else {
        ScratchKey(r);
      }
    }
  }

  lemma PoolKeysSubset(a: seq<Dsl.Reg>, b: seq<Dsl.Reg>)
    requires forall x :: x in a ==> x in b
    ensures PoolKeys(a) <= PoolKeys(b)
  {
  }

  // ---------------------------------------------------------------------------
  // Pool bookkeeping

  lemma PopFresh(pool: seq<Dsl.Reg>)
    requires PoolOk(pool) && |pool| > 0
    ensures PoolOk(pool[..|pool| - 1])
    ensures pool[|pool| - 1] !in pool[..|pool| - 1]
    ensures forall x :: x in pool[..|pool| - 1] ==> x in pool
  {
  }

  lemma PushFresh(pool: seq<Dsl.Reg>, r: Dsl.Reg)
    requires PoolOk(pool) && r.Scratch? && Dsl.Valid(r) && r !in pool
    ensures PoolOk(pool + [r])
  {
    var p := pool + [r];
    forall j, k | 0 <= j < k < |p| ensures p[j] != p[k] {
      if k == |pool| {
        assert p[j] == pool[j];
      } else {
        assert p[j] == pool[j] && p[k] == pool[k];
      }
    }
  }

  // ---------------------------------------------------------------------------
  // Segments of emitted code

  /** The instructions `t` has emitted since `s`. */
  function Seg(s: Session, t: Session): seq<Dsl.Instr>
    requires |s.code| <= |t.code|
  {
    t.code[|s.code|..]
  }

  lemma SegSplit(s: Session, m: Session, t: Session)
    requires s.code <= m.code && m.code <= t.code
    ensures Seg(s, t) == Seg(s, m) + Seg(m, t)
  {
  }

  lemma SegSnoc(s: Session, m: Session, t: Session, i: Dsl.Instr)
    requires s.code <= m.code && t.code == m.code + [i]
    ensures Seg(s, t) == Seg(s, m) + [i]
  {
  }

  lemma DestsOfAppend(a: seq<Dsl.Instr>, b: seq<Dsl.Instr>)
    ensures Machine.Dests(Dsl.Steps(a + b)) == Machine.Dests(Dsl.Steps(a)) + Machine.Dests(Dsl.Steps(b))
  {
    Dsl.StepsAppend(a, b);
    Machine.DestsAppend(Dsl.Steps(a), Dsl.Steps(b));
  }

  /** The one key a three-register or register-immediate instruction writes. */
  lemma DestsOfOne(i: Dsl.Instr)
    requires |i.args| == 3 && i.args[0].R? && i.args[1].R?
    ensures Machine.Dests(Dsl.Steps([i])) == {Dsl.PyName(i.args[0].reg)}
  {
    assert Dsl.Steps([i]) == [Dsl.ToStep(i)];
    assert [Dsl.ToStep(i)][1..] == [];
  }

  // ---------------------------------------------------------------------------
  // What one call leaves behind

  /** The bookkeeping facts about one call `TransformFresh(s, e) == Ok((reg, t))`:
      the pool stays well formed and only loses registers; a variable's
      register carries its name; any other result is a pool register that
      is no longer free; and the emitted code writes only keys of registers
      that were free at the start. */
  predicate Shaped(s: Session, e: PyExpr, reg: Dsl.Reg, t: Session)
  {
    && PoolOk(t.pool) && UsedOk(t.used)
    && s.code <= t.code
    && (forall x :: x in t.pool ==> x in s.pool)
    && (if e.Name? then reg.ArgReg? && reg.name == e.id else reg in s.pool && reg !in t.pool)
    && Machine.Dests(Dsl.Steps(Seg(s, t))) <= PoolKeys(s.pool)
  }

  lemma ShapeConst(s: Session, v: int)
    requires PoolOk(s.pool) && UsedOk(s.used) && TransformConst(s, v).Ok?
    ensures Shaped(s, Const(v), TransformConst(s, v).value.0, TransformConst(s, v).value.1)
  {
    var (reg, t) := TransformConst(s, v).value;
    PopFresh(s.pool);
    assert t.pool == s.pool[..|s.pool| - 1];
    assert Seg(s, t) == [Dsl.Regassign(reg, v)];
    DestsOfOne(Dsl.Regassign(reg, v));
  }

  lemma ShapeVar(s: Session, n: string)
    requires PoolOk(s.pool) && UsedOk(s.used) && TransformVar(s, n).Ok?
    ensures Shaped(s, Name(n), TransformVar(s, n).value.0, TransformVar(s, n).value.1)
  {
    var (reg, t) := TransformVar(s, n).value;
    assert Seg(s, t) == [];
  }

  /** The negation step, given its operand's call and the register it pops. */
  lemma NegStep(s: Session, a: PyExpr, reg: Dsl.Reg, s1: Session, dest: Dsl.Reg, s2: Session, t: Session)
    requires PoolOk(s.pool) && Shaped(s, a, reg, s1)
    requires Pop(s1) == Ok((dest, s2))
    requires t == CheckFree(s2.(code := s2.code + [NegInstr(dest, reg)]), reg)
    ensures Shaped(s, USub(a), dest, t)
  {
    var i := NegInstr(dest, reg);
    NegPool(s, a, reg, s1, dest, s2, t);
    SegSplit(s, s1, t);
    assert Seg(s1, t) == [i];
    DestsOfOne(i);
    DestsOfAppend(Seg(s, s1), [i]);
  }

  /** The pool facts of the negation step. */
  lemma NegPool(s: Session, a: PyExpr, reg: Dsl.Reg, s1: Session, dest: Dsl.Reg, s2: Session, t: Session)
    requires PoolOk(s.pool) && Shaped(s, a, reg, s1)
    requires Pop(s1) == Ok((dest, s2))
    requires t == CheckFree(s2.(code := s2.code + [NegInstr(dest, reg)]), reg)
    ensures PoolOk(t.pool) && (forall x :: x in t.pool ==> x in s.pool)
    ensures dest in s.pool && dest !in t.pool
  {
    assert s2.pool == s1.pool[..|s1.pool| - 1] && dest == s1.pool[|s1.pool| - 1];
    NegPools(s.pool, s1.pool, reg, a.Name?);
  }

  /** The pool facts of the negation step: pop the destination, then give
      back the operand's scratch register. */
  lemma NegPools(p: seq<Dsl.Reg>, p1: seq<Dsl.Reg>, reg: Dsl.Reg, named: bool)
    requires PoolOk(p) && PoolOk(p1) && |p1| > 0
    requires forall x :: x in p1 ==> x in p
    requires if named then reg.ArgReg? else reg in p && reg !in p1
    ensures var q := p1[..|p1| - 1];
      var q1 := if reg.ArgReg? then q else q + [reg];
      PoolOk(q1) && (forall x :: x in q1 ==> x in p) && p1[|p1| - 1] in p && p1[|p1| - 1] !in q1
  {
    var q := p1[..|p1| - 1];
    PopFresh(p1);
    if !reg.ArgReg? {
      PushFresh(q, reg);
    }
  }

  /** The pool facts of the operator step. */
  lemma BinPool(s: Session, l: PyExpr, reg1: Dsl.Reg, s1: Session, r: PyExpr, reg2: Dsl.Reg, s2: Session,
                dest: Dsl.Reg, s3: Session, s4: Session, t: Session)
    requires PoolOk(s.pool) && Shaped(s, l, reg1, s1) && Shaped(s1, r, reg2, s2)
    requires Pop(s2) == Ok((dest, s3))
    requires s4.pool == s3.pool && t == CheckFree(CheckFree(s4, reg1), reg2)
    ensures PoolOk(t.pool) && (forall x :: x in t.pool ==> x in s.pool)
    ensures dest in s.pool && dest !in t.pool
  {
    assert s3.pool == s2.pool[..|s2.pool| - 1] && dest == s2.pool[|s2.pool| - 1];
    BinPools(s.pool, s1.pool, s2.pool, reg1, reg2, l.Name?, r.Name?);
  }

  /** `BinPool` on the pools alone: pop the destination, then give back the
      operands' scratch registers. */
  lemma BinPools(p: seq<Dsl.Reg>, p1: seq<Dsl.Reg>, p2: seq<Dsl.Reg>, reg1: Dsl.Reg, reg2: Dsl.Reg, named1: bool, named2: bool)
    requires PoolOk(p) && PoolOk(p2) && |p2| > 0
    requires forall x :: x in p1 ==> x in p
    requires forall x :: x in p2 ==> x in p1
    requires if named1 then reg1.ArgReg? else reg1 in p && reg1 !in p1
    requires if named2 then reg2.ArgReg? else reg2 in p1 && reg2 !in p2
    ensures var q := p2[..|p2| - 1];
      var q1 := if reg1.ArgReg? then q else q + [reg1];
      var q2 := if reg2.ArgReg? then q1 else q1 + [reg2];
      PoolOk(q2) && (forall x :: x in q2 ==> x in p) && p2[|p2| - 1] in p && p2[|p2| - 1] !in q2
  {
    var q := p2[..|p2| - 1];
    PopFresh(p2);
    var q1 := if reg1.ArgReg? then q else q + [reg1];
    if !reg1.ArgReg? {
      PushFresh(q, reg1);
    }
    if !reg2.ArgReg? {
      PushFresh(q1, reg2);
    }
  }

  /** The operator step, given both operands' calls and the register it pops. */
  lemma BinStep(s: Session, l: PyExpr, k: BinKind, r: PyExpr, reg1: Dsl.Reg, s1: Session, reg2: Dsl.Reg, s2: Session,
                dest: Dsl.Reg, s3: Session, t: Session)
    requires k != OtherK
    requires PoolOk(s.pool) && Shaped(s, l, reg1, s1) && Shaped(s1, r, reg2, s2)
    requires Pop(s2) == Ok((dest, s3))
    requires t == CheckFree(CheckFree(s3.(code := s3.code + [BinInstr(Opcode(k), dest, reg1, reg2)]), reg1), reg2)
    ensures Shaped(s, BinOp(l, k, r), dest, t)
  {
    var i := BinInstr(Opcode(k), dest, reg1, reg2);
    var s4 := s3.(code := s3.code + [i]);
    BinPool(s, l, reg1, s1, r, reg2, s2, dest, s3, s4, t);
    SegSplit(s, s1, t);
    SegSplit(s1, s2, t);
    assert Seg(s2, t) == [i];
    DestsOfOne(i);
    DestsOfAppend(Seg(s1, s2), [i]);
    DestsOfAppend(Seg(s, s1), Seg(s1, t));
    PoolKeysSubset(s1.pool, s.pool);
  }

  /** Every successful call leaves its bookkeeping in order. */
  lemma {:induction false} FreshShape(s: Session, e: PyExpr)
    requires PoolOk(s.pool) && UsedOk(s.used) && TransformFresh(s, e).Ok?
    ensures Shaped(s, e, TransformFresh(s, e).value.0, TransformFresh(s, e).value.1)
    decreases e
  {
    match e
    case Const(v) => ShapeConst(s, v);
    case Name(n) => ShapeVar(s, n);
    case USub(a) =>
      FreshShape(s, a);
      var (reg, s1) := TransformFresh(s, a).value;
      var (dest, s2) := Pop(s1).value;
      NegStep(s, a, reg, s1, dest, s2, TransformFresh(s, e).value.1);
    case BinOp(l, k, r) =>
      FreshShape(s, l);
      var (reg1, s1) := TransformFresh(s, l).value;
      FreshShape(s1, r);
      var (reg2, s2) := TransformFresh(s1, r).value;
      var (dest, s3) := Pop(s2).value;
      BinStep(s, l, k, r, reg1, s1, reg2, s2, dest, s3, TransformFresh(s, e).value.1);
  }

  // ---------------------------------------------------------------------------
  // Running the emitted code

  /** What running an expression's code must give: the error evaluating it
      raises, or its value under the result register's key. */
  predicate Computes(out: Result<Machine.Regs, Machine.RunError>, key: string, v: Result<int, Arith.ArithError>)
  {
    if v.Err? then out == Err(Machine.Raised(v.error))
    else out.Ok? && key in out.value && out.value[key] == v.value
  }

  /** `x0` holds 0 and every variable of the expression holds its value. */
  predicate Bound(regs: Machine.Regs, e: PyExpr, env: map<string, int>)
    requires Names(e) <= env.Keys
  {
    && Machine.ZeroKey in regs && regs[Machine.ZeroKey] == 0
    && forall n :: n in Names(e) ==> n in regs && regs[n] == env[n]
  }

  /** The non-shift opcodes run as the operator they stand for. */
  lemma OpcodeRuns(k: BinKind)
    requires k != OtherK && k != LShiftK && k != RShiftK
    ensures Dsl.MatchOp(Opcode(k)) == Some(OpOf(k))
  {
  }

  lemma ZeroKeyName()
    ensures Dsl.PyName(Dsl.Zero) == Machine.ZeroKey
  {
    assert IntToString(0) == "0";
  }

  lemma ExecOne(st: Machine.Step, regs: Machine.Regs)
    ensures Machine.Exec(Dsl.MatchOp, [st], regs) == Machine.StepOnce(Dsl.MatchOp, st, regs)
  {
    assert [st][1..] == [];
  }

  /** Code that writes only pool keys leaves `x0` and every plainly named
      variable alone. */
  lemma BoundKept(regs: Machine.Regs, code: seq<Dsl.Instr>, pool: seq<Dsl.Reg>, e: PyExpr, env: map<string, int>)
    requires PoolOk(pool) && Machine.Dests(Dsl.Steps(code)) <= PoolKeys(pool)
    requires Names(e) <= env.Keys && PlainNames(e) && Bound(regs, e, env)
    requires Machine.Exec(Dsl.MatchOp, Dsl.Steps(code), regs).Ok?
    ensures Bound(Machine.Exec(Dsl.MatchOp, Dsl.Steps(code), regs).value, e, env)
  {
    var out := Machine.Exec(Dsl.MatchOp, Dsl.Steps(code), regs).value;
    if Machine.ZeroKey in PoolKeys(pool) {
      PoolKeysReserved(pool, Machine.ZeroKey);
    }
    forall n | n in Names(e) ensures n in out && out[n] == env[n] {
      if n in PoolKeys(pool) {
        PoolKeysReserved(pool, n);
      }
    }
  }

  /** Code followed by one instruction: what the code leaves, then the step. */
  lemma ExecThen(code: seq<Dsl.Instr>, i: Dsl.Instr, regs: Machine.Regs)
    ensures Machine.Exec(Dsl.MatchOp, Dsl.Steps(code + [i]), regs) ==
      (var mid := Machine.Exec(Dsl.MatchOp, Dsl.Steps(code), regs);
       if mid.Err? then Err(mid.error) else Machine.StepOnce(Dsl.MatchOp, Dsl.ToStep(i), mid.value))
  {
    Dsl.StepsAppend(code, [i]);
    assert Dsl.Steps([i]) == [Dsl.ToStep(i)];
    Machine.ExecAppend(Dsl.MatchOp, Dsl.Steps(code), [Dsl.ToStep(i)], regs);
    var mid := Machine.Exec(Dsl.MatchOp, Dsl.Steps(code), regs);
    if mid.Ok? {
      ExecOne(Dsl.ToStep(i), mid.value);
    }
  }

  lemma CorrectConst(s: Session, v: int, env: map<string, int>, regs: Machine.Regs)
    requires TransformConst(s, v).Ok? && Bound(regs, Const(v), env)
    ensures var (reg, t) := TransformConst(s, v).value;
      Computes(Machine.Exec(Dsl.MatchOp, Dsl.Steps(Seg(s, t)), regs), Dsl.PyName(reg), Value(Const(v), env))
  {
    var (reg, t) := TransformConst(s, v).value;
    var i := Dsl.Regassign(reg, v);
    assert Seg(s, t) == [] + [i];
    ZeroKeyName();
    ExecThen([], i, regs);
  }

  lemma CorrectVar(s: Session, n: string, env: map<string, int>, regs: Machine.Regs)
    requires TransformVar(s, n).Ok? && UsedOk(s.used)
    requires Names(Name(n)) <= env.Keys && Bound(regs, Name(n), env)
    ensures var (reg, t) := TransformVar(s, n).value;
      Computes(Machine.Exec(Dsl.MatchOp, Dsl.Steps(Seg(s, t)), regs), Dsl.PyName(reg), Value(Name(n), env))
  {
    var (reg, t) := TransformVar(s, n).value;
    assert Seg(s, t) == [];
  }

  /** Negating a computed value. */
  function Negated(v: Result<int, Arith.ArithError>): Result<int, Arith.ArithError>
  {
    var x :- v;
    Ok(-x)
  }

  /** Combining two computed values, left first. */
  function Combined(op: Arith.Op, v1: Result<int, Arith.ArithError>, v2: Result<int, Arith.ArithError>): Result<int, Arith.ArithError>
  {
    var x :- v1;
    var y :- v2;
    Arith.Apply(op, x, y)
  }

  lemma ValueNeg(a: PyExpr, env: map<string, int>)
    requires Supported(a) && Names(a) <= env.Keys
    ensures Value(USub(a), env) == Negated(Value(a, env))
  {
  }

  lemma ValueBin(l: PyExpr, k: BinKind, r: PyExpr, env: map<string, int>)
    requires k != OtherK && Supported(l) && Supported(r) && Names(l) <= env.Keys && Names(r) <= env.Keys
    ensures Value(BinOp(l, k, r), env) == Combined(OpOf(k), Value(l, env), Value(r, env))
  {
  }

  /** `sub dest, x0, reg` writes minus `reg`'s value under `dest`'s key. */
  lemma NegInstrStep(dest: Dsl.Reg, reg: Dsl.Reg, mid: Machine.Regs)
    requires Machine.ZeroKey in mid && mid[Machine.ZeroKey] == 0 && Dsl.PyName(reg) in mid
    ensures Machine.StepOnce(Dsl.MatchOp, Dsl.ToStep(NegInstr(dest, reg)), mid) == Ok(mid[Dsl.PyName(dest) := -mid[Dsl.PyName(reg)]])
  {
    Dsl.FixedKeys();
    var st := Machine.RegStep("sub", Dsl.PyName(dest), Machine.ZeroKey, Dsl.PyName(reg));
    assert Dsl.ToStep(NegInstr(dest, reg)) == st;
    assert Dsl.MatchOp("sub") == Some(Arith.Sub);
  }

  /** Code computing `v` under `reg`'s key, then `sub dest, x0, reg`. */
  lemma RunNeg(code: seq<Dsl.Instr>, dest: Dsl.Reg, reg: Dsl.Reg, v: Result<int, Arith.ArithError>, regs: Machine.Regs)
    requires Machine.ZeroKey in regs && regs[Machine.ZeroKey] == 0
    requires Machine.ZeroKey !in Machine.Dests(Dsl.Steps(code))
    requires Computes(Machine.Exec(Dsl.MatchOp, Dsl.Steps(code), regs), Dsl.PyName(reg), v)
    ensures Computes(Machine.Exec(Dsl.MatchOp, Dsl.Steps(code + [NegInstr(dest, reg)]), regs), Dsl.PyName(dest), Negated(v))
  {
    ExecThen(code, NegInstr(dest, reg), regs);
    var mid := Machine.Exec(Dsl.MatchOp, Dsl.Steps(code), regs);
    if mid.Ok? {
      NegInstrStep(dest, reg, mid.value);
    }
  }

  /** `op dest, reg1, reg2` writes the operation's result under `dest`'s
      key, or raises its error. */
  lemma BinInstrStep(op: string, aop: Arith.Op, dest: Dsl.Reg, reg1: Dsl.Reg, reg2: Dsl.Reg, mid: Machine.Regs)
    requires Dsl.MatchOp(op) == Some(aop)
    requires Dsl.PyName(reg1) in mid && Dsl.PyName(reg2) in mid
    ensures var a := Arith.Apply(aop, mid[Dsl.PyName(reg1)], mid[Dsl.PyName(reg2)]);
      Machine.StepOnce(Dsl.MatchOp, Dsl.ToStep(BinInstr(op, dest, reg1, reg2)), mid) ==
        (if a.Err? then Err(Machine.Raised(a.error)) else Ok(mid[Dsl.PyName(dest) := a.value]))
  {
    var st := Machine.RegStep(op, Dsl.PyName(dest), Dsl.PyName(reg1), Dsl.PyName(reg2));
    assert Dsl.ToStep(BinInstr(op, dest, reg1, reg2)) == st;
  }

  /** Code computing `v1` under `reg1`'s key, code computing `v2` under
      `reg2`'s key that leaves the first key alone, then `op dest, reg1, reg2`. */
  lemma RunBin(code1: seq<Dsl.Instr>, code2: seq<Dsl.Instr>, op: string, aop: Arith.Op, dest: Dsl.Reg, reg1: Dsl.Reg, reg2: Dsl.Reg,
               v1: Result<int, Arith.ArithError>, v2: Result<int, Arith.ArithError>, regs: Machine.Regs)
    requires Dsl.MatchOp(op) == Some(aop)
    requires Dsl.PyName(reg1) !in Machine.Dests(Dsl.Steps(code2))
    requires Computes(Machine.Exec(Dsl.MatchOp, Dsl.Steps(code1), regs), Dsl.PyName(reg1), v1)
    requires var mid := Machine.Exec(Dsl.MatchOp, Dsl.Steps(code1), regs);
      mid.Ok? ==> Computes(Machine.Exec(Dsl.MatchOp, Dsl.Steps(code2), mid.value), Dsl.PyName(reg2), v2)
    ensures Computes(Machine.Exec(Dsl.MatchOp, Dsl.Steps(code1 + code2 + [BinInstr(op, dest, reg1, reg2)]), regs),
                     Dsl.PyName(dest), Combined(aop, v1, v2))
  {
    ExecThen(code1 + code2, BinInstr(op, dest, reg1, reg2), regs);
    Dsl.StepsAppend(code1, code2);
    Machine.ExecAppend(Dsl.MatchOp, Dsl.Steps(code1), Dsl.Steps(code2), regs);
    var mid := Machine.Exec(Dsl.MatchOp, Dsl.Steps(code1), regs);
    if mid.Ok? {
      var end := Machine.Exec(Dsl.MatchOp, Dsl.Steps(code2), mid.value);
      if end.Ok? {
        assert end.value[Dsl.PyName(reg1)] == mid.value[Dsl.PyName(reg1)];
        BinInstrStep(op, aop, dest, reg1, reg2, end.value);
      }
    }
  }

  /** The negation step: the operand's value, negated, under the fresh key. */
  lemma CorrectNeg(s: Session, a: PyExpr, reg: Dsl.Reg, s1: Session, dest: Dsl.Reg, s2: Session, t: Session,
                   env: map<string, int>, regs: Machine.Regs)
    requires PoolOk(s.pool) && s.code <= s1.code && Machine.Dests(Dsl.Steps(Seg(s, s1))) <= PoolKeys(s.pool)
    requires Pop(s1) == Ok((dest, s2))
    requires t == CheckFree(s2.(code := s2.code + [NegInstr(dest, reg)]), reg)
    requires Supported(a) && Names(a) <= env.Keys && Bound(regs, a, env)
    requires Computes(Machine.Exec(Dsl.MatchOp, Dsl.Steps(Seg(s, s1)), regs), Dsl.PyName(reg), Value(a, env))
    ensures s.code <= t.code
    ensures Computes(Machine.Exec(Dsl.MatchOp, Dsl.Steps(Seg(s, t)), regs), Dsl.PyName(dest), Value(USub(a), env))
  {
    var i := NegInstr(dest, reg);
    assert t.code == s1.code + [i];
    SegSnoc(s, s1, t, i);
    if Machine.ZeroKey in PoolKeys(s.pool) {
      PoolKeysReserved(s.pool, Machine.ZeroKey);
    }
    RunNeg(Seg(s, s1), dest, reg, Value(a, env), regs);
    ValueNeg(a, env);
  }

  /** The operator step: both operands' values, combined, under the fresh key. */
  lemma CorrectBin(s: Session, l: PyExpr, k: BinKind, r: PyExpr, reg1: Dsl.Reg, s1: Session, reg2: Dsl.Reg, s2: Session,
                   dest: Dsl.Reg, s3: Session, t: Session, env: map<string, int>, regs: Machine.Regs)
    requires k != OtherK && k != LShiftK && k != RShiftK
    requires s.code <= s1.code && s1.code <= s2.code
    requires Dsl.PyName(reg1) !in Machine.Dests(Dsl.Steps(Seg(s1, s2)))
    requires Pop(s2) == Ok((dest, s3))
    requires t == CheckFree(CheckFree(s3.(code := s3.code + [BinInstr(Opcode(k), dest, reg1, reg2)]), reg1), reg2)
    requires Supported(l) && Supported(r) && Names(l) <= env.Keys && Names(r) <= env.Keys
    requires Computes(Machine.Exec(Dsl.MatchOp, Dsl.Steps(Seg(s, s1)), regs), Dsl.PyName(reg1), Value(l, env))
    requires var mid := Machine.Exec(Dsl.MatchOp, Dsl.Steps(Seg(s, s1)), regs);
      mid.Ok? ==> Computes(Machine.Exec(Dsl.MatchOp, Dsl.Steps(Seg(s1, s2)), mid.value), Dsl.PyName(reg2), Value(r, env))
    ensures s.code <= t.code
    ensures Computes(Machine.Exec(Dsl.MatchOp, Dsl.Steps(Seg(s, t)), regs), Dsl.PyName(dest), Value(BinOp(l, k, r), env))
  {
    var i := BinInstr(Opcode(k), dest, reg1, reg2);
    assert t.code == s2.code + [i];
    SegSplit(s, s1, s2);
    SegSnoc(s, s2, t, i);
    OpcodeRuns(k);
    RunBin(Seg(s, s1), Seg(s1, s2), Opcode(k), OpOf(k), dest, reg1, reg2, Value(l, env), Value(r, env), regs);
    ValueBin(l, k, r, env);
  }

  /** Every successful call emits code that computes the expression into
      its result register, or raises what evaluating it raises, from any
      registers binding `x0` and the expression's variables. */
  lemma {:induction false} FreshCorrect(s: Session, e: PyExpr, env: map<string, int>, regs: Machine.Regs)
    requires PoolOk(s.pool) && UsedOk(s.used) && TransformFresh(s, e).Ok?
    requires NoShift(e) && PlainNames(e) && Names(e) <= env.Keys && Bound(regs, e, env)
    ensures var (reg, t) := TransformFresh(s, e).value;
      Computes(Machine.Exec(Dsl.MatchOp, Dsl.Steps(Seg(s, t)), regs), Dsl.PyName(reg), Value(e, env))
    decreases e
  {
    match e
    case Const(v) => CorrectConst(s, v, env, regs);
    case Name(n) => CorrectVar(s, n, env, regs);
    case USub(a) =>
      FreshCorrect(s, a, env, regs);
      FreshShape(s, a);
      var (reg, s1) := TransformFresh(s, a).value;
      var (dest, s2) := Pop(s1).value;
      CorrectNeg(s, a, reg, s1, dest, s2, TransformFresh(s, e).value.1, env, regs);
    case BinOp(l, k, r) =>
      FreshCorrect(s, l, env, regs);
      FreshShape(s, l);
      var (reg1, s1) := TransformFresh(s, l).value;
      FreshShape(s1, r);
      var (reg2, s2) := TransformFresh(s1, r).value;
      var mid := Machine.Exec(Dsl.MatchOp, Dsl.Steps(Seg(s, s1)), regs);
      if mid.Ok? {
        BoundKept(regs, Seg(s, s1), s.pool, r, env);
        FreshCorrect(s1, r, env, mid.value);
      }
      KeyOutsidePool(s1.pool, reg1);
      var (dest, s3) := Pop(s2).value;
      CorrectBin(s, l, k, r, reg1, s1, reg2, s2, dest, s3, TransformFresh(s, e).value.1, env, regs);
  }

  /** What `run_riscv` gives for an expression value: the value, or the
      error raised while computing it. */
  function Outcome(v: Result<int, Arith.ArithError>): Result<int, Machine.RunError>
  {
    if v.Err? then Err(Machine.Raised(v.error)) else Ok(v.value)
  }

  /** `addi a0, last, 0` copies `last`'s value into `a0`. */
  lemma FinishStep(last: Dsl.Reg, mid: Machine.Regs)
    requires Dsl.PyName(last) in mid
    ensures Machine.StepOnce(Dsl.MatchOp, Dsl.ToStep(Finish(last)), mid) == Ok(mid[Machine.ReturnKey := mid[Dsl.PyName(last)]])
  {
    Dsl.FixedKeys();
    var st := Machine.ImmStep("addi", Machine.ReturnKey, Dsl.PyName(last), 0);
    assert Dsl.ToStep(Finish(last)) == st;
    assert Dsl.MatchOp("addi") == Some(Arith.Add);
  }

  /** Code computing `v` under `last`'s key, then `addi a0, last, 0`, run
      from the bindings. */
  lemma RunFinal(code: seq<Dsl.Instr>, last: Dsl.Reg, v: Result<int, Arith.ArithError>, env: map<string, int>)
    requires Computes(Machine.Exec(Dsl.MatchOp, Dsl.Steps(code), env[Machine.ZeroKey := 0]), Dsl.PyName(last), v)
    ensures Dsl.Run(code + [Finish(last)], env) == Outcome(v)
  {
    var regs := env[Machine.ZeroKey := 0];
    ExecThen(code, Finish(last), regs);
    var mid := Machine.Exec(Dsl.MatchOp, Dsl.Steps(code), regs);
    if mid.Ok? {
      FinishStep(last, mid.value);
    }
  }

  lemma InitialPoolOk()
    ensures PoolOk(InitialPool)
  {
  }

  /** The corrected compiler is right: for every expression it compiles
      (no shifts, no register-shaped variable names), running the program
      with the variables bound yields the expression's value, or raises the
      error evaluating the expression raises. */
  lemma CompileFreshCorrect(e: PyExpr, env: map<string, int>)
    requires CompileFresh(e).Ok? && NoShift(e) && PlainNames(e) && Names(e) <= env.Keys
    ensures Dsl.Run(CompileFresh(e).value, env) == Outcome(Value(e, env))
  {
    var s0 := Initial();
    var (last, t) := TransformFresh(s0, e).value;
    InitialBound(e, env);
    InitialPoolOk();
    FreshCorrect(s0, e, env, env[Machine.ZeroKey := 0]);
    RunFinal(Seg(s0, t), last, Value(e, env), env);
    CompileFreshCode(e);
    PrologueSkipped(Seg(s0, t) + [Finish(last)], env);
  }

  /** The program is the prologue, the expression's code and `Finish`. */
  lemma CompileFreshCode(e: PyExpr)
    requires CompileFresh(e).Ok?
    ensures var (last, t) := TransformFresh(Initial(), e).value;
      CompileFresh(e).value == Dsl.ProgStart + (Seg(Initial(), t) + [Finish(last)])
  {
    var s0 := Initial();
    var (last, t) := TransformFresh(s0, e).value;
    assert CompileFresh(e).value == t.code + [Finish(last)];
    PrefixThenRest(s0.code, t.code, [Finish(last)]);
  }

  lemma PrefixThenRest<T>(a: seq<T>, b: seq<T>, c: seq<T>)
    requires a <= b
    ensures b + c == a + (b[|a|..] + c)
  {
    assert b == a + b[|a|..];
  }

  /** `run_riscv`'s starting registers bind `x0` and every variable. */
  lemma InitialBound(e: PyExpr, env: map<string, int>)
    requires PlainNames(e) && Names(e) <= env.Keys
    ensures Bound(env[Machine.ZeroKey := 0], e, env)
  {
    if Machine.ZeroKey in Names(e) {
      assert Dsl.Reserved(Machine.ZeroKey);
    }
  }

  /** The input the compiler as written gets wrong (`RunSumOfSums`) is
      compiled right: `(1 + 2) + (3 + 4)` runs to 10. */
  lemma FreshSumOfSums()
    ensures CompileFresh(SumOfSums()).Ok?
    ensures Dsl.Run(CompileFresh(SumOfSums()).value, map[]) == Ok(10)
  {
    var s0 := Initial();
    var l := TransformFresh(s0, Sum(1, 2));
    assert l.Ok? && |l.value.1.pool| == 6;
    var r := TransformFresh(l.value.1, Sum(3, 4));
    assert r.Ok? && |r.value.1.pool| == 5;
    assert TransformFresh(s0, SumOfSums()).Ok?;
    ValueSumOfSums();
    CompileFreshCorrect(SumOfSums(), map[]);
  }

  /** `-x + x` with `x = 5` runs to 0 (`RunNegThenAdd`: as written, -10). */
  lemma FreshNegThenAdd()
    ensures CompileFresh(NegThenAdd()).Ok?
    ensures Dsl.Run(CompileFresh(NegThenAdd()).value, map["x" := 5]) == Ok(0)
  {
    var s0 := Initial();
    var a := TransformFresh(s0, USub(Name("x")));
    assert a.Ok?;
    assert TransformFresh(s0, NegThenAdd()).Ok?;
    assert !Dsl.Reserved("x");
    ValueNegThenAdd();
    CompileFreshCorrect(NegThenAdd(), map["x" := 5]);
  }
}

=== FILE: resolve.dfy ===
/** Backward symbolic resolution: `Verifier.match_instr` of cegis_verify.py.

    The verifier cannot translate a program line by line, because a register
    holds different values at different points. Instead it walks the program
    from the end, finds the nearest write to the register it wants, and
    resolves that write's operands against the instructions before it,
    building a z3 term. A register with no earlier write stands for its bound
    variable (`to_var`, a lookup by `py_name` that raises `KeyError` when the
    name is unbound). Register-form `div` and `rem` add the side condition
    "resolved divisor != 0" to the solver.

    The main result, `ResolveAgreesWithRun`, is that the term resolved for
    `a0` evaluates to the value the forward interpreter computes.
 */
module Resolve {
  import opened Base
  import Strings
  import Arith
  import Machine
  import Dsl
  import opened Symbolic

  // ---------------------------------------------------------------------------
  // Reversal (`list.reverse`)

  function Reverse<T>(s: seq<T>): (r: seq<T>)
    ensures |r| == |s|
    ensures forall k :: 0 <= k < |s| ==> r[k] == s[|s| - 1 - k]
  {
    if s == [] then [] else Reverse(s[1..]) + [s[0]]
  }

  /** Reversing twice restores the list: what `cegis_counter` relies on to
      hand back the guess in its original order. */
  lemma ReverseReverse<T>(s: seq<T>)
    ensures Reverse(Reverse(s)) == s
  {
  }

  lemma ReverseSnoc<T>(s: seq<T>, x: T)
    ensures Reverse(s + [x]) == [x] + Reverse(s)
  {
  }

  // ---------------------------------------------------------------------------
  // match_instr

  /** What `match_instr` raises: `KeyError` from `to_var`, or the
      "Could not match Instruction Operator" exception of `match_op`. */
  datatype ResolveError = Unbound(key: string) | UnknownOp(op: string)

  /** The resolved term of a register together with the divisor side
      conditions (`s.add(right != 0)`) collected while building it. */
  datatype Resolved = Resolved(expr: Expr, guards: seq<Expr>)

  /** How a write to the wanted register is recognised. `match_instr` as
      written compares printed forms (`repr(dest) == repr(goaldest)`), while
      the interpreter and `to_var` file values under `py_name`; `ByName`
      compares that key instead, which is the correction. */
  datatype Keying = ByRepr | ByName

  /** The name a register is compared under. */
  function Key(keying: Keying, r: Dsl.Reg): string
  {
    match keying
    case ByRepr => Dsl.Repr(r)
    case ByName => Dsl.PyName(r)
  }

  /** The two patterns of `match_instr` whose guard holds: three arguments, a
      register first source (the third may be a register or an int) and a
      destination that matches the goal register (as written: prints like
      it; corrected: a register with the same key). */
  predicate Defines(keying: Keying, i: Dsl.Instr, goal: Dsl.Reg)
  {
    |i.args| == 3 && i.args[1].R? &&
    match keying
    case ByRepr => Dsl.OperandRepr(i.args[0]) == Dsl.Repr(goal)
    case ByName => i.args[0].R? && Dsl.PyName(i.args[0].reg) == Dsl.PyName(goal)
  }

  /** An int never prints like a register, so a defining instruction writes
      a register, and that register matches the goal under the keying. */
  lemma DefinesRegister(keying: Keying, i: Dsl.Instr, goal: Dsl.Reg)
    requires Defines(keying, i, goal)
    ensures i.args[0].R? && Key(keying, i.args[0].reg) == Key(keying, goal)
  {
  }

  /** `to_var`: the bound constant named by `py_name`. */
  function ToVar(r: Dsl.Reg, bound: set<string>): (e: Result<Expr, ResolveError>)
    ensures e.Ok? <==> Dsl.PyName(r) in bound
    ensures e.Ok? ==> e.value == Sym(Dsl.PyName(r))
  {
    if Dsl.PyName(r) in bound then Ok(Sym(Dsl.PyName(r))) else Err(Unbound(Dsl.PyName(r)))
  }

  /** `left = match_instr(...); if left is None: left = to_var(arg)`. */
  function OrVar(found: Result<Option<Resolved>, ResolveError>, r: Dsl.Reg, bound: set<string>): Result<Resolved, ResolveError>
  {
    match found
    case Err(e) => Err(e)
    case Ok(Some(res)) => Ok(res)
    case Ok(None) =>
      var v :- ToVar(r, bound);
      Ok(Resolved(v, []))
  }

  /** `match_op(op)` applied to z3 terms: `pydiv` becomes `bvsdiv` and
      `pymod` becomes `SRem`, so the table is the truncating one. */
  function LookupOp(op: string): (r: Result<Arith.Op, ResolveError>)
    ensures r.Ok? <==> Dsl.MatchOp(op).Some?
    ensures r.Ok? ==> r.value == Dsl.MatchOp(op).value
  {
    if Dsl.MatchOp(op).Some? then Ok(Dsl.MatchOp(op).value) else Err(UnknownOp(op))
  }

  /** The resolved term and its side conditions mention bound names only. */
  predicate ResolvedIn(res: Resolved, bound: set<string>)
  {
    Vars(res.expr) <= bound && GuardVarsIn(res.guards, bound)
  }

  /** `KeyError` names an unbound key; the opcode error an unknown opcode. */
  predicate ErrorSound(e: ResolveError, bound: set<string>)
  {
    (e.Unbound? ==> e.key !in bound) && (e.UnknownOp? ==> Dsl.MatchOp(e.op).None?)
  }

  /** `match_instr(instrlist, goaldest, s)` on the reversed program `rev`:
      `Ok(None)` when nothing in `rev` defines the goal, otherwise the term
      built from the first (that is, the last in program order) defining
      instruction. `bound` is the key set of `z3args`. */
  function MatchInstr(keying: Keying, rev: seq<Dsl.Instr>, goal: Dsl.Reg, bound: set<string>): (r: Result<Option<Resolved>, ResolveError>)
    ensures r.Ok? && r.value.Some? ==> ResolvedIn(r.value.value, bound)
    ensures r.Err? ==> ErrorSound(r.error, bound)
    decreases |rev|, 0
  {
    if rev == [] then Ok(None)
    else if Defines(keying, rev[0], goal) then Build(keying, rev[0], rev[1..], bound)
    else MatchInstr(keying, rev[1..], goal, bound)
  }

  /** The body of the two defining `case`s: resolve the first source, then
      (register form) the second, each against the earlier instructions
      `tail` only; add `right != 0` for register-form `div` and `rem`; then
      apply `match_op`. The immediate form adds no condition. */
  function Build(keying: Keying, i: Dsl.Instr, tail: seq<Dsl.Instr>, bound: set<string>): (r: Result<Option<Resolved>, ResolveError>)
    requires |i.args| == 3 && i.args[1].R?
    ensures r.Ok? ==> r.value.Some? && ResolvedIn(r.value.value, bound)
    ensures r.Err? ==> ErrorSound(r.error, bound)
    decreases |tail|, 1
  {
    var left :- OrVar(MatchInstr(keying, tail, i.args[1].reg, bound), i.args[1].reg, bound);
    if i.args[2].Imm? then
      var op :- LookupOp(i.op);
      Ok(Some(Resolved(Bin(op, left.expr, Lit(i.args[2].val)), left.guards)))
    else
      var right :- OrVar(MatchInstr(keying, tail, i.args[2].reg, bound), i.args[2].reg, bound);
      var own := if i.op == "div" || i.op == "rem" then [right.expr] else [];
      var op :- LookupOp(i.op);
      assert GuardVarsIn(left.guards + right.guards + own, bound);
      Ok(Some(Resolved(Bin(op, left.expr, right.expr), left.guards + right.guards + own)))
  }

  /** `match_instr` returns `None` exactly when no instruction defines the
      goal register. */
  lemma {:induction false} MatchInstrNone(keying: Keying, rev: seq<Dsl.Instr>, goal: Dsl.Reg, bound: set<string>)
    ensures MatchInstr(keying, rev, goal, bound) == Ok(None) <==> forall k :: 0 <= k < |rev| ==> !Defines(keying, rev[k], goal)
    decreases |rev|
  {
    if rev != [] && !Defines(keying, rev[0], goal) {
      MatchInstrNone(keying, rev[1..], goal, bound);
      assert forall k :: 1 <= k < |rev| ==> rev[k] == rev[1..][k - 1];
    }
  }

  /** A never-written scratch register cannot be resolved: only `x0` and the
      argument names are bound, so `to_var` raises (under either keying). */
  lemma UnwrittenScratchUnbound(keying: Keying)
    ensures MatchInstr(keying, [Dsl.Instr("add", [Dsl.R(Dsl.ReturnReg), Dsl.R(Dsl.Scratch(5)), Dsl.R(Dsl.Zero)], false)],
                       Dsl.ReturnReg, {Machine.ZeroKey, "x"}) == Err(Unbound("x5"))
  {
    var i := Dsl.Instr("add", [Dsl.R(Dsl.ReturnReg), Dsl.R(Dsl.Scratch(5)), Dsl.R(Dsl.Zero)], false);
    var bound := {Machine.ZeroKey, "x"};
    assert Strings.IntToString(0) == "0" && Strings.IntToString(5) == "5";
    assert Dsl.Repr(Dsl.ReturnReg) == "a0";
    assert Defines(keying, i, Dsl.ReturnReg);
    assert Dsl.PyName(Dsl.Scratch(5)) == "x5";
    assert "x5" !in bound;
    assert ToVar(Dsl.Scratch(5), bound) == Err(Unbound("x5"));
    assert OrVar(MatchInstr(keying, [], Dsl.Scratch(5), bound), Dsl.Scratch(5), bound) == Err(Unbound("x5"));
    assert [i][1..] == [];
    assert Build(keying, i, [], bound) == Err(Unbound("x5"));
  }

  // ---------------------------------------------------------------------------
  // Agreement with the forward interpreter

  /** The registers a program mentions. */
  function RegsOf(prog: seq<Dsl.Instr>): set<Dsl.Reg>
  {
    set k, j | 0 <= k < |prog| && 0 <= j < |prog[k].args| && prog[k].args[j].R? :: prog[k].args[j].reg
  }

  /** Registers whose comparison key and `py_name` key identify each other.
      As written the resolver finds writes by printed form and the
      interpreter by key; without this, `Regvar(2, "x")` and `Regvar(2, "y")`
      are one register to the first and two to the second. */
  predicate Consistent(keying: Keying, regs: set<Dsl.Reg>)
  {
    forall a, b :: a in regs && b in regs ==> (Key(keying, a) == Key(keying, b) <==> Dsl.PyName(a) == Dsl.PyName(b))
  }

  /** Comparing by `py_name` is consistent for every set of registers. */
  lemma NameKeyingConsistent(regs: set<Dsl.Reg>)
    ensures Consistent(ByName, regs)
  {
  }

  /** The registers the program generator of generate_riscv.py draws from:
      scratch registers, `x0`, `a0`, and one `Regvar` per goal argument, with
      different indices for different names, and no name shaped like a
      register. */
  predicate GeneratorRegs(regs: set<Dsl.Reg>)
  {
    && (forall r :: r in regs ==> Dsl.Valid(r) && !r.TempRes?)
    && (forall r :: r in regs && r.ArgReg? ==> !Dsl.Reserved(r.name))
    && (forall a, b :: a in regs && b in regs && a.ArgReg? && b.ArgReg? ==> (a.num == b.num <==> a.name == b.name))
  }

  /** Such registers are consistent for `match_instr` as written: the
      printed form of an argument register (`a1`..`a7`) is never that of a
      fixed register, and its variable name is never a register key. */
  lemma GeneratorRegsConsistent(regs: set<Dsl.Reg>)
    requires GeneratorRegs(regs)
    ensures Consistent(ByRepr, regs)
  {
    forall a, b | a in regs && b in regs
      ensures Key(ByRepr, a) == Key(ByRepr, b) <==> Dsl.PyName(a) == Dsl.PyName(b)
    {
      GeneratorPair(a, b);
    }
  }

  lemma GeneratorPair(a: Dsl.Reg, b: Dsl.Reg)
    requires Dsl.Valid(a) && !a.TempRes? && (a.ArgReg? ==> !Dsl.Reserved(a.name))
    requires Dsl.Valid(b) && !b.TempRes? && (b.ArgReg? ==> !Dsl.Reserved(b.name))
    requires a.ArgReg? && b.ArgReg? ==> (a.num == b.num <==> a.name == b.name)
    ensures Dsl.Repr(a) == Dsl.Repr(b) <==> Dsl.PyName(a) == Dsl.PyName(b)
  {
    if a.ArgReg? && b.ArgReg? {
      Dsl.RegEqIff(a, b);
    } else if a.ArgReg? {
      ArgAgainstFixed(a, b);
    } else if b.ArgReg? {
      ArgAgainstFixed(b, a);
    }
  }

  /** An argument register and a fixed one differ both in print and in key. */
  lemma ArgAgainstFixed(a: Dsl.Reg, b: Dsl.Reg)
    requires a.ArgReg? && Dsl.Valid(a) && !Dsl.Reserved(a.name)
    requires !b.ArgReg? && Dsl.Valid(b) && !b.TempRes?
    ensures Dsl.Repr(a) != Dsl.Repr(b) && Dsl.PyName(a) != Dsl.PyName(b)
  {
    if b.ReturnReg? {
      Dsl.FixedKeys();
      assert Strings.IntToString(a.num) == [Strings.DigitChar(a.num)];
      assert Dsl.Repr(a)[1] != Dsl.Repr(b)[1];
    } else {
      assert Dsl.Repr(a)[0] != Dsl.Repr(b)[0];
    }
    assert Dsl.Num(b) >= 0 by {
      if b.Scratch? {
        assert b.num in Dsl.ScratchNums;
      }
    }
    Dsl.ReprReserved(b);
  }

  lemma SplitLast<T>(p: seq<T>)
    requires p != []
    ensures p == p[..|p| - 1] + [p[|p| - 1]]
  {
  }

  lemma StepsSnoc(p: seq<Dsl.Instr>, h: Dsl.Instr)
    ensures Dsl.Steps(p + [h]) == Dsl.Steps(p) + [Dsl.ToStep(h)]
  {
    var a, b := Dsl.Steps(p + [h]), Dsl.Steps(p) + [Dsl.ToStep(h)];
    assert |a| == |b|;
    forall k | 0 <= k < |a| ensures a[k] == b[k] {
      if k < |p| {
        assert (p + [h])[k] == p[k];
      }
    }
  }

  /** A run of `steps + [s]` that succeeds passes through a state from which
      `s` succeeds. */
  lemma ExecSnoc(table: Machine.OpTable, steps: seq<Machine.Step>, s: Machine.Step, env: Machine.Regs, regs: Machine.Regs)
    returns (mid: Machine.Regs)
    requires Machine.Exec(table, steps + [s], env) == Ok(regs)
    ensures Machine.Exec(table, steps, env) == Ok(mid)
    ensures Machine.StepOnce(table, s, mid) == Ok(regs)
  {
    Machine.ExecAppend(table, steps, [s], env);
    mid := Machine.Exec(table, steps, env).value;
  }

  lemma RegsOfSnoc(q: seq<Dsl.Instr>, h: Dsl.Instr)
    ensures RegsOf(q) <= RegsOf(q + [h])
    ensures forall j :: 0 <= j < |h.args| && h.args[j].R? ==> h.args[j].reg in RegsOf(q + [h])
  {
    var p := q + [h];
    forall r | r in RegsOf(q) ensures r in RegsOf(p) {
      var k, j :| 0 <= k < |q| && 0 <= j < |q[k].args| && q[k].args[j].R? && q[k].args[j].reg == r;
      assert p[k] == q[k];
    }
    forall j | 0 <= j < |h.args| && h.args[j].R? ensures h.args[j].reg in RegsOf(p) {
      assert p[|q|] == h;
    }
  }

  lemma ConsistentSubset(keying: Keying, s: set<Dsl.Reg>, t: set<Dsl.Reg>)
    requires Consistent(keying, s) && t <= s
    ensures Consistent(keying, t)
  {
  }

  /** The value a step reads for an operand, resolved one level down: the
      operand's term (its write in `q`, or its bound variable) evaluates to
      the value the interpreter holds for it after `q`. */
  lemma {:induction false} OperandAgrees(keying: Keying, q: seq<Dsl.Instr>, a: Dsl.Reg, env: Machine.Regs, regs: Machine.Regs)
    requires Machine.Exec(Dsl.MatchOp, Dsl.Steps(q), env) == Ok(regs)
    requires Consistent(keying, RegsOf(q) + {a})
    requires Dsl.PyName(a) in regs
    ensures var o := OrVar(MatchInstr(keying, Reverse(q), a, env.Keys), a, env.Keys);
      o.Ok? && ResolvedIn(o.value, env.Keys)
      && Eval(o.value.expr, env) == regs[Dsl.PyName(a)] && AllNonZero(o.value.guards, env)
    decreases |q|, 1
  {
    ResolvePrefix(keying, q, a, env, regs);
    var r := MatchInstr(keying, Reverse(q), a, env.Keys);
    if r.value.None? {
      assert ToVar(a, env.Keys) == Ok(Sym(Dsl.PyName(a)));
      assert OrVar(r, a, env.Keys) == Ok(Resolved(Sym(Dsl.PyName(a)), []));
    }
  }

  /** The facts about a resolved operand that the defining step needs. */
  predicate OperandFacts(o: Resolved, env: Machine.Regs, value: int)
  {
    ResolvedIn(o, env.Keys) && Eval(o.expr, env) == value && AllNonZero(o.guards, env)
  }

  /** Immediate form: `dest := op(src, imm)` on both sides. */
  lemma ImmediateStep(h: Dsl.Instr, key: string, env: Machine.Regs, mid: Machine.Regs, regs: Machine.Regs, left: Resolved)
    requires |h.args| == 3 && h.args[0].R? && h.args[1].R? && h.args[2].Imm?
    requires Machine.StepOnce(Dsl.MatchOp, Dsl.ToStep(h), mid) == Ok(regs)
    requires Dsl.PyName(h.args[0].reg) == key
    requires Dsl.PyName(h.args[1].reg) in mid
    requires OperandFacts(left, env, mid[Dsl.PyName(h.args[1].reg)])
    ensures Dsl.MatchOp(h.op).Some? && key in regs
    ensures Eval(Bin(Dsl.MatchOp(h.op).value, left.expr, Lit(h.args[2].val)), env) == regs[key]
  {
  }

  /** Register form: `dest := op(src1, src2)`, and a divisor that did not
      raise is non-zero. */
  lemma RegisterStep(h: Dsl.Instr, key: string, env: Machine.Regs, mid: Machine.Regs, regs: Machine.Regs, left: Resolved, right: Resolved)
    requires |h.args| == 3 && h.args[0].R? && h.args[1].R? && h.args[2].R?
    requires Machine.StepOnce(Dsl.MatchOp, Dsl.ToStep(h), mid) == Ok(regs)
    requires Dsl.PyName(h.args[0].reg) == key
    requires Dsl.PyName(h.args[1].reg) in mid && Dsl.PyName(h.args[2].reg) in mid
    requires OperandFacts(left, env, mid[Dsl.PyName(h.args[1].reg)])
    requires OperandFacts(right, env, mid[Dsl.PyName(h.args[2].reg)])
    ensures Dsl.MatchOp(h.op).Some? && key in regs
    ensures Eval(Bin(Dsl.MatchOp(h.op).value, left.expr, right.expr), env) == regs[key]
    ensures var own := if h.op == "div" || h.op == "rem" then [right.expr] else [];
      GuardVarsIn(left.guards + right.guards + own, env.Keys)
      && AllNonZero(left.guards + right.guards + own, env)
  {
    RegisterValue(h, key, env, mid, regs, left, right);
    RegisterGuards(h, env, mid, regs, left, right);
  }

  lemma RegisterValue(h: Dsl.Instr, key: string, env: Machine.Regs, mid: Machine.Regs, regs: Machine.Regs, left: Resolved, right: Resolved)
    requires |h.args| == 3 && h.args[0].R? && h.args[1].R? && h.args[2].R?
    requires Machine.StepOnce(Dsl.MatchOp, Dsl.ToStep(h), mid) == Ok(regs)
    requires Dsl.PyName(h.args[0].reg) == key
    requires Dsl.PyName(h.args[1].reg) in mid && Dsl.PyName(h.args[2].reg) in mid
    requires OperandFacts(left, env, mid[Dsl.PyName(h.args[1].reg)])
    requires OperandFacts(right, env, mid[Dsl.PyName(h.args[2].reg)])
    ensures Dsl.MatchOp(h.op).Some? && key in regs
    ensures Eval(Bin(Dsl.MatchOp(h.op).value, left.expr, right.expr), env) == regs[key]
  {
  }

  /** A `div` or `rem` that did not raise had a non-zero divisor. */
  lemma RegisterGuards(h: Dsl.Instr, env: Machine.Regs, mid: Machine.Regs, regs: Machine.Regs, left: Resolved, right: Resolved)
    requires |h.args| == 3 && h.args[0].R? && h.args[1].R? && h.args[2].R?
    requires Machine.StepOnce(Dsl.MatchOp, Dsl.ToStep(h), mid) == Ok(regs)
    requires Dsl.PyName(h.args[2].reg) in mid
    requires OperandFacts(left, env, mid[Dsl.PyName(h.args[1].reg)])
    requires OperandFacts(right, env, mid[Dsl.PyName(h.args[2].reg)])
    ensures var own := if h.op == "div" || h.op == "rem" then [right.expr] else [];
      GuardVarsIn(left.guards + right.guards + own, env.Keys)
      && AllNonZero(left.guards + right.guards + own, env)
  {
    var own := if h.op == "div" || h.op == "rem" then [right.expr] else [];
    DivisorNonZero(h, env, mid, regs, right);
    GuardsJoin(left, right, own, env);
  }

  lemma DivisorNonZero(h: Dsl.Instr, env: Machine.Regs, mid: Machine.Regs, regs: Machine.Regs, right: Resolved)
    requires |h.args| == 3 && h.args[0].R? && h.args[1].R? && h.args[2].R?
    requires Machine.StepOnce(Dsl.MatchOp, Dsl.ToStep(h), mid) == Ok(regs)
    requires Dsl.PyName(h.args[2].reg) in mid
    requires OperandFacts(right, env, mid[Dsl.PyName(h.args[2].reg)])
    ensures h.op == "div" || h.op == "rem" ==> Eval(right.expr, env) != 0
  {
    if h.op == "div" || h.op == "rem" {
      var s1, s2 := Dsl.PyName(h.args[1].reg), Dsl.PyName(h.args[2].reg);
      var op := if h.op == "div" then Arith.TruncDiv else Arith.TruncRem;
      assert Dsl.MatchOp(h.op) == Some(op);
      assert Dsl.ToStep(h) == Machine.RegStep(h.op, Dsl.PyName(h.args[0].reg), s1, s2);
      Machine.RegStepApplies(Dsl.MatchOp, h.op, Dsl.PyName(h.args[0].reg), s1, s2, mid);
      assert Arith.Apply(op, mid[s1], mid[s2]).Ok?;
    }
  }

  lemma GuardsJoin(left: Resolved, right: Resolved, own: seq<Expr>, env: Machine.Regs)
    requires ResolvedIn(left, env.Keys) && ResolvedIn(right, env.Keys)
    requires AllNonZero(left.guards, env) && AllNonZero(right.guards, env)
    requires own == [] || (own == [right.expr] && Eval(right.expr, env) != 0)
    ensures GuardVarsIn(left.guards + right.guards + own, env.Keys)
    ensures AllNonZero(left.guards + right.guards + own, env)
  {
    AllNonZeroAppend(left.guards, right.guards, env);
    AllNonZeroAppend(left.guards + right.guards, own, env);
  }

  /** The instruction that defines `g` computes, in the interpreter, the
      value its resolved term has. */
  lemma {:induction false} DefiningCase(keying: Keying, q: seq<Dsl.Instr>, h: Dsl.Instr, g: Dsl.Reg, env: Machine.Regs, mid: Machine.Regs, regs: Machine.Regs)
    requires Machine.Exec(Dsl.MatchOp, Dsl.Steps(q), env) == Ok(mid)
    requires Machine.StepOnce(Dsl.MatchOp, Dsl.ToStep(h), mid) == Ok(regs)
    requires Defines(keying, h, g)
    requires Consistent(keying, RegsOf(q + [h]) + {g})
    ensures Dsl.PyName(g) in regs
    ensures var r := Build(keying, h, Reverse(q), env.Keys);
      r.Ok? && Eval(r.value.value.expr, env) == regs[Dsl.PyName(g)] && AllNonZero(r.value.value.guards, env)
    decreases |q|, 3
  {
    RegsOfSnoc(q, h);
    DefinesRegister(keying, h, g);
    var all := RegsOf(q + [h]) + {g};
    var d, a1 := h.args[0].reg, h.args[1].reg;
    assert d in all && a1 in all;
    assert Dsl.PyName(d) == Dsl.PyName(g);
    ConsistentSubset(keying, all, RegsOf(q) + {a1});
    if h.args[2].Imm? {
      DefiningImmediate(keying, q, h, g, env, mid, regs);
    } else {
      assert h.args[2].reg in all;
      ConsistentSubset(keying, all, RegsOf(q) + {h.args[2].reg});
      DefiningRegister(keying, q, h, g, env, mid, regs);
    }
  }

  /** `DefiningCase` for an immediate-form definition. */
  lemma {:induction false} DefiningImmediate(keying: Keying, q: seq<Dsl.Instr>, h: Dsl.Instr, g: Dsl.Reg, env: Machine.Regs, mid: Machine.Regs, regs: Machine.Regs)
    requires Machine.Exec(Dsl.MatchOp, Dsl.Steps(q), env) == Ok(mid)
    requires Machine.StepOnce(Dsl.MatchOp, Dsl.ToStep(h), mid) == Ok(regs)
    requires |h.args| == 3 && h.args[0].R? && h.args[1].R? && h.args[2].Imm?
    requires Dsl.PyName(h.args[0].reg) == Dsl.PyName(g)
    requires Consistent(keying, RegsOf(q) + {h.args[1].reg})
    ensures Dsl.PyName(g) in regs
    ensures var r := Build(keying, h, Reverse(q), env.Keys);
      r.Ok? && Eval(r.value.value.expr, env) == regs[Dsl.PyName(g)] && AllNonZero(r.value.value.guards, env)
    decreases |q|, 2
  {
    var a1 := h.args[1].reg;
    OperandAgrees(keying, q, a1, env, mid);
    var left := OrVar(MatchInstr(keying, Reverse(q), a1, env.Keys), a1, env.Keys).value;
    ImmediateStep(h, Dsl.PyName(g), env, mid, regs, left);
  }

  /** `DefiningCase` for a register-form definition. */
  lemma {:induction false} DefiningRegister(keying: Keying, q: seq<Dsl.Instr>, h: Dsl.Instr, g: Dsl.Reg, env: Machine.Regs, mid: Machine.Regs, regs: Machine.Regs)
    requires Machine.Exec(Dsl.MatchOp, Dsl.Steps(q), env) == Ok(mid)
    requires Machine.StepOnce(Dsl.MatchOp, Dsl.ToStep(h), mid) == Ok(regs)
    requires |h.args| == 3 && h.args[0].R? && h.args[1].R? && h.args[2].R?
    requires Dsl.PyName(h.args[0].reg) == Dsl.PyName(g)
    requires Consistent(keying, RegsOf(q) + {h.args[1].reg})
    requires Consistent(keying, RegsOf(q) + {h.args[2].reg})
    ensures Dsl.PyName(g) in regs
    ensures var r := Build(keying, h, Reverse(q), env.Keys);
      r.Ok? && Eval(r.value.value.expr, env) == regs[Dsl.PyName(g)] && AllNonZero(r.value.value.guards, env)
    decreases |q|, 2
  {
    var a1, a2 := h.args[1].reg, h.args[2].reg;
    OperandAgrees(keying, q, a1, env, mid);
    OperandAgrees(keying, q, a2, env, mid);
    var left := OrVar(MatchInstr(keying, Reverse(q), a1, env.Keys), a1, env.Keys).value;
    var right := OrVar(MatchInstr(keying, Reverse(q), a2, env.Keys), a2, env.Keys).value;
    RegisterStep(h, Dsl.PyName(g), env, mid, regs, left, right);
  }

  /** An instruction that does not define `g` leaves `g`'s key alone. */
  lemma PassingCase(keying: Keying, q: seq<Dsl.Instr>, h: Dsl.Instr, g: Dsl.Reg, mid: Machine.Regs, regs: Machine.Regs)
    requires Machine.StepOnce(Dsl.MatchOp, Dsl.ToStep(h), mid) == Ok(regs)
    requires !Defines(keying, h, g)
    requires Consistent(keying, RegsOf(q + [h]) + {g})
    requires Dsl.PyName(g) in regs
    ensures Dsl.PyName(g) in mid && regs[Dsl.PyName(g)] == mid[Dsl.PyName(g)]
  {
    var step := Dsl.ToStep(h);
    RegsOfSnoc(q, h);
  }

  /** The heart of the agreement: after any successful forward run of `p`
      from `env`, the resolution of any register the run has a value for
      succeeds; a resolved term evaluates (with `env` as the z3 model) to
      that value, with every divisor condition true, and an unresolved
      register was never written and still holds its bound value. */
  lemma {:induction false} ResolvePrefix(keying: Keying, p: seq<Dsl.Instr>, g: Dsl.Reg, env: Machine.Regs, regs: Machine.Regs)
    requires Machine.Exec(Dsl.MatchOp, Dsl.Steps(p), env) == Ok(regs)
    requires Consistent(keying, RegsOf(p) + {g})
    requires Dsl.PyName(g) in regs
    ensures var r := MatchInstr(keying, Reverse(p), g, env.Keys);
      && r.Ok?
      && (r.value.Some? ==> Eval(r.value.value.expr, env) == regs[Dsl.PyName(g)] && AllNonZero(r.value.value.guards, env))
      && (r.value.None? ==> Dsl.PyName(g) in env && regs[Dsl.PyName(g)] == env[Dsl.PyName(g)])
    decreases |p|, 0
  {
    if p == [] {
      assert Dsl.Steps(p) == [];
    } else {
      var q, h := p[..|p| - 1], p[|p| - 1];
      SplitLast(p);
      MatchInstrSnoc(keying, q, h, g, env.Keys);
      StepsSnoc(q, h);
      var mid := ExecSnoc(Dsl.MatchOp, Dsl.Steps(q), Dsl.ToStep(h), env, regs);
      if Defines(keying, h, g) {
        DefiningCase(keying, q, h, g, env, mid, regs);
      } else {
        PassingCase(keying, q, h, g, mid, regs);
        RegsOfSnoc(q, h);
        ConsistentSubset(keying, RegsOf(p) + {g}, RegsOf(q) + {g});
        ResolvePrefix(keying, q, g, env, mid);
      }
    }
  }

  /** Resolving over `q + [h]` reversed looks at `h` first. */
  lemma MatchInstrSnoc(keying: Keying, q: seq<Dsl.Instr>, h: Dsl.Instr, g: Dsl.Reg, bound: set<string>)
    ensures MatchInstr(keying, Reverse(q + [h]), g, bound) ==
      if Defines(keying, h, g) then Build(keying, h, Reverse(q), bound) else MatchInstr(keying, Reverse(q), g, bound)
  {
    ReverseSnoc(q, h);
    var rev := Reverse(q + [h]);
    assert rev[0] == h && rev[1..] == Reverse(q);
  }

  /** What resolving `a0` promises about a run of `prog` that returns `v`:
      resolution succeeds (with `x0` and the argument names as the bound
      constants); the resolved term evaluates to `v` in the model that binds
      `x0` to 0 and each argument to its value, with every divisor side
      condition true; and if nothing writes `a0`, `v` is the bound value of
      `a0` itself. */
  predicate ResolvesToRun(keying: Keying, prog: seq<Dsl.Instr>, args: map<string, int>, v: int)
  {
    var env := args[Machine.ZeroKey := 0];
    var r := MatchInstr(keying, Reverse(prog), Dsl.ReturnReg, args.Keys + {Machine.ZeroKey});
    && r.Ok?
    && (r.value.Some? ==> Eval(r.value.value.expr, env) == v && AllNonZero(r.value.value.guards, env))
    && (r.value.None? ==> Machine.ReturnKey in args && v == args[Machine.ReturnKey])
  }

  /** The headline property. When the forward run of a program with the
      riscv_dsl.py opcodes returns `v`, resolving `a0` over the reversed
      program agrees with it, provided the program's registers are
      `Consistent` under the keying. For `match_instr` as written (`ByRepr`)
      that is a real condition: no two registers of the program may print
      alike under different `py_name` keys or differently under the same
      key. */
  lemma ResolveAgreesWithRun(keying: Keying, prog: seq<Dsl.Instr>, args: map<string, int>, v: int)
    requires Dsl.Run(prog, args) == Ok(v)
    requires Consistent(keying, RegsOf(prog) + {Dsl.ReturnReg})
    ensures ResolvesToRun(keying, prog, args, v)
  {
    var env := args[Machine.ZeroKey := 0];
    assert env.Keys == args.Keys + {Machine.ZeroKey};
    assert Dsl.PyName(Dsl.ReturnReg) == Machine.ReturnKey by {
      assert Strings.IntToString(0) == "0";
    }
    var regs := Machine.Exec(Dsl.MatchOp, Dsl.Steps(prog), env).value;
    ResolvePrefix(keying, prog, Dsl.ReturnReg, env, regs);
  }

  /** The corrected resolver, which recognises writes by `py_name`, agrees
      with every successful run, with no condition on the registers. */
  lemma ResolveByNameAgreesWithRun(prog: seq<Dsl.Instr>, args: map<string, int>, v: int)
    requires Dsl.Run(prog, args) == Ok(v)
    ensures ResolvesToRun(ByName, prog, args, v)
  {
    NameKeyingConsistent(RegsOf(prog) + {Dsl.ReturnReg});
    ResolveAgreesWithRun(ByName, prog, args, v);
  }

  // ---------------------------------------------------------------------------
  // A register named like another register

  /** The argument register `a2` of a variable called `x5`. */
  const MisnamedArg: Dsl.Reg := Dsl.ArgReg(2, "x5")

  /** `addi x5, x0, 1; add a0, a2, x0` where `a2` holds the variable `x5`. */
  function MisnamedProgram(): seq<Dsl.Instr>
  {
    [Dsl.Instr("addi", [Dsl.R(Dsl.Scratch(5)), Dsl.R(Dsl.Zero), Dsl.Imm(1)], false),
     Dsl.Instr("add", [Dsl.R(Dsl.ReturnReg), Dsl.R(MisnamedArg), Dsl.R(Dsl.Zero)], false)]
  }

  /** The interpreter files the scratch register `x5` and the variable `x5`
      under one key, so the run reads back the 1 just written; `match_instr`
      as written sees no write to `a2` and resolves `a0` to the variable,
      which is 7. Comparing by `py_name` finds the write and resolves to 1. */
  lemma MisnamedArgDiverges()
    ensures Dsl.Run(MisnamedProgram(), map["x5" := 7]) == Ok(1)
    ensures !Consistent(ByRepr, RegsOf(MisnamedProgram()) + {Dsl.ReturnReg})
    ensures var r := MatchInstr(ByRepr, Reverse(MisnamedProgram()), Dsl.ReturnReg, {Machine.ZeroKey, "x5"});
      r.Ok? && r.value.Some? && Eval(r.value.value.expr, map[Machine.ZeroKey := 0, "x5" := 7]) == 7
    ensures var r := MatchInstr(ByName, Reverse(MisnamedProgram()), Dsl.ReturnReg, {Machine.ZeroKey, "x5"});
      r.Ok? && r.value.Some? && Eval(r.value.value.expr, map[Machine.ZeroKey := 0, "x5" := 7]) == 1
  {
    RunMisnamed();
    MisnamedInconsistent();
    ResolveMisnamed();
    MisnamedEvals();
  }

  lemma MisnamedEvals()
    ensures Eval(Bin(Arith.Add, Sym("x5"), Sym(Machine.ZeroKey)), map[Machine.ZeroKey := 0, "x5" := 7]) == 7
    ensures Eval(Bin(Arith.Add, Bin(Arith.Add, Sym(Machine.ZeroKey), Lit(1)), Sym(Machine.ZeroKey)), map[Machine.ZeroKey := 0, "x5" := 7]) == 1
  {
    var m := map[Machine.ZeroKey := 0, "x5" := 7];
    assert "x5" != Machine.ZeroKey by {
      assert "x5"[1] != Machine.ZeroKey[1];
    }
    assert m["x5"] == 7 && m[Machine.ZeroKey] == 0;
    assert Arith.Apply(Arith.Add, 7, 0) == Ok(7);
    assert Arith.Apply(Arith.Add, 0, 1) == Ok(1) && Arith.Apply(Arith.Add, 1, 0) == Ok(1);
    assert Eval(Bin(Arith.Add, Sym(Machine.ZeroKey), Lit(1)), m) == 1;
  }

  lemma MisnamedInconsistent()
    ensures !Consistent(ByRepr, RegsOf(MisnamedProgram()) + {Dsl.ReturnReg})
  {
    assert Strings.IntToString(2) == "2" && Strings.IntToString(5) == "5";
    assert Dsl.PyName(Dsl.Scratch(5)) == "x5" && Dsl.PyName(MisnamedArg) == "x5";
    assert Dsl.Repr(MisnamedArg) == "a2" && Dsl.Repr(Dsl.Scratch(5)) == "x5";
    assert Dsl.Scratch(5) in RegsOf(MisnamedProgram()) by {
      assert MisnamedProgram()[0].args[0] == Dsl.R(Dsl.Scratch(5));
    }
    assert MisnamedArg in RegsOf(MisnamedProgram()) by {
      assert MisnamedProgram()[1].args[1] == Dsl.R(MisnamedArg);
    }
  }

  /** The two resolutions of `a0`: the variable plus `x0` as written, the
      written constant plus `x0` when comparing by key. */
  lemma ResolveMisnamed()
    ensures MatchInstr(ByRepr, Reverse(MisnamedProgram()), Dsl.ReturnReg, {Machine.ZeroKey, "x5"})
      == Ok(Some(Resolved(Bin(Arith.Add, Sym("x5"), Sym(Machine.ZeroKey)), [])))
    ensures MatchInstr(ByName, Reverse(MisnamedProgram()), Dsl.ReturnReg, {Machine.ZeroKey, "x5"})
      == Ok(Some(Resolved(Bin(Arith.Add, Bin(Arith.Add, Sym(Machine.ZeroKey), Lit(1)), Sym(Machine.ZeroKey)), [])))
  {
    var w, i := MisnamedProgram()[0], MisnamedProgram()[1];
    assert Reverse(MisnamedProgram()) == [i, w];
    assert [i, w][1..] == [w];
    Dsl.FixedKeys();
    assert Defines(ByRepr, i, Dsl.ReturnReg) && Defines(ByName, i, Dsl.ReturnReg);
    ResolveMisnamedTail();
    MisnamedZero(ByRepr);
    MisnamedZero(ByName);
    BuildMisnamed(ByRepr, Sym("x5"));
    BuildMisnamed(ByName, Bin(Arith.Add, Sym(Machine.ZeroKey), Lit(1)));
  }

  /** The final `add` resolved over the first write, given the terms of
      `a2` and `x0`. */
  lemma BuildMisnamed(keying: Keying, left: Expr)
    requires OrVar(MatchInstr(keying, [MisnamedProgram()[0]], MisnamedArg, {Machine.ZeroKey, "x5"}), MisnamedArg, {Machine.ZeroKey, "x5"})
      == Ok(Resolved(left, []))
    requires OrVar(MatchInstr(keying, [MisnamedProgram()[0]], Dsl.Zero, {Machine.ZeroKey, "x5"}), Dsl.Zero, {Machine.ZeroKey, "x5"})
      == Ok(Resolved(Sym(Machine.ZeroKey), []))
    ensures Build(keying, MisnamedProgram()[1], [MisnamedProgram()[0]], {Machine.ZeroKey, "x5"})
      == Ok(Some(Resolved(Bin(Arith.Add, left, Sym(Machine.ZeroKey)), [])))
  {
    var i, bound := MisnamedProgram()[1], {Machine.ZeroKey, "x5"};
    assert i.args[1].reg == MisnamedArg && i.args[2] == Dsl.R(Dsl.Zero) && i.op == "add";
    BuildAdd(keying, i, [MisnamedProgram()[0]], bound, Resolved(left, []), Resolved(Sym(Machine.ZeroKey), []));
    var none: seq<Expr> := [];
    assert none + none == none;
  }

  /** Resolving an `add` of two registers, given the operands' resolutions. */
  lemma BuildAdd(keying: Keying, i: Dsl.Instr, tail: seq<Dsl.Instr>, bound: set<string>, l: Resolved, r: Resolved)
    requires |i.args| == 3 && i.args[1].R? && i.args[2].R? && i.op == "add"
    requires OrVar(MatchInstr(keying, tail, i.args[1].reg, bound), i.args[1].reg, bound) == Ok(l)
    requires OrVar(MatchInstr(keying, tail, i.args[2].reg, bound), i.args[2].reg, bound) == Ok(r)
    ensures Build(keying, i, tail, bound) == Ok(Some(Resolved(Bin(Arith.Add, l.expr, r.expr), l.guards + r.guards)))
  {
    assert LookupOp("add") == Ok(Arith.Add);
    assert l.guards + r.guards + [] == l.guards + r.guards;
  }

  /** `x0` is never written by the first instruction and resolves to itself. */
  lemma MisnamedZero(keying: Keying)
    ensures OrVar(MatchInstr(keying, [MisnamedProgram()[0]], Dsl.Zero, {Machine.ZeroKey, "x5"}), Dsl.Zero, {Machine.ZeroKey, "x5"})
      == Ok(Resolved(Sym(Machine.ZeroKey), []))
  {
    ResolveMisnamedTail();
    Dsl.FixedKeys();
    assert ToVar(Dsl.Zero, {Machine.ZeroKey, "x5"}) == Ok(Sym(Machine.ZeroKey));
  }

  lemma ResolveMisnamedTail()
    ensures MatchInstr(ByRepr, [MisnamedProgram()[0]], MisnamedArg, {Machine.ZeroKey, "x5"}) == Ok(None)
    ensures MatchInstr(ByRepr, [MisnamedProgram()[0]], Dsl.Zero, {Machine.ZeroKey, "x5"}) == Ok(None)
    ensures MatchInstr(ByName, [MisnamedProgram()[0]], MisnamedArg, {Machine.ZeroKey, "x5"})
      == Ok(Some(Resolved(Bin(Arith.Add, Sym(Machine.ZeroKey), Lit(1)), [])))
    ensures MatchInstr(ByName, [MisnamedProgram()[0]], Dsl.Zero, {Machine.ZeroKey, "x5"}) == Ok(None)
    ensures OrVar(MatchInstr(ByRepr, [MisnamedProgram()[0]], MisnamedArg, {Machine.ZeroKey, "x5"}), MisnamedArg, {Machine.ZeroKey, "x5"})
      == Ok(Resolved(Sym("x5"), []))
  {
    MisnamedDefines();
    var w := MisnamedProgram()[0];
    assert [w][1..] == [];
    assert MatchInstr(ByName, [], Dsl.Zero, {Machine.ZeroKey, "x5"}) == Ok(None);
    Dsl.FixedKeys();
    assert ToVar(Dsl.Zero, {Machine.ZeroKey, "x5"}) == Ok(Sym(Machine.ZeroKey));
    assert LookupOp("addi") == Ok(Arith.Add);
    assert ToVar(MisnamedArg, {Machine.ZeroKey, "x5"}) == Ok(Sym("x5"));
  }

  /** The first instruction writes `x5`: it defines the variable `x5` by key,
      but neither `a2` by printed form nor `x0` either way. */
  lemma MisnamedDefines()
    ensures !Defines(ByRepr, MisnamedProgram()[0], MisnamedArg) && Defines(ByName, MisnamedProgram()[0], MisnamedArg)
    ensures !Defines(ByRepr, MisnamedProgram()[0], Dsl.Zero) && !Defines(ByName, MisnamedProgram()[0], Dsl.Zero)
  {
    Dsl.FixedKeys();
    assert Strings.IntToString(0) == "0" && Strings.IntToString(2) == "2" && Strings.IntToString(5) == "5";
    assert Dsl.PyName(Dsl.Scratch(5)) == "x5" && Dsl.PyName(MisnamedArg) == "x5";
    assert Dsl.Repr(MisnamedArg) == "a2" && Dsl.Repr(Dsl.Scratch(5)) == "x5";
  }

  lemma RunMisnamed()
    ensures Dsl.Run(MisnamedProgram(), map["x5" := 7]) == Ok(1)
  {
    var regs := map["x5" := 7, Machine.ZeroKey := 0];
    var set1 := Machine.ImmStep("addi", "x5", Machine.ZeroKey, 1);
    var sum := Machine.RegStep("add", Machine.ReturnKey, "x5", Machine.ZeroKey);
    assert Strings.IntToString(0) == "0" && Strings.IntToString(5) == "5";
    assert Dsl.PyName(Dsl.Scratch(5)) == "x5" && Dsl.PyName(MisnamedArg) == "x5";
    Dsl.FixedKeys();
    assert Dsl.ToStep(MisnamedProgram()[0]) == set1;
    assert Dsl.ToStep(MisnamedProgram()[1]) == sum;
    assert Dsl.Steps(MisnamedProgram()) == [set1, sum];
    var mid := regs["x5" := 1];
    assert Machine.StepOnce(Dsl.MatchOp, set1, regs) == Ok(mid);
    assert Machine.StepOnce(Dsl.MatchOp, sum, mid) == Ok(mid[Machine.ReturnKey := 1]);
    assert Machine.Exec(Dsl.MatchOp, [sum], mid) == Ok(mid[Machine.ReturnKey := 1]);
    assert [set1, sum][1..] == [sum];
    assert Machine.Exec(Dsl.MatchOp, [set1, sum], regs) == Ok(mid[Machine.ReturnKey := 1]);
  }
}

=== FILE: riscv_ast.dfy ===
/** The older instruction model of riscv_ast.py, which run_riscv.py imports.

    It differs from riscv_dsl.py in three ways that change results: `div`
    floors instead of truncating, there is no `rem` and no shift opcode (but
    there are `muli` and `divi`), and argument registers start at `a2`.
    Instructions have no `__eq__` here (identity equality), so none is
    modelled.
 */
module RiscvAst {
  import opened Base
  import opened Strings
  import Arith
  import Machine
  import Dsl

  datatype Reg =
    | Scratch(num: int)              // Reg
    | Var(num: int, name: string)    // Var
    | Zero                           // x0
    | ReturnReg                      // a0

  const ScratchNums: seq<int> := [5, 6, 7, 28, 29, 30, 31]

  /** `Var.var_regs == list(range(2, 8))`. */
  predicate IsVarNum(n: int)
  {
    2 <= n <= 7
  }

  datatype ConstructError = RegisterAssertion

  /** `Reg(num)`. */
  function NewReg(num: int): (r: Result<Reg, ConstructError>)
    ensures r.Ok? <==> num in ScratchNums
    ensures r.Ok? ==> Repr(r.value) == "x" + IntToString(num)
  {
    if num in ScratchNums then Ok(Scratch(num)) else Err(RegisterAssertion)
  }

  /** `Var(num, name)`: unlike `Regvar`, index 1 is refused. */
  function NewVar(num: int, name: string): (r: Result<Reg, ConstructError>)
    ensures r.Ok? <==> IsVarNum(num)
    ensures r.Ok? ==> Repr(r.value) == "a" + IntToString(num) && PyName(r.value) == name
  {
    if IsVarNum(num) then Ok(Var(num, name)) else Err(RegisterAssertion)
  }

  /** `Var(1, name)` fails here but `Regvar(1, name)` succeeds in riscv_dsl.py. */
  lemma ArgRangesDiffer(name: string)
    ensures NewVar(1, name).Err? && Dsl.NewRegvar(1, name).Ok?
    ensures forall n :: NewVar(n, name).Ok? ==> Dsl.NewRegvar(n, name).Ok?
  {
  }

  /** `repr(r)`: `x<n>` for `Reg` and `Zero`, `a<n>` for `Var` and `ReturnReg`. */
  function Repr(r: Reg): (s: string)
    ensures |s| >= 2 && NoSpace(s)
    ensures s[0] == (if r.Scratch? || r.Zero? then 'x' else 'a')
  {
    match r
    case Scratch(n) => "x" + IntToString(n)
    case Var(n, _) => "a" + IntToString(n)
    case Zero => "x0"
    case ReturnReg => "a0"
  }

  /** `py_name`: the variable name only for an exact `Var`. */
  function PyName(r: Reg): string
  {
    if r.Var? then r.name else Repr(r)
  }

  lemma KeysOfFixedRegisters()
    ensures PyName(Zero) == Machine.ZeroKey
    ensures PyName(ReturnReg) == Machine.ReturnKey
  {
  }

  datatype Operand = R(reg: Reg) | Imm(val: int)

  datatype Instr = Instr(instr: string, args: seq<Operand>)

  function OperandRepr(a: Operand): string
  {
    match a
    case R(r) => Repr(r)
    case Imm(n) => IntToString(n)
  }

  function ArgReprs(args: seq<Operand>): (ss: seq<string>)
    ensures |ss| == |args|
    ensures forall k :: 0 <= k < |args| ==> ss[k] == OperandRepr(args[k])
  {
    if args == [] then [] else [OperandRepr(args[0])] + ArgReprs(args[1..])
  }

  /** `Instr(instr, *args)`: the opcode is lower-cased. */
  function MkInstr(op: string, args: seq<Operand>): (i: Instr)
    ensures |i.instr| == |op| && i.args == args
    ensures forall k :: 0 <= k < |op| ==> ('A' <= op[k] <= 'Z' ==> i.instr[k] as int == op[k] as int + 32)
    ensures forall k :: 0 <= k < |op| ==> (!('A' <= op[k] <= 'Z') ==> i.instr[k] == op[k])
  {
    Instr(Lower(op), args)
  }

  /** `repr(instr)`. */
  function InstrRepr(i: Instr): string
  {
    i.instr + " " + Join(", ", ArgReprs(i.args))
  }

  /** `Regassign(reg, num)`: `addi reg, x0, num`. */
  function Regassign(r: Reg, n: int): (i: Instr)
    ensures i.instr == "addi" && i.args == [R(r), R(Zero), Imm(n)]
  {
    Instr("addi", [R(r), R(Zero), Imm(n)])
  }

  /** `match_op` of riscv_ast.py: floor division, no remainder, no shifts. */
  function MatchOp(op: string): (r: Option<Arith.Op>)
    ensures r.Some? <==> op in ["add", "addi", "sub", "subi", "mul", "muli", "div", "divi"]
  {
    match op
    case "add" => Some(Arith.Add)
    case "addi" => Some(Arith.Add)
    case "sub" => Some(Arith.Sub)
    case "subi" => Some(Arith.Sub)
    case "mul" => Some(Arith.Mul)
    case "muli" => Some(Arith.Mul)
    case "div" => Some(Arith.FloorDiv)
    case "divi" => Some(Arith.FloorDiv)
    case _ => None
  }

  /** Where the two opcode tables disagree: `div` rounds differently whenever
      the quotient is inexact and negative, `rem`, `slli` and `srai` exist
      only in riscv_dsl.py, `muli` and `divi` only here. */
  lemma OpTablesDiffer(x: int, y: int)
    requires y != 0
    ensures (Arith.Apply(MatchOp("div").value, x, y) == Arith.Apply(Dsl.MatchOp("div").value, x, y))
      <==> Arith.Rem(x, y) == 0 || (x < 0) == (y < 0)
    ensures MatchOp("rem").None? && MatchOp("slli").None? && MatchOp("srai").None?
    ensures Dsl.MatchOp("muli").None? && Dsl.MatchOp("divi").None?
  {
    Arith.FloorTruncAgree(x, y);
  }

  // ---------------------------------------------------------------------------
  // run_riscv.py

  /** The two `case` patterns of `run_riscv`: `(Reg, Reg, int)` and
      `(Reg, Reg, Reg)`, keys taken by `py_name`. */
  function ToStep(i: Instr): (s: Machine.Step)
    ensures s.ImmStep? <==> |i.args| == 3 && i.args[0].R? && i.args[1].R? && i.args[2].Imm?
    ensures s.RegStep? <==> |i.args| == 3 && i.args[0].R? && i.args[1].R? && i.args[2].R?
    ensures !s.NoStep? ==> s.op == i.instr && s.dest == PyName(i.args[0].reg)
  {
    if |i.args| == 3 && i.args[0].R? && i.args[1].R? then
      if i.args[2].Imm? then Machine.ImmStep(i.instr, PyName(i.args[0].reg), PyName(i.args[1].reg), i.args[2].val)
      else Machine.RegStep(i.instr, PyName(i.args[0].reg), PyName(i.args[1].reg), PyName(i.args[2].reg))
    else Machine.NoStep
  }

  function Steps(prog: seq<Instr>): (ss: seq<Machine.Step>)
    ensures |ss| == |prog|
    ensures forall k :: 0 <= k < |prog| ==> ss[k] == ToStep(prog[k])
  {
    if prog == [] then [] else [ToStep(prog[0])] + Steps(prog[1..])
  }

  /** `run_riscv(riscv, args)`. A successful run met only opcodes this
      model's `match_op` knows, and its value is the caller's `a0` unless
      some instruction writes that key. */
  function RunRiscv(prog: seq<Instr>, args: map<string, int>): (r: Result<int, Machine.RunError>)
    ensures r.Ok? ==> forall k :: 0 <= k < |prog| && |prog[k].args| == 3 && prog[k].args[0].R? && prog[k].args[1].R?
                        ==> MatchOp(prog[k].instr).Some?
    ensures r.Ok? ==> Machine.ReturnKey in args || Machine.ReturnKey in Machine.Dests(Steps(prog))
    ensures r.Ok? && Machine.ReturnKey !in Machine.Dests(Steps(prog)) ==> r.value == args[Machine.ReturnKey]
  {
    Machine.Run(MatchOp, Steps(prog), args)
  }

  /** `div a0, x, y` with x = -7 and y = 3 yields -3 here and -2 with the
      riscv_dsl.py opcodes. */
  lemma FloorDivExample()
    ensures RunRiscv([Instr("div", [R(ReturnReg), R(Var(2, "x")), R(Var(3, "y"))])], map["x" := -7, "y" := 3]) == Ok(-3)
    ensures Dsl.Run([Dsl.Instr("div", [Dsl.R(Dsl.ReturnReg), Dsl.R(Dsl.ArgReg(2, "x")), Dsl.R(Dsl.ArgReg(3, "y"))], false)],
                    map["x" := -7, "y" := 3]) == Ok(-2)
  {
    FloorDivHere();
    TruncDivThere();
  }

  lemma FloorDivHere()
    ensures RunRiscv([Instr("div", [R(ReturnReg), R(Var(2, "x")), R(Var(3, "y"))])], map["x" := -7, "y" := 3]) == Ok(-3)
  {
    var regs := map["x" := -7, "y" := 3, Machine.ZeroKey := 0];
    var step := Machine.RegStep("div", "a0", "x", "y");
    assert Steps([Instr("div", [R(ReturnReg), R(Var(2, "x")), R(Var(3, "y"))])]) == [step];
    assert Arith.FloorQuot(-7, 3) == -3;
    assert Machine.StepOnce(MatchOp, step, regs) == Ok(regs["a0" := -3]);
    assert Machine.Exec(MatchOp, [step], regs) == Ok(regs["a0" := -3]);
  }

  lemma TruncDivThere()
    ensures Dsl.Run([Dsl.Instr("div", [Dsl.R(Dsl.ReturnReg), Dsl.R(Dsl.ArgReg(2, "x")), Dsl.R(Dsl.ArgReg(3, "y"))], false)],
                    map["x" := -7, "y" := 3]) == Ok(-2)
  {
    var regs := map["x" := -7, "y" := 3, Machine.ZeroKey := 0];
    var step := Machine.RegStep("div", "a0", "x", "y");
    var dstep := Dsl.ToStep(Dsl.Instr("div", [Dsl.R(Dsl.ReturnReg), Dsl.R(Dsl.ArgReg(2, "x")), Dsl.R(Dsl.ArgReg(3, "y"))], false));
    assert dstep == step;
    assert Dsl.Steps([Dsl.Instr("div", [Dsl.R(Dsl.ReturnReg), Dsl.R(Dsl.ArgReg(2, "x")), Dsl.R(Dsl.ArgReg(3, "y"))], false)]) == [step];
    assert Arith.Quot(-7, 3) == -2;
    assert Machine.StepOnce(Dsl.MatchOp, step, regs) == Ok(regs["a0" := -2]);
    assert Machine.Exec(Dsl.MatchOp, [step], regs) == Ok(regs["a0" := -2]);
  }

  /** A write to `x0` is not ignored: later reads see it. */
  lemma ZeroWriteVisible()
    ensures RunRiscv([Instr("addi", [R(Zero), R(Zero), Imm(5)]), Instr("addi", [R(ReturnReg), R(Zero), Imm(0)])], map[]) == Ok(5)
  {
  }

  /** `rem` is not an opcode of this model. */
  lemma RemUnknown()
    ensures RunRiscv([Instr("rem", [R(ReturnReg), R(Var(2, "x")), R(Var(3, "y"))])], map["x" := -7, "y" := 3])
            == Err(Machine.UnknownOp("rem"))
  {
  }
}

=== FILE: riscv_dsl.dfy ===
/** The register and instruction model of riscv_dsl.py, which the verifier,
    the assembly printer/parser and the compiler use.

    Python classes become constructors: `Reg` is `Scratch`, `Regvar` is
    `ArgReg`, and the subclasses `Zero`, `ReturnReg` and `TempRes` keep their
    names. `Regassign` objects are plain instructions tagged `isAssign`,
    because their class matters to `Instr.__eq__`.
 */
module Dsl {
  import opened Base
  import opened Strings
  import Arith
  import Machine

  // ---------------------------------------------------------------------------
  // Registers

  datatype Reg =
    | Scratch(num: int)                 // Reg: a temporary x<n>
    | ArgReg(num: int, name: string)    // Regvar: a<n> carrying a variable name
    | Zero                              // x0
    | ReturnReg                         // a0
    | TempRes                           // a1, a Regvar without a name

  /** `Reg.const_regs`. */
  const ScratchNums: seq<int> := [5, 6, 7, 28, 29, 30, 31]

  /** `Regvar.var_regs == list(range(1, 8))`. */
  predicate IsArgNum(n: int)
  {
    1 <= n <= 7
  }

  /** The register a constructor call could have produced without its
      `assert` failing. */
  predicate Valid(r: Reg)
  {
    match r
    case Scratch(n) => n in ScratchNums
    case ArgReg(n, _) => IsArgNum(n)
    case _ => true
  }

  /** The `num` attribute. */
  function Num(r: Reg): int
  {
    match r
    case Scratch(n) => n
    case ArgReg(n, _) => n
    case Zero => 0
    case ReturnReg => 0
    case TempRes => 1
  }

  /** `x` for `Reg` and `Zero`, `a` for `Regvar` and its subclasses. */
  function Bank(r: Reg): char
  {
    if r.Scratch? || r.Zero? then 'x' else 'a'
  }

  /** `repr(r)`: the assembly name of the register. */
  function Repr(r: Reg): (s: string)
    ensures |s| >= 2 && s[0] == Bank(r) && NoSpace(s)
  {
    [Bank(r)] + IntToString(Num(r))
  }

  /** The module-level `py_name`: the variable name for an exact `Regvar`,
      the printed form for every other register. */
  function PyName(r: Reg): string
  {
    if r.ArgReg? then r.name else Repr(r)
  }

  /** A name of the shape `x<digits>` or `a<digits>`: the shape of every
      printed register, and so of every register key that is not a variable
      name. */
  predicate Reserved(n: string)
  {
    |n| >= 2 && (n[0] == 'x' || n[0] == 'a') && AllDigits(n[1..])
  }

  /** `py_name` files a `Regvar` under its variable name and every other
      register (with a non-negative index) under a register-shaped key, so a
      variable whose name has another shape never shares a register's key. */
  lemma PyNameKeys(r: Reg)
    ensures r.ArgReg? ==> PyName(r) == r.name
    ensures !r.ArgReg? && Num(r) >= 0 ==> Reserved(PyName(r))
  {
    if !r.ArgReg? && Num(r) >= 0 {
      ReprReserved(r);
    }
  }

  /** A register with a non-negative index prints register-shaped. */
  lemma ReprReserved(r: Reg)
    requires Num(r) >= 0
    ensures Reserved(Repr(r))
  {
    var n: nat := Num(r);
    assert IntToString(n) == NatToString(n);
    assert Repr(r)[1..] == NatToString(n);
  }

  /** The interpreter's keys for `x0` and `a0`. */
  lemma FixedKeys()
    ensures Repr(Zero) == "x0" && PyName(Zero) == Machine.ZeroKey
    ensures Repr(ReturnReg) == "a0" && PyName(ReturnReg) == Machine.ReturnKey
  {
    assert IntToString(0) == "0";
  }

  /** `Reg.__eq__`: registers are equal when they print alike. */
  predicate RegEq(a: Reg, b: Reg)
  {
    Repr(a) == Repr(b)
  }

  /** Printing identifies a register by its bank and index and nothing else,
      so two argument registers with different names are equal. */
  lemma RegEqIff(a: Reg, b: Reg)
    ensures RegEq(a, b) <==> Bank(a) == Bank(b) && Num(a) == Num(b)
  {
    if RegEq(a, b) {
      assert Repr(a)[1..] == IntToString(Num(a));
      assert Repr(b)[1..] == IntToString(Num(b));
    }
  }

  datatype ConstructError = RegisterAssertion

  /** `Reg(num)`: the constructor asserts the index is a scratch index. */
  function NewReg(num: int): (r: Result<Reg, ConstructError>)
    ensures r.Ok? <==> num in ScratchNums
    ensures r.Ok? ==> Valid(r.value) && Repr(r.value) == "x" + IntToString(num)
  {
    if num in ScratchNums then Ok(Scratch(num)) else Err(RegisterAssertion)
  }

  /** `Regvar(num, name)`: the constructor asserts the index is in 1..7. */
  function NewRegvar(num: int, name: string): (r: Result<Reg, ConstructError>)
    ensures r.Ok? <==> IsArgNum(num)
    ensures r.Ok? ==> Valid(r.value) && Repr(r.value) == "a" + IntToString(num) && PyName(r.value) == name
  {
    if IsArgNum(num) then Ok(ArgReg(num, name)) else Err(RegisterAssertion)
  }

  // ---------------------------------------------------------------------------
  // Operands and instructions

  /** An instruction argument: a register or an immediate Python int. */
  datatype Operand = R(reg: Reg) | Imm(val: int)

  function OperandRepr(a: Operand): string
  {
    match a
    case R(r) => Repr(r)
    case Imm(n) => IntToString(n)
  }

  /** Python `==` between two arguments. `Reg.__eq__` compares printed forms
      even against an int (an int never prints like a register), and two ints
      compare as ints; both are comparison of printed forms. */
  predicate OperandEq(a: Operand, b: Operand)
  {
    OperandRepr(a) == OperandRepr(b)
  }

  lemma OperandEqIff(a: Operand, b: Operand)
    ensures OperandEq(a, b) <==>
      (a.Imm? && b.Imm? && a.val == b.val) || (a.R? && b.R? && RegEq(a.reg, b.reg))
  {
    if OperandEq(a, b) && a.Imm? && b.Imm? {
      assert ParseInt(IntToString(a.val)) == Some(a.val);
    }
  }

  datatype Instr = Instr(op: string, args: seq<Operand>, isAssign: bool)

  /** `Instr(op, *args)`: the opcode is lower-cased. */
  function MkInstr(op: string, args: seq<Operand>): (i: Instr)
    ensures |i.op| == |op| && i.args == args && !i.isAssign
    ensures forall k :: 0 <= k < |op| ==> ('A' <= op[k] <= 'Z' ==> i.op[k] as int == op[k] as int + 32)
    ensures forall k :: 0 <= k < |op| ==> (!('A' <= op[k] <= 'Z') ==> i.op[k] == op[k])
  {
    Instr(Lower(op), args, false)
  }

  /** `Regassign(reg, num)`: `addi reg, x0, num`. */
  function Regassign(r: Reg, n: int): (i: Instr)
    ensures i.isAssign && i.op == "addi"
    ensures i.args == [R(r), R(Zero), Imm(n)]
  {
    Instr("addi", [R(r), R(Zero), Imm(n)], true)
  }

  function ArgReprs(args: seq<Operand>): (ss: seq<string>)
    ensures |ss| == |args|
    ensures forall k :: 0 <= k < |args| ==> ss[k] == OperandRepr(args[k])
  {
    if args == [] then [] else [OperandRepr(args[0])] + ArgReprs(args[1..])
  }

  /** `repr(instr)`: `op + " " + ", ".join(repr(a) for a in args)`. A
      three-operand instruction prints as `op d, s1, s2`. */
  function InstrRepr(i: Instr): (s: string)
    ensures |i.args| == 3 ==>
              s == i.op + " " + (OperandRepr(i.args[0]) + ", " + OperandRepr(i.args[1]) + ", " + OperandRepr(i.args[2]))
  {
    if |i.args| == 3 then
      ThreeOperandJoin(i.args);
      i.op + " " + Join(", ", ArgReprs(i.args))
    else
      i.op + " " + Join(", ", ArgReprs(i.args))
  }

  lemma ThreeOperandJoin(args: seq<Operand>)
    requires |args| == 3
    ensures Join(", ", ArgReprs(args)) == OperandRepr(args[0]) + ", " + OperandRepr(args[1]) + ", " + OperandRepr(args[2])
  {
    var ss := ArgReprs(args);
    assert ss == [ss[0], ss[1], ss[2]];
    Join3(", ", ss[0], ss[1], ss[2]);
  }

  /** `Instr.__eq__(self, other)` as written: true only when `other` is
      exactly an `Instr` (not a `Regassign`) with the same opcode, the same
      number of arguments and pairwise equal arguments. */
  predicate EqMethod(self: Instr, other: Instr)
  {
    !other.isAssign && self.op == other.op && |self.args| == |other.args|
    && forall k :: 0 <= k < |self.args| ==> OperandEq(self.args[k], other.args[k])
  }

  /** Python's `a == b`: when `b` is a `Regassign` and `a` a plain `Instr`,
      the subclass's (inherited) `__eq__` is tried first, reflected. The
      result is component equality, except between two `Regassign`s, which
      never compare equal, not even to themselves. */
  predicate PyEq(a: Instr, b: Instr)
    ensures PyEq(a, b) <==> InstrEquiv(a, b) && !(a.isAssign && b.isAssign)
  {
    if b.isAssign && !a.isAssign then EqMethod(b, a) else EqMethod(a, b)
  }

  /** Component-wise equality, which the comment on `Instr.__eq__` announces:
      same opcode and pairwise equal arguments, whatever the class. */
  predicate InstrEquiv(a: Instr, b: Instr)
  {
    a.op == b.op && |a.args| == |b.args|
    && forall k :: 0 <= k < |a.args| ==> OperandEq(a.args[k], b.args[k])
  }

  lemma RegassignNotSelfEqual(r: Reg, n: int)
    ensures !PyEq(Regassign(r, n), Regassign(r, n))
    ensures InstrEquiv(Regassign(r, n), Regassign(r, n))
    ensures PyEq(MkInstr("addi", [R(r), R(Zero), Imm(n)]), Regassign(r, n))
  {
    assert Lower("addi") == "addi";
  }

  /** The corrected equality is an equivalence relation. */
  lemma InstrEquivIsEquivalence(a: Instr, b: Instr, c: Instr)
    ensures InstrEquiv(a, a)
    ensures InstrEquiv(a, b) ==> InstrEquiv(b, a)
    ensures InstrEquiv(a, b) && InstrEquiv(b, c) ==> InstrEquiv(a, c)
  {
  }

  // ---------------------------------------------------------------------------
  // Opcodes

  /** `Instr.arith_ops`. */
  const ArithOps: seq<string> := ["addi", "subi", "slli", "srai", "add", "sub", "mul", "div", "rem"]

  /** `match_op`: `None` where the Python function raises. */
  function MatchOp(op: string): (r: Option<Arith.Op>)
    ensures r.Some? <==> op in ArithOps
  {
    match op
    case "add" => Some(Arith.Add)
    case "addi" => Some(Arith.Add)
    case "sub" => Some(Arith.Sub)
    case "subi" => Some(Arith.Sub)
    case "slli" => Some(Arith.Shl)
    case "srai" => Some(Arith.Sra)
    case "mul" => Some(Arith.Mul)
    case "div" => Some(Arith.TruncDiv)
    case "rem" => Some(Arith.TruncRem)
    case _ => None
  }

  /** `div` rounds toward zero and `rem` follows the dividend. */
  lemma DivRemExamples()
    ensures Arith.Apply(MatchOp("div").value, -7, 3) == Ok(-2)
    ensures Arith.Apply(MatchOp("div").value, 7, -3) == Ok(-2)
    ensures Arith.Apply(MatchOp("rem").value, -7, 3) == Ok(-1)
    ensures Arith.Apply(MatchOp("rem").value, 7, -3) == Ok(1)
  {
  }

  /** `only_arith_instrs`: the arithmetic instructions, in order. */
  function OnlyArithInstrs(instrs: seq<Instr>): (r: seq<Instr>)
    ensures |r| <= |instrs|
    ensures forall i :: i in r <==> i in instrs && i.op in ArithOps
  {
    if instrs == [] then []
    else if instrs[0].op in ArithOps then [instrs[0]] + OnlyArithInstrs(instrs[1..])
    else OnlyArithInstrs(instrs[1..])
  }

  /** Filtering distributes over concatenation, so the relative order of the
      kept instructions is the original one. */
  lemma {:induction false} OnlyArithAppend(a: seq<Instr>, b: seq<Instr>)
    ensures OnlyArithInstrs(a + b) == OnlyArithInstrs(a) + OnlyArithInstrs(b)
  {
    if a == [] {
      assert a + b == b;
    } else {
      assert (a + b)[0] == a[0];
      assert (a + b)[1..] == a[1..] + b;
      OnlyArithAppend(a[1..], b);
    }
  }

  /** `prog_start` and `prog_end`: the assembly prologue and the exit
      system call. Their opcodes are already lower case, so `MkInstr`'s
      lower-casing is left out of the literals. */
  const ProgStart: seq<Instr> := [Instr(".global _start", [], false), Instr("", [], false), Instr("_start:", [], false)]
  const ProgEnd: seq<Instr> := [Instr("addi", [R(ArgReg(7, "null")), R(Zero), Imm(93)], false), Instr("ecall", [], false)]

  // ---------------------------------------------------------------------------
  // Forward execution with these opcodes

  /** The shape run_riscv.py's `match` sees, with keys taken by `py_name`. */
  function ToStep(i: Instr): (s: Machine.Step)
    ensures s.ImmStep? <==> |i.args| == 3 && i.args[0].R? && i.args[1].R? && i.args[2].Imm?
    ensures s.RegStep? <==> |i.args| == 3 && i.args[0].R? && i.args[1].R? && i.args[2].R?
    ensures !s.NoStep? ==> s.op == i.op && s.dest == PyName(i.args[0].reg)
  {
    if |i.args| == 3 && i.args[0].R? && i.args[1].R? then
      if i.args[2].Imm? then Machine.ImmStep(i.op, PyName(i.args[0].reg), PyName(i.args[1].reg), i.args[2].val)
      else Machine.RegStep(i.op, PyName(i.args[0].reg), PyName(i.args[1].reg), PyName(i.args[2].reg))
    else Machine.NoStep
  }

  function Steps(prog: seq<Instr>): (ss: seq<Machine.Step>)
    ensures |ss| == |prog|
    ensures forall k :: 0 <= k < |prog| ==> ss[k] == ToStep(prog[k])
  {
    if prog == [] then [] else [ToStep(prog[0])] + Steps(prog[1..])
  }

  lemma {:induction false} StepsAppend(a: seq<Instr>, b: seq<Instr>)
    ensures Steps(a + b) == Steps(a) + Steps(b)
  {
    forall k | 0 <= k < |a + b| ensures Steps(a + b)[k] == (Steps(a) + Steps(b))[k] {
      if k < |a| {
        assert (a + b)[k] == a[k];
      } else {
        assert (a + b)[k] == b[k - |a|];
      }
    }
  }

  /** The forward interpreter with this module's opcode table. A successful
      run met only opcodes `match_op` knows, and its value is the caller's
      `a0` unless some instruction writes that key. */
  function Run(prog: seq<Instr>, args: map<string, int>): (r: Result<int, Machine.RunError>)
    ensures r.Ok? ==> forall k :: 0 <= k < |prog| && |prog[k].args| == 3 && prog[k].args[0].R? && prog[k].args[1].R?
                        ==> MatchOp(prog[k].op).Some?
    ensures r.Ok? ==> Machine.ReturnKey in args || Machine.ReturnKey in Machine.Dests(Steps(prog))
    ensures r.Ok? && Machine.ReturnKey !in Machine.Dests(Steps(prog)) ==> r.value == args[Machine.ReturnKey]
  {
    Machine.Run(MatchOp, Steps(prog), args)
  }
}

=== FILE: run_riscv.dfy ===
/** The forward interpreter of run_riscv.py: a left fold over the instruction
    list that updates a map from register keys (`py_name`) to Python ints.

    The interpreter does not know about register classes; each instruction
    model turns its instructions into `Step`s (keys already computed by its
    own `py_name`) and supplies its own opcode table, so one fold serves both
    the floor-division model of riscv_ast.py (which run_riscv.py imports) and
    the truncating model of riscv_dsl.py.
 */
module Machine {
  import opened Base
  import Arith

  /** `py_name(Zero())` and `py_name(ReturnReg())` in both instruction models. */
  const ZeroKey: string := "x0"
  const ReturnKey: string := "a0"

  /** The two three-operand shapes run_riscv.py matches; anything else
      (a directive, a label, `ecall`) is `NoStep`. */
  datatype Step =
    | ImmStep(op: string, dest: string, src: string, imm: int)
    | RegStep(op: string, dest: string, src1: string, src2: string)
    | NoStep

  /** What the Python code raises: `KeyError` on a missing key, the
      "Could not match Instruction Operator" exception, or an arithmetic error. */
  datatype RunError = Unbound(key: string) | UnknownOp(op: string) | Raised(err: Arith.ArithError)

  /** An opcode table: `match_op`, returning `None` where it raises. */
  type OpTable = string -> Option<Arith.Op>

  type Regs = map<string, int>

  /** Keys a step writes. */
  function StepDests(s: Step): set<string>
  {
    match s
    case ImmStep(_, d, _, _) => {d}
    case RegStep(_, d, _, _) => {d}
    case NoStep => {}
  }

  function Dests(steps: seq<Step>): set<string>
  {
    if steps == [] then {} else StepDests(steps[0]) + Dests(steps[1..])
  }

  /** One loop iteration of `run_riscv`. Operands are read first, then the
      opcode is looked up, then the result is stored under the destination key. */
  function StepOnce(table: OpTable, s: Step, regs: Regs): (r: Result<Regs, RunError>)
    ensures r.Ok? ==> r.value.Keys == regs.Keys + StepDests(s)
    ensures r.Ok? ==> forall k :: k in regs && k !in StepDests(s) ==> r.value[k] == regs[k]
    ensures s.NoStep? ==> r == Ok(regs)
  {
    match s
    case NoStep => Ok(regs)
    case ImmStep(op, dest, src, imm) =>
      if src !in regs then Err(Unbound(src))
      else if table(op).None? then Err(UnknownOp(op))
      else
        var v := Arith.Apply(table(op).value, regs[src], imm);
        if v.Err? then Err(Raised(v.error)) else Ok(regs[dest := v.value])
    case RegStep(op, dest, src1, src2) =>
      if src1 !in regs then Err(Unbound(src1))
      else if src2 !in regs then Err(Unbound(src2))
      else if table(op).None? then Err(UnknownOp(op))
      else
        var v := Arith.Apply(table(op).value, regs[src1], regs[src2]);
        if v.Err? then Err(Raised(v.error)) else Ok(regs[dest := v.value])
  }

  /** The `for i in riscv` loop: every step in order, stopping at the first
      error. Keys only ever get added, and a key nobody writes keeps its value. */
  function Exec(table: OpTable, steps: seq<Step>, regs: Regs): (r: Result<Regs, RunError>)
    ensures r.Ok? ==> r.value.Keys == regs.Keys + Dests(steps)
    ensures r.Ok? ==> forall k :: k in regs && k !in Dests(steps) ==> r.value[k] == regs[k]
    decreases |steps|
  {
    if steps == [] then Ok(regs)
    else
      var next := StepOnce(table, steps[0], regs);
      if next.Err? then Err(next.error) else Exec(table, steps[1..], next.value)
  }

  /** `run_riscv(riscv, args)`: copy the bindings, bind `x0` to 0, run, and
      read `a0`. */
  function Run(table: OpTable, steps: seq<Step>, args: Regs): (r: Result<int, RunError>)
    ensures r.Ok? ==> ReturnKey in args || ReturnKey in Dests(steps)
    ensures r.Ok? && ReturnKey !in Dests(steps) ==> r.value == args[ReturnKey]
    ensures r.Ok? ==> forall k :: 0 <= k < |steps| && !steps[k].NoStep? ==> table(steps[k].op).Some?
  {
    ExecKnownOps(table, steps, args[ZeroKey := 0]);
    var final := Exec(table, steps, args[ZeroKey := 0]);
    if final.Err? then Err(final.error)
    else if ReturnKey !in final.value then Err(Unbound(ReturnKey))
    else Ok(final.value[ReturnKey])
  }

  /** A run that succeeds met no opcode the table does not know. */
  lemma {:induction false} ExecKnownOps(table: OpTable, steps: seq<Step>, regs: Regs)
    ensures Exec(table, steps, regs).Ok? ==> forall k :: 0 <= k < |steps| && !steps[k].NoStep? ==> table(steps[k].op).Some?
    decreases |steps|
  {
    if steps != [] {
      var next := StepOnce(table, steps[0], regs);
      if next.Ok? {
        ExecKnownOps(table, steps[1..], next.value);
        assert forall k :: 1 <= k < |steps| ==> steps[k] == steps[1..][k - 1];
      }
    }
  }

  /** A register step that succeeds found both operands and its opcode,
      and the operation did not raise. */
  lemma RegStepApplies(table: OpTable, op: string, dest: string, src1: string, src2: string, regs: Regs)
    requires StepOnce(table, RegStep(op, dest, src1, src2), regs).Ok?
    ensures src1 in regs && src2 in regs && table(op).Some?
    ensures Arith.Apply(table(op).value, regs[src1], regs[src2]).Ok?
  {
  }

  lemma DestsAppend(a: seq<Step>, b: seq<Step>)
    ensures Dests(a + b) == Dests(a) + Dests(b)
  {
    if a == [] {
      assert a + b == b;
    } else {
      assert (a + b)[0] == a[0];
      assert (a + b)[1..] == a[1..] + b;
      DestsAppend(a[1..], b);
    }
  }

  /** Running `a + b` is running `a` and then running `b` on the result. */
  lemma {:induction false} ExecAppend(table: OpTable, a: seq<Step>, b: seq<Step>, regs: Regs)
    ensures Exec(table, a + b, regs) ==
      (var mid := Exec(table, a, regs); if mid.Err? then Err(mid.error) else Exec(table, b, mid.value))
    decreases |a|
  {
    if a == [] {
      assert a + b == b;
    } else {
      assert (a + b)[0] == a[0];
      assert (a + b)[1..] == a[1..] + b;
      var next := StepOnce(table, a[0], regs);
      if next.Ok? {
        ExecAppend(table, a[1..], b, next.value);
      }
    }
  }

  /** One step that succeeds, then the rest. */
  lemma ExecStep(table: OpTable, s: Step, rest: seq<Step>, regs: Regs, next: Regs, final: Regs)
    requires StepOnce(table, s, regs) == Ok(next)
    requires Exec(table, rest, next) == Ok(final)
    ensures Exec(table, [s] + rest, regs) == Ok(final)
  {
    assert ([s] + rest)[0] == s && ([s] + rest)[1..] == rest;
  }
}

=== FILE: strings.dfy ===
/** The few pieces of Python's string handling the assembly printer and parser
    rely on: `str(n)` and `int(s)` for decimal integers, `str.split()` with no
    separator, `str.lower()` and `", ".join(...)`.
 */
module Strings {
  import opened Base

  // ---------------------------------------------------------------------------
  // Characters

  /** The characters `str.split()` treats as separators (`str.isspace`). */
  predicate IsSpace(c: char) {
    c == ' ' || (9 <= c as int <= 13) || (28 <= c as int <= 31)
    || c as int == 0x85 || c as int == 0xA0 || c as int == 0x1680
    || (0x2000 <= c as int <= 0x200A) || c as int == 0x2028 || c as int == 0x2029
    || c as int == 0x202F || c as int == 0x205F || c as int == 0x3000
  }

  predicate NoSpace(s: string) {
    forall i :: 0 <= i < |s| ==> !IsSpace(s[i])
  }

  predicate IsDigit(c: char) {
    '0' <= c <= '9'
  }

  predicate AllDigits(s: string) {
    forall i :: 0 <= i < |s| ==> IsDigit(s[i])
  }

  function DigitValue(c: char): nat
    requires IsDigit(c)
  {
    c as int - '0' as int
  }

  function DigitChar(d: nat): (c: char)
    requires d < 10
    ensures IsDigit(c) && DigitValue(c) == d
  {
    ('0' as int + d) as char
  }

  // ---------------------------------------------------------------------------
  // Decimal integers

  /** The value of a non-empty run of decimal digits, most significant first. */
  function DigitsValue(s: string): nat
    requires AllDigits(s)
  {
    if s == [] then 0 else DigitsValue(s[..|s| - 1]) * 10 + DigitValue(s[|s| - 1])
  }

  /** Python's `str(n)` for a natural number: shortest decimal form. */
  function NatToString(n: nat): (s: string)
    ensures s != [] && AllDigits(s)
    ensures DigitsValue(s) == n
    ensures s[0] == '0' <==> n == 0
    decreases n
  {
    if n < 10 then [DigitChar(n)]
    else
      var prefix := NatToString(n / 10);
      var s := prefix + [DigitChar(n % 10)];
      assert s[..|s| - 1] == prefix;
      s
  }

  /** Python's `str(i)` for an integer: a minus sign for negatives. */
  function IntToString(i: int): (s: string)
    ensures s != [] && NoSpace(s)
    ensures s[0] == '-' || IsDigit(s[0])
    ensures ParseInt(s) == Some(i)
  {
    if i < 0 then
      var d := NatToString(-i);
      assert ("-" + d)[1..] == d;
      "-" + d
    else NatToString(i)
  }

  /** Python's `int(s)` on a word without blanks: an optional sign followed
      by at least one decimal digit. */
  function ParseInt(s: string): (r: Option<int>)
    ensures r.Some? <==>
      (|s| >= 1 && AllDigits(s)) || (|s| >= 2 && (s[0] == '-' || s[0] == '+') && AllDigits(s[1..]))
  {
    if |s| >= 2 && s[0] == '-' && AllDigits(s[1..]) then Some(-(DigitsValue(s[1..]) as int))
    else if |s| >= 2 && s[0] == '+' && AllDigits(s[1..]) then Some(DigitsValue(s[1..]))
    else if |s| >= 1 && AllDigits(s) then Some(DigitsValue(s))
    else None
  }

  /** Distinct naturals print differently (a consequence of `ParseInt`
      inverting `IntToString`). */
  lemma NatToStringInjective(m: nat, n: nat)
    ensures NatToString(m) == NatToString(n) <==> m == n
  {
    if NatToString(m) == NatToString(n) {
      assert ParseInt(IntToString(m)) == Some(m as int);
    }
  }

  // ---------------------------------------------------------------------------
  // Splitting on blanks

  /** Length of the leading run of non-blank characters. */
  function WordLen(s: string): (k: nat)
    ensures k <= |s|
    ensures NoSpace(s[..k])
    ensures k == |s| || IsSpace(s[k])
    ensures s != [] && !IsSpace(s[0]) ==> k > 0
  {
    if s == [] || IsSpace(s[0]) then 0
    else
      var k := 1 + WordLen(s[1..]);
      assert s[..k] == [s[0]] + s[1..][..k - 1];
      k
  }

  /** Python's `s.split()`: maximal runs of non-blank characters, in order. */
  function Words(s: string): seq<string>
    decreases |s|
  {
    if s == [] then []
    else if IsSpace(s[0]) then Words(s[1..])
    else
      var k := WordLen(s);
      [s[..k]] + Words(s[k..])
  }

  /** Every word is non-empty and free of blanks. */
  lemma {:induction false} WordsAreWords(s: string)
    ensures forall i :: 0 <= i < |Words(s)| ==> Words(s)[i] != [] && NoSpace(Words(s)[i])
    decreases |s|
  {
    if s != [] {
      if IsSpace(s[0]) {
        WordsAreWords(s[1..]);
      } else {
        var k := WordLen(s);
        WordsAreWords(s[k..]);
        var ws := Words(s);
        assert ws == [s[..k]] + Words(s[k..]);
        assert forall i :: 1 <= i < |ws| ==> ws[i] == Words(s[k..])[i - 1];
      }
    }
  }

  lemma WordLenOfWord(w: string, rest: string)
    requires NoSpace(w)
    requires rest == [] || IsSpace(rest[0])
    ensures WordLen(w + rest) == |w|
    decreases |w|
  {
    if w != [] {
      assert (w + rest)[1..] == w[1..] + rest;
      WordLenOfWord(w[1..], rest);
    }
  }

  /** A leading word followed by a blank (or nothing) is split off whole. */
  lemma {:induction false} WordsCons(w: string, rest: string)
    requires w != [] && NoSpace(w)
    requires rest == [] || IsSpace(rest[0])
    ensures Words(w + rest) == [w] + Words(rest)
  {
    WordLenOfWord(w, rest);
    var s := w + rest;
    assert s[..|w|] == w;
    assert s[|w|..] == rest;
  }

  lemma WordsSkipSpace(c: char, rest: string)
    requires IsSpace(c)
    ensures Words([c] + rest) == Words(rest)
  {
    assert ([c] + rest)[1..] == rest;
  }

  lemma WordsOfWord(w: string)
    requires w != [] && NoSpace(w)
    ensures Words(w) == [w]
  {
    WordsCons(w, []);
    assert w + [] == w;
  }

  // ---------------------------------------------------------------------------
  // Other string helpers

  /** `str.lower()` on ASCII letters. */
  function Lower(s: string): (r: string)
    ensures |r| == |s|
    ensures forall i :: 0 <= i < |s| ==> ('A' <= s[i] <= 'Z' ==> r[i] as int == s[i] as int + 32)
    ensures forall i :: 0 <= i < |s| ==> (!('A' <= s[i] <= 'Z') ==> r[i] == s[i])
  {
    if s == [] then []
    else
      var c := if 'A' <= s[0] <= 'Z' then (s[0] as int + 32) as char else s[0];
      [c] + Lower(s[1..])
  }

  /** `sep.join(parts)`. */
  function Join(sep: string, parts: seq<string>): string
  {
    if parts == [] then []
    else if |parts| == 1 then parts[0]
    else parts[0] + sep + Join(sep, parts[1..])
  }

  lemma Join3(sep: string, a: string, b: string, c: string)
    ensures Join(sep, [a, b, c]) == a + sep + b + sep + c
  {
    assert [a, b, c][1..] == [b, c];
    assert [b, c][1..] == [c];
    assert Join(sep, [b, c]) == b + sep + c;
    assert Join(sep, [a, b, c]) == a + sep + (b + sep + c);
  }

  /** `s[:-1]`: every character but the last. */
  function DropLast(s: string): string
  {
    if s == [] then [] else s[..|s| - 1]
  }
}

=== FILE: symbolic.dfy ===
/** The z3 terms the verifier of cegis_verify.py builds: 64-bit bit-vector
    expressions over named constants, here read as unbounded integers.

    A term has two readings. `Eval` is what z3 gives it: total, with the
    SMT-LIB answers where Python would raise (`bvsdiv` by zero, a negative
    shift count taken as a huge unsigned one). `ConcreteEval` is what the
    goal's Python lambda computes on ints, raising where Python raises. It
    assumes that the goal's `/` is truncating integer division (`pydiv`):
    the only backing for this is the goal's type `Callable[..., int]`
    (cegis_verify.py:15), since `expr_to_func` keeps Python's true `/`. `%`
    and the other operators keep their Python meaning, so a goal's `%` is
    `FloorMod`. The two readings agree wherever the Python evaluation
    succeeds.
 */
module Symbolic {
  import opened Base
  import Arith

  /** A z3 bit-vector term: a literal, a named constant (`BitVec(name, 64)`),
      a binary operation or a negation. */
  datatype Expr =
    | Lit(val: int)
    | Sym(name: string)
    | Bin(op: Arith.Op, left: Expr, right: Expr)
    | Neg(arg: Expr)

  /** The constants a term mentions. */
  function Vars(e: Expr): set<string>
  {
    match e
    case Lit(_) => {}
    case Sym(n) => {n}
    case Bin(_, l, r) => Vars(l) + Vars(r)
    case Neg(a) => Vars(a)
  }

  /** The operations whose right operand must not be zero in Python. */
  predicate IsDivision(op: Arith.Op)
  {
    op == Arith.TruncDiv || op == Arith.TruncRem || op == Arith.FloorDiv || op == Arith.FloorMod
  }

  /** The value z3 gives one operation: the Python value wherever Python
      does not raise, SMT-LIB's fixed answer where it does. `FloorDiv` has no
      bit-vector counterpart and never occurs in a term the verifier builds;
      it gets `bvsdiv`'s answer. */
  function SmtApply(op: Arith.Op, x: int, y: int): (v: int)
    ensures Arith.Apply(op, x, y).Ok? ==> v == Arith.Apply(op, x, y).value
    ensures (op == Arith.TruncRem || op == Arith.FloorMod) && y == 0 ==> v == x
  {
    var r := Arith.Apply(op, x, y);
    if r.Ok? then r.value
    else if op == Arith.TruncDiv || op == Arith.FloorDiv then (if x >= 0 then -1 else 1)
    else if op == Arith.Shl then 0
    else if op == Arith.Sra then (if x < 0 then -1 else 0)
    else x
  }

  /** The value of a term in a z3 model binding every constant it mentions. */
  function Eval(e: Expr, env: map<string, int>): int
    requires Vars(e) <= env.Keys
  {
    match e
    case Lit(v) => v
    case Sym(n) => env[n]
    case Bin(op, l, r) => SmtApply(op, Eval(l, env), Eval(r, env))
    case Neg(a) => -Eval(a, env)
  }

  /** The same expression evaluated by Python on ints, left operand first;
      `Err` where Python raises. Where it succeeds, z3 gives the same value. */
  function ConcreteEval(e: Expr, env: map<string, int>): (r: Result<int, Arith.ArithError>)
    requires Vars(e) <= env.Keys
    ensures r.Ok? ==> r.value == Eval(e, env)
  {
    match e
    case Lit(v) => Ok(v)
    case Sym(n) => Ok(env[n])
    case Bin(op, l, r) =>
      var x :- ConcreteEval(l, env);
      var y :- ConcreteEval(r, env);
      Arith.Apply(op, x, y)
    case Neg(a) =>
      var x :- ConcreteEval(a, env);
      Ok(-x)
  }

  /** A model gives a term the value fixed by the constants the term
      mentions: two models that agree on those agree on the term. */
  lemma {:induction false} EvalReadsVars(e: Expr, env1: map<string, int>, env2: map<string, int>)
    requires Vars(e) <= env1.Keys && Vars(e) <= env2.Keys
    requires forall n :: n in Vars(e) ==> env1[n] == env2[n]
    ensures Eval(e, env1) == Eval(e, env2)
  {
    match e
    case Lit(_) =>
    case Sym(_) =>
    case Bin(_, l, r) =>
      EvalReadsVars(l, env1, env2);
      EvalReadsVars(r, env1, env2);
    case Neg(a) =>
      EvalReadsVars(a, env1, env2);
  }

  // ---------------------------------------------------------------------------
  // Division guards

  /** Every division in the term has a divisor that is not zero. */
  predicate DivisorsNonZero(e: Expr, env: map<string, int>)
    requires Vars(e) <= env.Keys
  {
    match e
    case Lit(_) => true
    case Sym(_) => true
    case Bin(op, l, r) =>
      DivisorsNonZero(l, env) && DivisorsNonZero(r, env) && (IsDivision(op) ==> Eval(r, env) != 0)
    case Neg(a) => DivisorsNonZero(a, env)
  }

  /** With every divisor non-zero Python never raises `ZeroDivisionError`. */
  lemma {:induction false} NonZeroDivisorsDoNotRaise(e: Expr, env: map<string, int>)
    requires Vars(e) <= env.Keys
    requires DivisorsNonZero(e, env)
    ensures ConcreteEval(e, env) != Err(Arith.ZeroDivision)
  {
    match e
    case Lit(_) =>
    case Sym(_) =>
    case Bin(_, l, r) =>
      NonZeroDivisorsDoNotRaise(l, env);
      NonZeroDivisorsDoNotRaise(r, env);
    case Neg(a) =>
      NonZeroDivisorsDoNotRaise(a, env);
  }

  predicate GuardVarsIn(gs: seq<Expr>, keys: set<string>)
  {
    forall k :: 0 <= k < |gs| ==> Vars(gs[k]) <= keys
  }

  /** Every guard term is non-zero: the constraints `g != 0` all hold. */
  predicate AllNonZero(gs: seq<Expr>, env: map<string, int>)
    requires GuardVarsIn(gs, env.Keys)
  {
    forall k :: 0 <= k < |gs| ==> Eval(gs[k], env) != 0
  }

  /** `_avoid_zero_div` as written: an int or a node with fewer than two
      children (a constant, a literal, a negation) adds nothing; a `bvsdiv`
      node adds its divisor and is not looked into further; any other node is
      searched child by child. */
  function AvoidZeroDiv(e: Expr): (gs: seq<Expr>)
    ensures GuardVarsIn(gs, Vars(e))
  {
    match e
    case Lit(_) => []
    case Sym(_) => []
    case Neg(_) => []
    case Bin(op, l, r) =>
      if op == Arith.TruncDiv then [r] else AvoidZeroDiv(l) + AvoidZeroDiv(r)
  }

  /** Every divisor of the term, wherever it sits: the guards that make z3's
      reading of the goal the Python one. */
  function DivisorGuards(e: Expr): (gs: seq<Expr>)
    ensures GuardVarsIn(gs, Vars(e))
  {
    match e
    case Lit(_) => []
    case Sym(_) => []
    case Neg(a) => DivisorGuards(a)
    case Bin(op, l, r) =>
      DivisorGuards(l) + DivisorGuards(r) + (if IsDivision(op) then [r] else [])
  }

  lemma AllNonZeroAppend(a: seq<Expr>, b: seq<Expr>, env: map<string, int>)
    requires GuardVarsIn(a, env.Keys) && GuardVarsIn(b, env.Keys)
    ensures GuardVarsIn(a + b, env.Keys)
    ensures AllNonZero(a + b, env) <==> AllNonZero(a, env) && AllNonZero(b, env)
  {
    assert forall k :: 0 <= k < |a| ==> (a + b)[k] == a[k];
    assert forall k :: 0 <= k < |b| ==> (a + b)[|a| + k] == b[k];
  }

  /** The corrected guards hold exactly when no division in the goal has a
      zero divisor. */
  lemma {:induction false} DivisorGuardsExact(e: Expr, env: map<string, int>)
    requires Vars(e) <= env.Keys
    ensures AllNonZero(DivisorGuards(e), env) <==> DivisorsNonZero(e, env)
  {
    match e
    case Lit(_) =>
    case Sym(_) =>
    case Neg(a) =>
      DivisorGuardsExact(a, env);
    case Bin(op, l, r) =>
      DivisorGuardsExact(l, env);
      DivisorGuardsExact(r, env);
      var own: seq<Expr> := if IsDivision(op) then [r] else [];
      AllNonZeroAppend(DivisorGuards(l), DivisorGuards(r), env);
      AllNonZeroAppend(DivisorGuards(l) + DivisorGuards(r), own, env);
      assert DivisorGuards(e) == DivisorGuards(l) + DivisorGuards(r) + own;
      if IsDivision(op) {
        assert own[0] == r;
      }
  }

  /** Every guard `_avoid_zero_div` adds is one of the corrected guards, so
      its constraints are implied by theirs. */
  lemma {:induction false} AvoidZeroDivWeaker(e: Expr, env: map<string, int>)
    requires Vars(e) <= env.Keys
    requires AllNonZero(DivisorGuards(e), env)
    ensures AllNonZero(AvoidZeroDiv(e), env)
  {
    DivisorGuardsExact(e, env);
    WeakerByDivisors(e, env);
  }

  lemma {:induction false} WeakerByDivisors(e: Expr, env: map<string, int>)
    requires Vars(e) <= env.Keys
    requires DivisorsNonZero(e, env)
    ensures AllNonZero(AvoidZeroDiv(e), env)
  {
    match e
    case Lit(_) =>
    case Sym(_) =>
    case Neg(_) =>
    case Bin(op, l, r) =>
      if op != Arith.TruncDiv {
        WeakerByDivisors(l, env);
        WeakerByDivisors(r, env);
        AllNonZeroAppend(AvoidZeroDiv(l), AvoidZeroDiv(r), env);
      }
  }

  /** The guards as written miss a division under a negation, a division
      inside a divided term, and every `%` (`bvsmod`): in each case they all
      hold while Python raises `ZeroDivisionError`. */
  lemma AvoidZeroDivMisses()
    ensures var env := map["x" := 1, "y" := 0, "z" := 1];
      var underNeg := Neg(Bin(Arith.TruncDiv, Sym("x"), Sym("y")));
      var nested := Bin(Arith.TruncDiv, Bin(Arith.TruncDiv, Sym("x"), Sym("y")), Sym("z"));
      var modulo := Bin(Arith.FloorMod, Sym("x"), Sym("y"));
      && AllNonZero(AvoidZeroDiv(underNeg), env) && ConcreteEval(underNeg, env) == Err(Arith.ZeroDivision)
      && AllNonZero(AvoidZeroDiv(nested), env) && ConcreteEval(nested, env) == Err(Arith.ZeroDivision)
      && AllNonZero(AvoidZeroDiv(modulo), env) && ConcreteEval(modulo, env) == Err(Arith.ZeroDivision)
  {
    var env := map["x" := 1, "y" := 0, "z" := 1];
    var nested := Bin(Arith.TruncDiv, Bin(Arith.TruncDiv, Sym("x"), Sym("y")), Sym("z"));
    assert AvoidZeroDiv(nested) == [Sym("z")];
  }
}
